=== FILE: README.md ===
# SariStock POS — a Dafny model of its core

SariStock is a point-of-sale system for a small shop. It has a PHP back
end over MySQL and a browser front end in plain JavaScript. This project
models the core of both sides as pure functions over immutable data.

The back end's request handlers are modelled on a `Schema.Db` value:

- `categories.php`, `customers.php`, `employees.php`, `products.php` and
  `sales.php`: create, read, update and delete;
- the sales transaction, with its rollback;
- `CheckSetup.php`'s first-run check.

Each handler takes the database and the request, and gives back the new
database and the JSON reply. The browser code that shapes those requests
is modelled next to it:

- the till in `pos.js`: cart, quantities, totals and the checkout
  round trip;
- the form checks in `categories.js`, `employees.js` and `products.js`;
- the report computations in `reports.js`: KPIs, top category, the sales
  chart, the stock chart and `formatCurrency`.

Modelling choices:

- Tables are sequences of rows in insertion order. Each table with a
  generated key has its own AUTO_INCREMENT counter.
- Money is held in integer centavos. The 10 % tax rate is written in
  basis points (1000).
- PHP `empty`, PHP `trim` and JavaScript `trim` are each modelled with
  their own rules. Each trim has its own set of whitespace characters.
- SQL `LIKE '%term%'` is modelled as a substring test. `toLowerCase` is
  modelled as ASCII lower-casing.
- Every call whose outcome the model cannot see becomes a parameter:
  - `NOW()` is a timestamp argument;
  - `toLocaleDateString` is a labelling function;
  - the signed-in user is an `Option<int>`;
  - a database failure inside the sales transaction is a `fault` step
    number.

The modules follow the program's files:

| module | file | models |
|---|---|---|
| `Common` | common.dfy | PHP/JS `trim`, PHP `empty`, lower-casing, `LIKE`, string order |
| `Rows` | rows.dfy | filtering, counting, keyed lookup and sorting of table rows |
| `Schema` | schema.dfy | the tables, their keys and counters, and the well-formedness invariant |
| `Categories`, `Customers`, `Employees`, `Products`, `Sales` | one file each | the PHP handlers |
| `Setup` | setup.dfy | `SetupChecker::isSystemSetup` and the `needs_setup` reply |
| `Pos`, `Checkout` | pos.dfy, checkout.dfy | the till and its round trip to `sales.php` |
| `CategoryForm`, `EmployeeForm`, `ProductForm` | one file each | the browser-side form checks, and the requests of the category screen |
| `Tally`, `Reports`, `Currency` | one file each | the report computations of reports.js |

## Model

| member | source | states |
|---|---|---|
| Common.TrimStart | categories.php:14 | the result is a suffix of the input, everything dropped is whitespace, and what is left does not start with whitespace |
| Common.TrimEnd | categories.php:14 | the result is a prefix of the input, everything dropped is whitespace, and what is left does not end with whitespace |
| Common.Trim | categories.php:14-16 | the trimmed text is the input with whitespace dropped at both ends and nowhere else, and it neither starts nor ends with whitespace; it is empty exactly when the input is all whitespace, so `empty(trim(x))` refuses a blank name |
| Common.TrimUnchanged | employees.php:14-21 | text with no whitespace at either end is left alone by trim; for example the username "0" stays "0" |
| Common.Contains | categories.js:220 | `includes` is true exactly when the term occurs at some position of the text |
| Common.Like | customers.php:64-67 | the search clause `LIKE "%$search%"` (also employees.php:94-97 and products.php:81-84) keeps the term's `%`, `_` and `\` as wildcards and escape; for a term without them it is exactly the case-insensitive substring test |
| Common.LikeWildcards | employees.php:95-96 | the term's own characters are live: "a_c" finds "abc", which does not contain "a_c"; `\%` finds only a percent sign; a lone `%` finds every string; and "a\b" does not find itself |
| Common.SelfLike | products.php:82-83 | any text without a backslash is found by searching for itself |
| Common.LexLeTotal | categories.php:54 | any two names can be compared by `ORDER BY Category_Name` |
| Common.LexLeTransitive | categories.php:54 | the name order is transitive, so a sorted listing is ordered pairwise |
| Rows.Filter | products.php:64-97 | a `WHERE` keeps exactly the rows that satisfy it, in table order, each as often as in the table |
| Rows.FilterAppend | products.php:64-97 | filtering a table that has rows appended is filtering the old rows and then the new ones |
| Rows.Count | categories.php:89-96 | `COUNT(*) > 0` holds exactly when some row satisfies the condition |
| Rows.SumByAppend | reports.js:62-65 | the sum over appended rows is the sum of the two parts |
| Rows.SubseqUnique | categories.php:100 | deleting rows keeps the remaining primary keys unique |
| Rows.FindIndex | pos.js:94 | `find` returns the first row with the key, and None exactly when no row has it |
| Rows.Lookup | categories.php:35-47 | a keyed read returns a row of the table with that key, and None exactly when there is none; with unique keys it is the only such row |
| Rows.RemoveKey | pos.js:121-124 | removing a key keeps exactly the other rows, in order, and changes nothing when the key is absent |
| Rows.Insert | products.php:87 | inserting into a sorted listing keeps it sorted and adds exactly that row |
| Rows.Sort | products.php:87 | `ORDER BY` returns a permutation of the rows that is sorted by the column |
| Schema.AppendFreshKey | categories.php:21-26 | an insert under the AUTO_INCREMENT counter keeps keys unique and below the advanced counter |
| Schema.SubseqKeys | categories.php:100 | a `DELETE` keeps keys unique and below the counter |
| Schema.NameOrdersArePreorders | products.php:87 | ordering by product, customer or category name is a total preorder |
| Schema.DateOrdersArePreorders | sales.php:136 | newest-first ordering of sales and of employees is a total preorder |
| Categories.Create | categories.php:13-30 | a name blank after trim is refused and nothing changes; otherwise one category with the trimmed name is appended under the counter, and nothing else changes |
| Categories.Update | categories.php:64-83 | a blank name is refused; otherwise only the row with that id is renamed, and every id and every other table stays the same |
| Categories.ProductsIn | categories.php:89-96 | the product count is positive exactly when some product references the category |
| Categories.Delete | categories.php:85-109 | a category in use is refused with nothing changed; otherwise exactly the rows with that id go, in order |
| Categories.ReadOne | categories.php:35-47 | the read fails with "Category not found" exactly when no row has the id; otherwise it returns a row with that id |
| Categories.List | categories.php:48-61 | every category is listed exactly once with its product count, ordered by name |
| Categories.WithCounts | categories.php:50-53 | the `LEFT JOIN ... COUNT` gives each category its own count, with no category dropped |
| Categories.Read | categories.php:32-62 | a non-empty id reads one row; anything else lists all rows |
| Categories.Handle | categories.php:9-113 | the posted `action` picks the handler; any other action gets "Invalid action" with nothing changed; an update or delete without an id matches no row and changes nothing |
| Categories.DeleteKeepsProductCategories | categories.php:85-109 | when every product's category exists, the delete guard keeps it so |
| Categories.KeptCategoryKeepsKey | categories.php:100 | a category other than the deleted one keeps its key |
| Categories.ProductCreateCountsOnce | products.php:14-41 | creating a product raises the count of its own category by one and leaves every other category's count alone |
| Categories.UpdateThenRead | categories.php:64-83 | after an accepted rename, reading the id returns the trimmed new name |
| Categories.CreatePreservesWellFormed | categories.php:13-30 | create keeps every table's keys unique and below their counters |
| Categories.UpdatePreservesWellFormed | categories.php:64-83 | update keeps the database well formed |
| Categories.DeletePreservesWellFormed | categories.php:85-109 | delete keeps the database well formed |
| CategoryForm.Search | categories.js:218-245 | the search shows exactly the loaded categories whose lower-cased name contains the lower-cased term, in loaded order |
| CategoryForm.EmptySearchShowsAll | categories.js:218-222 | an empty search shows every loaded category |
| CategoryForm.FoundByOwnName | categories.js:218-222 | a category is found by its own name, in any letter case |
| CategoryForm.Submit | categories.js:200-216 | a blank trimmed name is refused; otherwise the trimmed name goes to update when an id is set and to create when not |
| CategoryForm.RequestOf | categories.js:200-216 | a refused form sends nothing; otherwise the submit becomes a create or an update request with the trimmed name |
| CategoryForm.Sent | categories.js:60-123 | as written, no request of the screen carries an `action`; the writes carry only the id and the name, and the two GET reads carry no posted field at all |
| CategoryForm.Intended | categories.php:9-113 | the corrected requests carry the action their handler expects, with the same id and name |
| CategoryForm.ScreenRequestsRefused | categories.js:12-155 | as written, every request of the screen is answered "Invalid action" and changes nothing |
| CategoryForm.IntendedRequestsHandled | categories.php:13-109 | with the action posted, loading lists every category, editing reads the one category, and create, update and delete reach their handlers |
| Customers.Stored | customers.php:14-24 | the stored customer carries the id it was stored under, and its name, contact, email and address are each the posted field trimmed |
| Customers.Create | customers.php:13-37 | a blank name is refused with nothing changed; otherwise one customer is appended under the counter |
| Customers.Update | customers.php:83-110 | a blank name is refused; otherwise only the row with that id is rewritten |
| Customers.OrdersOf | customers.php:116-123 | the sales count is positive exactly when some sale names the customer |
| Customers.Delete | customers.php:112-136 | a customer with sales is refused with nothing changed; otherwise exactly the rows with that id go, in order |
| Customers.ReadOne | customers.php:43-55 | the read fails with "Customer not found" exactly when no row has the id |
| Customers.List | customers.php:56-80 | the listing holds exactly the customers whose name or email matches the search as a `LIKE` pattern (wildcards live), each as often as stored and with its order count, ordered by name |
| Customers.WithOrders | customers.php:58-62 | the `LEFT JOIN ... COUNT` keeps every customer, each with its own order count |
| Customers.Read | customers.php:39-81 | a non-empty id reads one row; anything else lists the matching rows |
| Customers.DeleteKeepsSaleCustomers | customers.php:112-136 | when every sale's customer exists, the delete guard keeps it so |
| Customers.KeptCustomerKeepsKey | customers.php:127 | a customer other than the deleted one keeps its key |
| Customers.SaleCountsOnce | customers.php:58-62 | one more sale adds one to its own customer's order count and nothing to any other |
| Customers.CommitCountsForCustomer | sales.php:13-70 | a committed sale adds one to the order count of the customer it names and leaves the others unchanged |
| Customers.CreateThenRead | customers.php:13-55 | a customer just created can be read back under the issued id |
| Customers.CreatePreservesWellFormed | customers.php:13-37 | create keeps the database well formed |
| Customers.UpdatePreservesWellFormed | customers.php:83-110 | update keeps the database well formed |
| Customers.DeletePreservesWellFormed | customers.php:112-136 | delete keeps the database well formed |
| Employees.Create | employees.php:13-54 | a missing field is refused, and so is a username already taken; a create succeeds exactly when neither applies, and then appends one account under the counter |
| Employees.Updated | employees.php:138-158 | an update keeps the id and creation time, keeps the old password when none is given, and otherwise stores the new one |
| Employees.Update | employees.php:113-166 | a missing field is refused, and so is a username held by another account; on success only the row with that id changes |
| Employees.Delete | employees.php:168-198 | the session's own account is refused, and so is a cashier with sales; otherwise exactly the rows with that id go |
| Employees.ReadOne | employees.php:62-76 | the read fails with "Employee not found" exactly when no row has the id; the view has no password |
| Employees.List | employees.php:78-110 | the listing is a permutation of the views of the employees that match the filters, the search as a `LIKE` pattern (wildcards live), one row per matching employee, newest first |
| Employees.Views | employees.php:64-66 | the selected columns are projected row by row, leaving out the password |
| Employees.Read | employees.php:56-111 | a non-empty id reads one row; anything else lists the filtered rows |
| Employees.CreateKeepsUsernamesUnique | employees.php:27-35 | the username check on create keeps usernames unique |
| Employees.UpdateKeepsUsernamesUnique | employees.php:127-136 | the username check on update, which leaves out the row itself, keeps usernames unique |
| Employees.KeepingOwnUsernameIsAllowed | employees.php:127-136 | an update that keeps an employee's own username is not refused as taken |
| Employees.DeleteKeepsCashiers | employees.php:178-189 | when every sale's cashier exists, the delete guard keeps it so |
| Employees.CreateThenRead | employees.php:13-76 | an account just created reads back with its trimmed names, role, status and creation time |
| EmployeeForm.Submit | employees.js:287-353 | the five checks run in source order and the first that fails gives its message; otherwise the trimmed fields, plus the password only when one was typed, go to update or create |
| EmployeeForm.SentMeansValid | employees.js:298-333 | whatever is sent grants Admin only from an Admin, has non-empty fields, has a password on every create, and never has a typed password shorter than 6 |
| EmployeeForm.DemotionKeepsAnAdmin | employees.js:305-317 | an update that takes the Admin role from a loaded Admin is sent only when another active Admin is loaded |
| EmployeeForm.ValidIsSent | employees.js:298-353 | conversely, a form that passes every check is sent |
| EmployeeForm.ZeroUsernamePassesFormOnly | employees.js:319-323 | a username "0" passes the browser check but is refused by the server's `empty` test |
| EmployeeForm.ZeroUsernameSent | employees.js:319-344 | a new employee named "0" is sent to create with username "0" |
| EmployeeForm.ZeroIsEmpty | employees.php:21 | the server refuses to create an account with username "0" |
| EmployeeForm.RequestDelete | employees.js:138-150 | the signed-in user's own row is refused; any other row is sent exactly when the user confirms |
| EmployeeForm.DeleteGuardsAgree | employees.php:172 | the browser's own-account guard and the server's agree in both directions |
| Products.Stored | products.php:14-20 | the stored product has the trimmed name and the category, price, stock and status as posted |
| Products.Create | products.php:14-41 | a blank name, category or price is refused with nothing changed; otherwise one product is appended under the counter |
| Products.Update | products.php:100-131 | invalid input is refused; otherwise only the row with that id is rewritten |
| Products.Delete | products.php:133-145 | after a delete no row has the id, every other row stays, and the delete always reports success |
| Products.CategoryName | products.php:50-53 | the corrected `LEFT JOIN`, against the `categories` table, gives the category's name, or NULL when no category has that id |
| Products.ReadOne | products.php:49-63 | with the corrected join, the read fails with "Product not found" exactly when no row has the id; otherwise the row comes with its category name |
| Products.List | products.php:64-97 | the corrected listing holds exactly the products that match the category, status and name-search filters, the search as a `LIKE` pattern (wildcards live), each as often as stored and with its category name, ordered by name |
| Products.JoinCategories | products.php:65-68 | the corrected `LEFT JOIN` keeps every product, in order, and attaches its own category name |
| Products.ReadOneAsWritten | products.php:49-63 | as written, the read fails with a database error when there is no `category` table; otherwise it is the corrected read with names taken from `category` |
| Products.ListAsWritten | products.php:65-82 | as written, the listing fails with a database error when there is no `category` table or a search is given; otherwise it is the corrected listing with names taken from `category` |
| Products.SearchByNameFails | products.php:82 | searching for an existing product's own name fails as written, but finds it in the corrected listing when the name holds no backslash |
| Products.CategoryJoinAsWritten | products.php:52 | a product whose category exists cannot be read as written without a `category` table, and with one shows a name only when that table holds its category id; the corrected read always shows the name |
| Products.CategoryJoinExample | products.php:50-53 | one category and one product in it: as written the read fails, or shows no category name, while the corrected read shows it |
| Products.Read | products.php:43-98 | a non-empty id reads one row and anything else lists the filtered rows, both through the corrected `categories` join |
| Products.CreateThenRead | products.php:14-63 | a product just created reads back under the issued id |
| Products.CreatePreservesWellFormed | products.php:14-41 | create keeps the database well formed |
| Products.UpdatePreservesWellFormed | products.php:100-131 | update keeps the database well formed |
| Products.UpdateThenRead | products.php:100-131 | after an accepted update, reading the id returns the new fields |
| Products.DeletePreservesWellFormed | products.php:133-145 | delete keeps the database well formed, and the deleted id then reads as not found |
| ProductForm.Submit | products.js:291-317 | the form is refused with one message exactly when the name is blank, no category is chosen, the price is at most 0 or the stock is below 0; otherwise the five fields go to update when an id is set and to create when not |
| ProductForm.SentMeansValid | products.js:299-302 | what is sent has a name and a category, a positive price when the price is a number, and a non-negative stock when the stock is a number |
| ProductForm.NaNPriceIsSent | products.js:295-302 | a price that does not parse is not stopped by the check |
| ProductForm.QtyForNonNegative | sales.php:55-60 | items with non-negative quantities take a non-negative total from each product's stock |
| ProductForm.SaleKeepsLowStockLow | products.js:94 | a committed sale never clears a product's low-stock mark |
| Sales.ApplyItems | sales.php:42-61 | the item loop appends one detail row per item in order, and lowers each product's stock by its total quantity in the items; a fault in any of its statements aborts it |
| Sales.Create | sales.php:13-70 | missing data is refused with the database unchanged; a fault rolls back every table, and a fault after the header insert leaves the sale counter one higher; a commit appends the header, then the details, then the stock decrements, under the next sale id |
| Sales.QtyForAppend | sales.php:42-61 | the quantity taken from a product by two item lists is the sum of the two |
| Sales.CreateLeavesOthersAlone | sales.php:55-60 | a product not in the sale keeps its row, and the earlier sales are kept |
| Sales.StockCanGoNegative | sales.php:55-60 | no stock check is made: a sale of 2 units of a product with 1 in stock commits and leaves -1 |
| Sales.CreatePreservesWellFormed | sales.php:13-70 | a sale, committed or rolled back, keeps the database well formed |
| Sales.UpdateStatus | sales.php:149-164 | only the status of the sale with that id changes; no stock moves |
| Sales.UpdateStatusIdempotent | sales.php:149-164 | setting the same status twice is the same as setting it once |
| Sales.RefundIsReversible | sales.php:149-164 | a refund can be set back to Completed, and neither step moves stock |
| Sales.ListSales | sales.php:107-146 | the listing is exactly the sales that pass the date, payment and status filters, each as often as stored, newest first |
| Sales.CustomerName | sales.php:81-83 | the `LEFT JOIN customer` gives the customer's name, or NULL for a walk-in sale or a customer no row has |
| Sales.CashierName | sales.php:81-84 | the `LEFT JOIN employee` gives the cashier's full name, or NULL when no employee has the id |
| Sales.ListRows | sales.php:108-146 | the answered listing is the filtered listing row for row, each sale with its customer's and cashier's names; it holds a sale's row exactly when the sale passes the filters |
| Sales.JoinItems | sales.php:93-96 | the inner join shows exactly the sale's detail rows whose product still exists, each with that product's name |
| Sales.JoinItemsCounts | sales.php:93-96 | each such detail row is shown as often as it is stored, and no other detail row is shown |
| Sales.ReadSale | sales.php:79-106 | the read fails with "Sale not found" exactly when no sale has the id; otherwise it is the header with its customer's and cashier's names and its joined items |
| Sales.Read | sales.php:72-147 | a non-empty id reads one sale; anything else lists the filtered sales with their names |
| Sales.ReadAfterCreate | sales.php:13-106 | a committed sale reads back with its header and with a row for each item whose product exists |
| Setup.IsSystemSetup | CheckSetup.php:13-24 | the system is set up exactly when an active Admin exists; a failed query counts as not set up |
| Setup.NeedsSetup | CheckSetup.php:31-35 | a GET needs setup exactly when no active Admin exists or the query fails; any other method never does |
| Setup.InactiveAdminsDoNotCount | CheckSetup.php:15 | Admin accounts that are not Active do not set the system up |
| Setup.CreatingActiveAdminSetsUp | employees.php:13-54 | creating an active Admin sets the system up |
| Setup.CreateKeepsSetup | employees.php:40-52 | no employee create undoes setup |
| Pos.AddToCart | pos.js:93-119 | adding a product below its stock raises its cart quantity by one, with a new line appended for a product not yet in the cart; at or above stock the cart is unchanged; other lines stay; every existing line keeps its product, name and price; the changed line's subtotal is quantity times price |
| Pos.RemoveFromCart | pos.js:121-124 | exactly the other lines are kept, in order |
| Pos.UpdateQuantity | pos.js:126-141 | an unknown id leaves the cart alone, a quantity of 0 or less removes the line, one above stock is refused, and otherwise the line's quantity becomes exactly the one asked for |
| Pos.SetQuantity | pos.js:137-138 | only that line changes: its quantity becomes the one asked for and its subtotal that quantity times its price |
| Pos.AddKeepsCartValid | pos.js:93-119 | adding keeps the cart valid: one line per product, each for a loaded product, with a quantity between 1 and the stock and a subtotal of quantity times price |
| Pos.UpdateKeepsCartValid | pos.js:126-141 | a quantity change keeps the cart valid |
| Pos.RemoveKeepsCartValid | pos.js:121-124 | a removal keeps the cart valid |
| Pos.IncreaseAgreesWithAdd | pos.js:187-190 | the + button on a line does what adding the product again does |
| Pos.DecreaseFromOneRemoves | pos.js:192-195 | the − button on a line of quantity 1 removes it |
| Pos.SubtotalIsQuantityTimesPrice | pos.js:178 | on a valid cart the sum of line subtotals is the sum of quantity times price |
| Pos.SaleTotal | pos.js:230 | the total is within half a centavo of subtotal × (1 + tax rate), and exact when that product is a whole number of centavos |
| Pos.Submission | pos.js:219-240 | an empty cart or a missing payment method is refused with its message; otherwise the request carries the customer, the method, the taxed total and one item per cart line |
| Pos.AfterReply | pos.js:244-251 | on success the cart and payment method are cleared and the products reloaded; on failure the screen is unchanged |
| Pos.ClearCart | pos.js:213-217 | clearing empties the cart and nothing else |
| Pos.LoadProducts | pos.js:20-41 | the till offers exactly the Active products of the listing |
| Checkout.Reload | pos.js:248 | after a sale every active product is offered again, with its new stock, read through the corrected listing |
| Checkout.EveryProductListed | products.php:64-97 | the unfiltered listing the till loads holds every product |
| Checkout.CompleteSale | pos.js:219-258 | a refused submission changes nothing; a failed server reply leaves the till and every table as they were, with at most the sale counter advanced; success clears the cart and payment method and reloads the products through the corrected listing |
| Checkout.CartQuantities | sales.php:42-61 | the stock taken from each product by the submitted items is its quantity in the cart |
| Checkout.CompleteSaleCommitsCart | pos.js:219-258 | a valid cart with a payment method commits one sale for the taxed total and lowers each product's stock by its cart quantity |
| Checkout.FreeCartIsRefused | sales.php:20 | a cart whose subtotal is 0 sends a total of 0, which the server refuses as missing data |
| Checkout.FaultLeavesTables | sales.php:26-68 | a database fault anywhere in the transaction rolls back every table, and the till keeps its cart; only a fault after the header insert moves the sale counter on |
| Tally.Accumulate | reports.js:96-100 | the `obj[k] = (obj[k] \|\| 0) + a` loop gives one property per key, in first-seen order, each holding the sum of its key's amounts, with the same grand total |
| Tally.AddToTallies | reports.js:561-568 | one more point keeps that tally |
| Reports.Kpis | reports.js:62-65 | total sales is the sum of the totals, transactions their number, and the average times the number is the total (0 when there are no sales) |
| Reports.AverageWithinSales | reports.js:62-65 | the average order lies between the smallest and the largest sale |
| Reports.FindTopCategory | reports.js:91-117 | with no usable reply, or no product with a category name, the top category is "N/A"; otherwise it is a category name at least as frequent as every other, and the first such name to appear in the products listing |
| Reports.ScanCounts | reports.js:102-112 | the scan returns the first entry with the largest count, or "N/A" when there are no entries |
| Reports.TopOfCounts | reports.js:96-112 | the entry the scan returns is a most frequent category name and the first of them in the listing |
| Reports.ProcessSalesData | reports.js:553-574 | no sales give the sample week; otherwise the chart has distinct labels, exactly the dates of the sales in order of first appearance, each holding the sum of that date's totals, with the same grand total |
| Reports.TallyChart | reports.js:570-571 | `Object.keys` and `Object.values` of a tally give distinct labels, exactly the keys in order of first appearance, each with its sum |
| Reports.ChartAddsUpToKpi | reports.js:553-574 | the chart's bars add up to the KPI total sales |
| Reports.TopByStock | reports.js:643-645 | the top five are a sub-multiset of the products, in descending stock order, and no product left out has more stock than one kept |
| Reports.ProcessProductsData | reports.js:626-670 | no products give the sample chart; otherwise up to five bars in descending stock order, each with its product's name and stock, coloured from the palette |
| Currency.DigitChar | reports.js:419 | a digit below 10 is written as a decimal digit character |
| Currency.Digits | reports.js:419 | a number is written with at least one digit and no leading zero |
| Currency.ValueOfDigits | reports.js:419 | reading back the digits of a number gives that number |
| Currency.Cents | reports.js:419 | the centavos are always written as exactly two digits |
| Currency.GroupCount | reports.js:419 | a run of whole groups has a length of three times the group count |
| Currency.GroupsAreWhole | reports.js:419 | any positive number of groups of three is a whole-group run |
| Currency.CommaWhereGroupsFollow | reports.js:419 | in the integer digits, a comma goes after every digit that has whole groups of three after it |
| Currency.CommaOnlyWhereGroupsFollow | reports.js:419 | a comma goes after no other integer digit |
| Currency.NoCommaOutsideDigits | reports.js:419 | no comma goes after a non-digit, or after a digit with no decimal point after it |
| Currency.SpreadIsGrouping | reports.js:419 | inserting the matched commas groups the digits in threes from the right |
| Currency.FixedShape | reports.js:419 | `toFixed(2)` gives an optional minus sign, the integer digits, a point and two centavo digits |
| Currency.FixedMatches | reports.js:419 | the regular expression matches only inside the integer digits, and there by the rule of three |
| Currency.FormatGroupsThousands | reports.js:418-420 | the result is the peso sign, the sign, the integer digits grouped in threes, a point and two centavo digits |
| Currency.FormatParts | reports.js:418-420 | the same shape, with the text after the peso sign taken as one part |
| Currency.StripGrouping | reports.js:419 | removing the commas from grouped digits gives the digits back |
| Currency.StripFormatted | reports.js:418-420 | without its peso sign and commas the formatted amount is the `toFixed(2)` text |
| Currency.CentsValue | reports.js:419 | the two centavo digits read back as the amount modulo 100 |
| Currency.UnsignedReadsBack | reports.js:419 | the integer digits and centavos read back as the amount's absolute value |
| Currency.FixedReadsBack | reports.js:419 | the `toFixed(2)` text reads back as the amount |
| Currency.FormatRoundTrip | reports.js:418-420 | the formatted amount, read back after dropping the peso sign and commas, is the amount in centavos |

## Left out

- Database and transport errors other than the sales transaction's fault.
  - These are the `catch` blocks that answer "Database error: " followed by the driver's message.
  - They are not modelled, because the text comes from the MySQL driver.
  - The sales transaction's rollback is modelled, through the `fault` step.
- MySQL behaviour:
  - collation: usernames, `LIKE` searches and name ordering follow a case-insensitive collation, as ASCII lower-casing; the `=` comparisons below are modelled as exact;
  - foreign keys are not modelled; the delete guards are modelled instead.
- Common.LikeMatch: assumes MySQL's default `LIKE` escape character `\`, which the NO_BACKSLASH_ESCAPES SQL mode turns off. A `\` that ends the pattern is read as a literal backslash.
- Products.SearchByNameFails: promises that the corrected listing finds a product by its own name only when the name holds no backslash. `LIKE` reads a backslash as an escape, so a name such as "a\b" does not find itself (Common.LikeWildcards).
- Setup.ActiveAdmin: compares `Role` with "Admin" and `Status` with "Active" exactly; under MySQL's default case-insensitive collation "admin" or "ACTIVE" would also match.
- Employees.Matches: the role and status filters compare exactly, not under the case-insensitive collation.
- Products.Matches: the status filter compares exactly, not under the case-insensitive collation.
- Sales.MatchesFilter: the payment-method and status filters compare exactly, not under the case-insensitive collation.
- Checkout.CompleteSale: a walk-in sale is the customer None, stored as NULL. The browser actually posts `Customer_ID` as ''. MySQL in strict mode refuses '' for an integer column, so the header insert fails as a fault at step 0 does. Outside strict mode it stores 0. The model makes neither choice.
- Pos.Submission: the walk-in customer is None rather than the '' the browser posts; see Checkout.CompleteSale.
- Numbers are exact integers, not floating point.
  - Prices and totals are integer centavos and the tax rate is in basis points.
  - Pos.SaleTotal rounds to the nearest centavo. The browser computes a double and sends its decimal text.
  - The text parsing of `parseInt`/`parseFloat` becomes the `Num` datatype. A field that does not parse is `NaN`.
  - The price string "0.00", which PHP's `empty` treats as non-empty, is not modelled.
- The till's fields are modelled as numbers, and nothing in pos.js converts them. What the browser receives depends on the PHP version and driver settings:
  - before PHP 8.1, or with `PDO::ATTR_STRINGIFY_FETCHES` set, pdo_mysql hands `Price`, `Stock_Quantity` and `Product_ID` over as strings;
  - from PHP 8.1 on, with the default emulated prepares, integer columns arrive as numbers, and only a DECIMAL `Price` stays a string.
  The five lines below say what each member does not model where those fields are strings.
- Pos.Subtotal: is the integer sum of the line subtotals. Where `Price` is a string, a new line's `SubTotal` is that string, and `reduce` with `+` concatenates text.
- Pos.SaleTotal: is computed from that integer subtotal. With string subtotals the browser multiplies the concatenated text, which gives NaN once two lines still hold their string subtotals.
- Pos.Submission: posts that integer total. With string subtotals the browser can post "NaN".
- Pos.RemoveFromCart: removes the lines with the id. Where `Product_ID` is a string, the buttons' number literal never matches under `!==`, and nothing is removed. Where it is a number, the browser does what the model does.
- Pos.UpdateQuantity: finds the line and product by id. Where `Product_ID` is a string, the browser's `===` lookup fails and the quantity buttons do nothing. Where it is a number, the browser does what the model does.
- Text handling:
  - string lengths count characters, not UTF-16 code units;
  - lower-casing covers ASCII only.
- Object and sort order:
  - `Object.entries` puts integer-like keys first. The model keeps plain insertion order, which is right for category names and date labels that are not integers.
  - Rows.Sort, and every `ORDER BY` built on it, does not fix the order of ties. MySQL does not fix it either. The browser's `.sort` at reports.js:645 is stable, so Reports.TopByStock leaves open an order of equal stocks that the source fixes.
- Reports.FindTopCategory and Reports.ScanCounts model the method body. The `try`/`catch` around it cannot be reached from the modelled inputs.
- Reports.Kpis models the computation on a successful reply. The fetch failures of `loadKPIData` are left out.
- Reports.ProcessSalesData takes `toLocaleDateString` as a parameter, because the browser locale is outside the model.
- Employees.Create stores a password as an opaque `Hashed` wrapper, because `password_hash` is a foreign call.
- Employees.Delete takes the session's employee id as a parameter, because `$_SESSION` is outside the model.
- EmployeeForm.RequestDelete takes the signed-in user and the confirm dialog's answer as parameters.
  - A null `currentUser` is the None case.
- The `NOW()` timestamps of sales and employees are parameters.
- Rendering, the DOM, notifications and event wiring are not modelled.
- The till's product search and category filter are not modelled. Their handlers call `filterProducts` and `searchProducts`, which `PointOfSale` does not define, so each event throws a TypeError and nothing is filtered.
- Session handling, login, backup, settings and the dashboard are not part of this model. So are `transaction.js`, `customers.js` and `main.js`.
- `generateProductsChart` is not modelled. It posts an empty form, which carries no `action`, so products.php:147-148 answers "Invalid action". reports.js:585-588 then calls `createProductsChart([])`. The live page therefore always draws the sample chart, and the real-data branch of Reports.ProcessProductsData is never reached from the screen.
- Checkout.Reload states one direction only: every active product is offered again. Pos.LoadProducts carries both directions.
- Checkout.Reload uses the corrected product listing, which joins `categories`. As written, the reload posts `read` to products.php, whose query joins `category`. Where that table is missing, the reply is a failure, and pos.js:32-37 keeps the products from before the sale, with their old stock.
- Checkout.CompleteSale installs that corrected reload on success. It does not model the as-written case where the reload fails and the till keeps the stale products.
- Products.Read dispatches to the corrected Products.ReadOne and Products.List. The as-written reads are Products.ReadOneAsWritten and Products.ListAsWritten. Those fail without a `category` table, and on any search.

## Findings

| source | as written | input that shows it | evidently intended | confidence | as-written member | corrected member |
|---|---|---|---|---|---|---|
| products.php:82 | the search clause reads `p.Product_Name LIKE :search OR p. LIKE :search`, which has no column after `p.`, so MySQL rejects the statement | any non-empty `search`, for example the name of a product that exists | search the product name | not executed | Products.ListAsWritten | Products.List |
| products.php:52 | both read queries `LEFT JOIN category`, but categories.php creates, renames and deletes categories in `categories`, so the join reads a table nothing in the system writes | one category "Toiletries" and one product in it (Products.CategoryJoinExample): without a `category` table the read fails; with an empty one the product shows no category name | join `categories` | not executed | Products.ReadOneAsWritten | Products.ReadOne |
| categories.js:60-68 | `createCategory`, `updateCategory` and `deleteCategory` post no `action` field, and `loadCategories` and `editCategory` send GET requests, so categories.php answers every request of the screen "Invalid action" (CategoryForm.ScreenRequestsRefused) | creating a category named "Snacks" from the form | post `action` = create, update, delete or read. Editing needs a second fix as well: `editCategory` tests `result.data.length > 0` and reads `result.data[0]` (categories.js:146-147), but the single read answers one object (categories.php:44), so even the corrected request shows "Error loading category". CategoryForm.IntendedRequestsHandled covers only the server side. | not executed | CategoryForm.Sent | CategoryForm.Intended |

The browser-side checks also differ from the server's in two ways. Both
are proved as lemmas, and neither is a coding slip.

- EmployeeForm.ZeroUsernamePassesFormOnly: a username "0" passes the form
  but not PHP's `empty`.
- Checkout.FreeCartIsRefused: a cart whose subtotal is 0 is refused by
  the server.

=== FILE: categories.dfy ===
/** categories.php: product categories. A category needs a non-blank name,
    cannot be deleted while a product belongs to it, and is listed with the
    number of its products. */
module Categories {
  import opened Common
  import opened Rows
  import opened Schema
  import Products

  /** A listed category with `product_count`. */
  datatype CategoryRow = CategoryRow(category: Category, productCount: nat)

  const NameRequired := "Category name is required"
  const HasProducts := "Cannot delete category with existing products"

  /** PHP `empty` on the trimmed name. */
  predicate Rejected(name: string) {
    PhpEmpty(Trim(Php, name))
  }

  /** categories.php `create`: refused without a name; otherwise the trimmed
      name is stored under the next `Category_ID`. */
  function Create(db: Db, name: string): (r: (Db, Reply))
    ensures Rejected(name) ==> r == (db, Failure(NameRequired))
    ensures !Rejected(name) ==>
              && r.1 == Success("Category created successfully")
              && r.0.categories == db.categories + [Category(db.nextCategoryId, Trim(Php, name))]
              && r.0 == db.(categories := r.0.categories, nextCategoryId := db.nextCategoryId + 1)
  {
    if Rejected(name) then (db, Failure(NameRequired))
    else
      (db.(categories := db.categories + [Category(db.nextCategoryId, Trim(Php, name))],
           nextCategoryId := db.nextCategoryId + 1),
       Success("Category created successfully"))
  }

  /** categories.php `update`: the same rule; then that category, and no
      other, takes the trimmed name. */
  function Update(db: Db, id: int, name: string): (r: (Db, Reply))
    ensures Rejected(name) ==> r == (db, Failure(NameRequired))
    ensures !Rejected(name) ==>
              && r.1 == Success("Category updated successfully")
              && r.0 == db.(categories := r.0.categories)
              && |r.0.categories| == |db.categories|
              && forall i | 0 <= i < |db.categories| ::
                   && r.0.categories[i].id == db.categories[i].id
                   && r.0.categories[i].name == if db.categories[i].id == id then Trim(Php, name) else db.categories[i].name
  {
    if Rejected(name) then (db, Failure(NameRequired))
    else
      var cs := seq(|db.categories|, i requires 0 <= i < |db.categories| =>
        if db.categories[i].id == id then db.categories[i].(name := Trim(Php, name)) else db.categories[i]);
      (db.(categories := cs), Success("Category updated successfully"))
  }

  /** The `WHERE Category_ID = :id` of a products count. */
  function InCategory(id: int): Product -> bool {
    (p: Product) => p.categoryId == id
  }

  /** The number of products in category `id`. */
  function ProductsIn(products: seq<Product>, id: int): (n: nat)
    ensures n > 0 <==> exists i | 0 <= i < |products| :: products[i].categoryId == id
  {
    Count(products, InCategory(id))
  }

  /** categories.php `delete`: refused while any product belongs to the
      category; otherwise exactly that row goes. */
  function Delete(db: Db, id: int): (r: (Db, Reply))
    ensures ProductsIn(db.products, id) > 0 ==> r == (db, Failure(HasProducts))
    ensures ProductsIn(db.products, id) == 0 ==>
              && r.1 == Success("Category deleted successfully")
              && r.0 == db.(categories := r.0.categories)
              && (forall c :: c in r.0.categories <==> c in db.categories && c.id != id)
              && SubseqOf(r.0.categories, db.categories)
  {
    if ProductsIn(db.products, id) > 0 then (db, Failure(HasProducts))
    else (db.(categories := RemoveKey(db.categories, CategoryKey, id)), Success("Category deleted successfully"))
  }

  /** categories.php `read` with an id: that category or "Category not found". */
  function ReadOne(db: Db, id: int): (r: Result<Category>)
    ensures r.Err? <==> !HasKey(db.categories, CategoryKey, id)
    ensures r.Err? ==> r.message == "Category not found"
    ensures r.Ok? ==> r.value in db.categories && r.value.id == id
  {
    match Lookup(db.categories, CategoryKey, id)
    case None => Err("Category not found")
    case Some(c) => Ok(c)
  }

  function RowOf(db: Db, c: Category): CategoryRow {
    CategoryRow(c, ProductsIn(db.products, c.id))
  }

  /** categories.php `read` without an id: every category with the number of
      its products, ordered by name. */
  function List(db: Db): (r: seq<CategoryRow>)
    ensures |r| == |db.categories|
    ensures forall c :: RowOf(db, c) in r <==> c in db.categories
    ensures forall i | 0 <= i < |r| :: r[i] == RowOf(db, r[i].category)
    ensures forall i, j | 0 <= i < j < |r| :: CategoryNameLe(r[i].category, r[j].category)
  {
    NameOrdersArePreorders();
    var sorted := Sort(db.categories, CategoryNameLe);
    PermutationMembers(db.categories, sorted);
    WithCounts(db, sorted)
  }

  /** Each category of `cs`, in order, with its number of products. */
  function WithCounts(db: Db, cs: seq<Category>): (r: seq<CategoryRow>)
    ensures |r| == |cs|
    ensures forall i | 0 <= i < |cs| :: r[i] == RowOf(db, cs[i])
    ensures forall c :: RowOf(db, c) in r <==> c in cs
  {
    var r := seq(|cs|, i requires 0 <= i < |cs| => RowOf(db, cs[i]));
    forall c | c in cs ensures RowOf(db, c) in r {
      var i :| 0 <= i < |cs| && cs[i] == c;
      assert r[i] == RowOf(db, c);
    }
    r
  }

  datatype ReadReply = One(category: Result<Category>) | Many(categories: seq<CategoryRow>)

  /** categories.php `read`: a truthy `Category_ID` reads one category,
      anything else lists. */
  function Read(db: Db, id: Option<int>): (r: ReadReply)
    ensures r.One? <==> !PhpEmptyNum(id)
    ensures r.One? ==> r.category == ReadOne(db, id.value)
    ensures r.Many? ==> r.categories == List(db)
  {
    if PhpEmptyNum(id) then Many(List(db)) else One(ReadOne(db, id.value))
  }

  const InvalidAction := "Invalid action"

  /** The posted fields categories.php reads: `action` ("" when missing),
      `Category_ID` (None when missing) and `Category_Name` ("" when
      missing). */
  datatype Post = Post(action: string, categoryId: Option<int>, categoryName: string)

  /** What the handler answers: a write's message or a read's data. */
  datatype Response = Written(reply: Reply) | Fetched(read: ReadReply)

  /** categories.php: the switch on the posted `action`. Anything but the
      four known actions is answered "Invalid action" and changes nothing.
      A missing `Category_ID` binds NULL, which no row matches: an update or
      a delete without one changes nothing and still reports success. */
  function Handle(db: Db, post: Post): (r: (Db, Response))
    ensures post.action !in {"create", "read", "update", "delete"} ==> r == (db, Written(Failure(InvalidAction)))
    ensures post.action == "create" ==> r == (Create(db, post.categoryName).0, Written(Create(db, post.categoryName).1))
    ensures post.action == "read" ==> r == (db, Fetched(Read(db, post.categoryId)))
    ensures post.action == "update" && post.categoryId.Some? ==>
              r == (Update(db, post.categoryId.value, post.categoryName).0,
                    Written(Update(db, post.categoryId.value, post.categoryName).1))
    ensures post.action == "delete" && post.categoryId.Some? ==>
              r == (Delete(db, post.categoryId.value).0, Written(Delete(db, post.categoryId.value).1))
    ensures post.action in {"update", "delete"} && post.categoryId.None? ==> r.0 == db
  {
    match post.action
    case "create" =>
      var (db', reply) := Create(db, post.categoryName);
      (db', Written(reply))
    case "read" => (db, Fetched(Read(db, post.categoryId)))
    case "update" =>
      if post.categoryId.None? then
        (db, Written(if Rejected(post.categoryName) then Failure(NameRequired) else Success("Category updated successfully")))
      else
        var (db', reply) := Update(db, post.categoryId.value, post.categoryName);
        (db', Written(reply))
    case "delete" =>
      if post.categoryId.None? then (db, Written(Success("Category deleted successfully")))
      else
        var (db', reply) := Delete(db, post.categoryId.value);
        (db', Written(reply))
    case _ => (db, Written(Failure(InvalidAction)))
  }

  /** Every product's category is on the list. */
  ghost predicate ProductCategoriesExist(db: Db) {
    forall p | p in db.products :: HasKey(db.categories, CategoryKey, p.categoryId)
  }

  /** The delete guard keeps every product's category. */
  lemma DeleteKeepsProductCategories(db: Db, id: int)
    requires ProductCategoriesExist(db)
    ensures ProductCategoriesExist(Delete(db, id).0)
  {
    var (db', reply) := Delete(db, id);
    if reply.Success? {
      forall p | p in db'.products ensures HasKey(db'.categories, CategoryKey, p.categoryId) {
        var i :| 0 <= i < |db.products| && db.products[i] == p;
        KeptCategoryKeepsKey(db.categories, db'.categories, id, p.categoryId);
      }
    }
  }

  lemma KeptCategoryKeepsKey(cs: seq<Category>, cs': seq<Category>, id: int, k: int)
    requires HasKey(cs, CategoryKey, k) && k != id
    requires forall c :: c in cs' <==> c in cs && c.id != id
    ensures HasKey(cs', CategoryKey, k)
  {
    var i :| 0 <= i < |cs| && cs[i].id == k;
    assert cs[i] in cs';
    var j :| 0 <= j < |cs'| && cs'[j] == cs[i];
  }

  /** Creating a product raises its category's `product_count` by one and
      leaves every other category's count as it was. */
  lemma ProductCreateCountsOnce(db: Db, input: Products.ProductInput, id: int)
    requires !Products.Rejected(input)
    ensures ProductsIn(Products.Create(db, input).0.products, id) ==
            ProductsIn(db.products, id) + (if input.categoryId.value == id then 1 else 0)
  {
    FilterAppend(db.products, [Products.Stored(db.nextProductId, input)], InCategory(id));
  }

  /** A renamed category reads back with the trimmed new name. */
  lemma UpdateThenRead(db: Db, id: int, name: string)
    requires UniqueKeys(db.categories, CategoryKey) && HasKey(db.categories, CategoryKey, id) && !Rejected(name)
    ensures ReadOne(Update(db, id, name).0, id) == Ok(Category(id, Trim(Php, name)))
  {
    var cs := Update(db, id, name).0.categories;
    var k := FindIndex(db.categories, CategoryKey, id).value;
    FindIndexIs(cs, CategoryKey, id, k);
  }

  /** `create`, `update` and `delete` keep the table's keys unique and below
      the counter. */
  lemma CreatePreservesWellFormed(db: Db, name: string)
    requires WellFormed(db) && db.nextCategoryId > 0
    ensures WellFormed(Create(db, name).0)
  {
    if !Rejected(name) {
      AppendFreshKey(db.categories, CategoryKey, db.nextCategoryId, Category(db.nextCategoryId, Trim(Php, name)));
    }
  }

  lemma UpdatePreservesWellFormed(db: Db, id: int, name: string)
    requires WellFormed(db)
    ensures WellFormed(Update(db, id, name).0)
  {
    if !Rejected(name) {
      var cs := Update(db, id, name).0.categories;
      assert forall i | 0 <= i < |cs| :: CategoryKey(cs[i]) == CategoryKey(db.categories[i]);
    }
  }

  lemma DeletePreservesWellFormed(db: Db, id: int)
    requires WellFormed(db)
    ensures WellFormed(Delete(db, id).0)
  {
    if ProductsIn(db.products, id) == 0 {
      SubseqKeys(RemoveKey(db.categories, CategoryKey, id), db.categories, CategoryKey, db.nextCategoryId);
    }
  }
}

=== FILE: category_form.dfy ===
/** categories.js: the browser side of the category screen — the live search
    over the loaded categories, the form's submit, and the requests the
    screen sends to categories.php. */
module CategoryForm {
  import opened Common
  import opened Rows
  import Schema
  import Categories

  /** The search term, lower-cased, occurs in the lower-cased name. */
  predicate NameContains(term: string, c: Categories.CategoryRow) {
    Contains(ToLower(c.category.name), ToLower(term))
  }

  /** The `filter` of `searchCategories`, as a predicate on rows. */
  function Hit(term: string): Categories.CategoryRow -> bool {
    (c: Categories.CategoryRow) => NameContains(term, c)
  }

  /** `categoriesManager.searchCategories(term)`: exactly the loaded
      categories whose lower-cased name contains the lower-cased term, in
      their loaded order. */
  function Search(loaded: seq<Categories.CategoryRow>, term: string): (r: seq<Categories.CategoryRow>)
    ensures forall c :: c in r <==> c in loaded && Occurs(ToLower(term), ToLower(c.category.name))
    ensures SubseqOf(r, loaded)
  {
    Filter(loaded, Hit(term))
  }

  /** An empty search shows every loaded category. */
  lemma EmptySearchShowsAll(loaded: seq<Categories.CategoryRow>)
    ensures Search(loaded, "") == loaded
  {
    forall i | 0 <= i < |loaded| ensures Hit("")(loaded[i]) {
      assert MatchAt(ToLower(""), ToLower(loaded[i].category.name), 0);
    }
    FilterAll(loaded, Hit(""));
  }

  /** A category is found by its own name, whatever the letter case of the
      term. */
  lemma FoundByOwnName(loaded: seq<Categories.CategoryRow>, c: Categories.CategoryRow)
    requires c in loaded
    ensures c in Search(loaded, c.category.name)
    ensures c in Search(loaded, ToLower(c.category.name))
  {
    assert MatchAt(ToLower(c.category.name), ToLower(c.category.name), 0);
    assert ToLower(ToLower(c.category.name)) == ToLower(c.category.name);
  }

  datatype Outcome = Refused(message: string) | SendCreate(name: string) | SendUpdate(id: int, name: string)

  /** `categoriesManager.handleFormSubmit`: a name that is blank after
      JavaScript `trim` is refused; otherwise the trimmed name is sent, as an
      update when the hidden id field is filled and as a create when not. */
  function Submit(id: Option<int>, name: string): (r: Outcome)
    ensures Trim(Js, name) == "" <==> r == Refused("Category name is required")
    ensures r.SendCreate? <==> Trim(Js, name) != "" && id.None?
    ensures r.SendUpdate? ==> id == Some(r.id)
    ensures !r.Refused? ==> r.name == Trim(Js, name) && r.name != ""
  {
    var trimmed := Trim(Js, name);
    if trimmed == "" then Refused("Category name is required")
    else match id
      case None => SendCreate(trimmed)
      case Some(k) => SendUpdate(k, trimmed)
  }

  /** The requests the screen makes: `loadCategories`, `createCategory`,
      `updateCategory`, `deleteCategory` and `editCategory`. */
  datatype Request =
    | LoadCategories
    | CreateCategory(name: string)
    | UpdateCategory(id: int, name: string)
    | DeleteCategory(id: int)
    | EditCategory(id: int)

  /** The request a submit makes, if any: a refused form sends nothing. */
  function RequestOf(o: Outcome): (r: Option<Request>)
    ensures r.None? <==> o.Refused?
    ensures o.SendCreate? ==> r == Some(CreateCategory(o.name))
    ensures o.SendUpdate? ==> r == Some(UpdateCategory(o.id, o.name))
  {
    match o
    case Refused(_) => None
    case SendCreate(name) => Some(CreateCategory(name))
    case SendUpdate(id, name) => Some(UpdateCategory(id, name))
  }

  /** The fields each request carries as categories.js builds it. None of
      them has an `action`: the writes post only `Category_ID` and
      `Category_Name`, and the two reads are GET requests, whose query
      string never reaches `$_POST`. */
  function Sent(q: Request): (p: Categories.Post)
    ensures p.action == ""
    ensures q.LoadCategories? || q.EditCategory? ==> p == Categories.Post("", None, "")
    ensures q.CreateCategory? ==> p.categoryId.None? && p.categoryName == q.name
    ensures q.UpdateCategory? ==> p.categoryId == Some(q.id) && p.categoryName == q.name
    ensures q.DeleteCategory? ==> p.categoryId == Some(q.id)
  {
    match q
    case LoadCategories => Categories.Post("", None, "")
    case CreateCategory(name) => Categories.Post("", None, name)
    case UpdateCategory(id, name) => Categories.Post("", Some(id), name)
    case DeleteCategory(id) => Categories.Post("", Some(id), "")
    case EditCategory(_) => Categories.Post("", None, "")
  }

  /** The fields the handler expects for each request: the same fields with
      the matching `action`, posted. */
  function Intended(q: Request): (p: Categories.Post)
    ensures q.LoadCategories? ==> p == Categories.Post("read", None, "")
    ensures q.EditCategory? ==> p == Categories.Post("read", Some(q.id), "")
    ensures q.CreateCategory? ==> p == Categories.Post("create", None, q.name)
    ensures q.UpdateCategory? ==> p == Categories.Post("update", Some(q.id), q.name)
    ensures q.DeleteCategory? ==> p == Categories.Post("delete", Some(q.id), "")
  {
    match q
    case LoadCategories => Categories.Post("read", None, "")
    case CreateCategory(name) => Categories.Post("create", None, name)
    case UpdateCategory(id, name) => Categories.Post("update", Some(id), name)
    case DeleteCategory(id) => Categories.Post("delete", Some(id), "")
    case EditCategory(id) => Categories.Post("read", Some(id), "")
  }

  /** As written, every request the screen makes is answered "Invalid
      action" and changes nothing: the list never loads, and no category is
      created, renamed or deleted from this screen. */
  lemma ScreenRequestsRefused(db: Schema.Db, q: Request)
    ensures Categories.Handle(db, Sent(q)) == (db, Categories.Written(Failure(Categories.InvalidAction)))
  {
    assert Sent(q).action !in {"create", "read", "update", "delete"};
  }

  /** With the action posted, each request reaches its handler: the list,
      the single category, and the three writes. */
  lemma IntendedRequestsHandled(db: Schema.Db, q: Request)
    ensures q.LoadCategories? ==>
              Categories.Handle(db, Intended(q)) == (db, Categories.Fetched(Categories.Many(Categories.List(db))))
    ensures q.EditCategory? && q.id != 0 ==>
              Categories.Handle(db, Intended(q)) == (db, Categories.Fetched(Categories.One(Categories.ReadOne(db, q.id))))
    ensures q.CreateCategory? ==>
              Categories.Handle(db, Intended(q)) ==
              (Categories.Create(db, q.name).0, Categories.Written(Categories.Create(db, q.name).1))
    ensures q.UpdateCategory? ==>
              Categories.Handle(db, Intended(q)) ==
              (Categories.Update(db, q.id, q.name).0, Categories.Written(Categories.Update(db, q.id, q.name).1))
    ensures q.DeleteCategory? ==>
              Categories.Handle(db, Intended(q)) ==
              (Categories.Delete(db, q.id).0, Categories.Written(Categories.Delete(db, q.id).1))
  {
  }
}

=== FILE: checkout.dfy ===
/** pos.js `completeSale` end to end: the browser's checks and request, the
    commit in sales.php, and the screen's state afterwards. */
module Checkout {
  import opened Common
  import opened Rows
  import opened Schema
  import Sales
  import opened Pos
  import Products

  /** `loadProducts` posts `read` with no filters. */
  const NoFilter := Products.ProductFilter(None, "", "")

  /** The products the screen reloads from `db`: the active rows of the full,
      name-ordered listing. */
  function Reload(db: Db): (r: seq<Item>)
    ensures forall p | p in db.products && IsActive(p) :: ItemOfProduct(p) in r
  {
    var listing := Products.ProductsOf(Products.List(db, NoFilter));
    EveryProductListed(db);
    LoadProducts(listing)
  }

  /** The unfiltered listing holds every product. */
  lemma EveryProductListed(db: Db)
    ensures forall p | p in db.products :: p in Products.ProductsOf(Products.List(db, NoFilter))
  {
    var rows := Products.List(db, NoFilter);
    var listing := Products.ProductsOf(rows);
    forall p | p in db.products ensures p in listing {
      assert Products.Matches(NoFilter, p);
      assert Products.WithCategory(db, p) in rows;
      var i :| 0 <= i < |rows| && rows[i] == Products.WithCategory(db, p);
      assert listing[i] == p;
    }
  }

  /** pos.js `completeSale` against the database `db`. `cashier` is the
      session's employee id, `customer` the selected customer (None for a
      walk-in), `now` the database clock and `fault` the statement at which
      the database raises, if any. The reply is the new `Sale_ID` or the
      message shown. */
  function CompleteSale(t: Terminal, db: Db, cashier: Option<int>, customer: Option<int>, now: int, fault: Option<nat>)
    : (r: (Terminal, Db, Result<int>))
    ensures Submission(t, customer, TaxRateBp).Err? ==>
              r == (t, db, Err(Submission(t, customer, TaxRateBp).message))
    ensures r.2.Err? ==> r.0 == t && (r.1 == db || r.1 == db.(nextSaleId := db.nextSaleId + 1))
    ensures r.2.Ok? ==> r.0.cart == [] && r.0.payment == None && r.0.products == Reload(r.1)
  {
    match Submission(t, customer, TaxRateBp)
    case Err(m) => (t, db, Err(m))
    case Ok(req) =>
      var (db', reply) := Sales.Create(db, cashier, req, now, fault);
      match reply
      case Completed(id) => (AfterReply(t, reply, Reload(db')), db', Ok(id))
      case Failed(m) => (AfterReply(t, reply, []), db', Err("Error completing sale: " + m))
  }

  /** With one line per product, the stock a commit of the cart takes from
      a product is that product's quantity in the cart. */
  lemma {:induction false} CartQuantities(cart: seq<Line>, items: seq<Sales.SaleItem>, pid: int)
    requires UniqueKeys(cart, LineKey)
    requires |items| == |cart|
    requires forall k | 0 <= k < |cart| :: items[k] == ItemOf(cart[k])
    ensures Sales.QtyFor(items, pid) == QtyInCart(cart, pid)
  {
    match FindIndex(cart, LineKey, pid)
    case None =>
      Sales.QtyForAbsent(items, pid);
    case Some(k) =>
      Sales.QtyForSingle(items, pid, k);
  }

  /** A valid cart with a positive subtotal and a chosen payment method,
      submitted by a signed-in cashier with no database fault: the sale is
      recorded under the next id with the taxed total, each product loses
      exactly its cart quantity, and the screen is left with an empty cart,
      no payment method and the reloaded products. */
  lemma CompleteSaleCommitsCart(t: Terminal, db: Db, cashier: Option<int>, customer: Option<int>, now: int)
    requires CartValid(t.cart, t.products) && |t.cart| > 0
    requires PaymentChosen(t) && !PhpEmpty(t.payment.value)
    requires !PhpEmptyNum(cashier) && Subtotal(t.cart) > 0
    ensures
      var (t', db', r) := CompleteSale(t, db, cashier, customer, now, None);
      && r == Ok(db.nextSaleId)
      && t'.cart == [] && t'.payment == None
      && db'.sales == db.sales + [Sale(db.nextSaleId, now, customer, cashier.value,
                                       SaleTotal(Subtotal(t.cart), TaxRateBp), t.payment.value,
                                       Sales.CompletedStatus)]
      && |db'.products| == |db.products|
      && forall i | 0 <= i < |db.products| ::
           db'.products[i] == db.products[i].(stock := db.products[i].stock - QtyInCart(t.cart, db.products[i].id))
  {
    var req := Submission(t, customer, TaxRateBp).value;
    assert SaleTotal(Subtotal(t.cart), TaxRateBp) > 0;
    var (db', reply) := Sales.Create(db, cashier, req, now, None);
    forall i | 0 <= i < |db.products|
      ensures db'.products[i] == db.products[i].(stock := db.products[i].stock - QtyInCart(t.cart, db.products[i].id))
    {
      CartQuantities(t.cart, req.items, db.products[i].id);
    }
  }

  /** A cart whose lines add up to nothing posts a total of 0, which the
      server takes for a missing total: nothing is recorded and the cart
      stays. */
  lemma FreeCartIsRefused(t: Terminal, db: Db, cashier: Option<int>, customer: Option<int>, now: int, fault: Option<nat>)
    requires |t.cart| > 0 && PaymentChosen(t) && Subtotal(t.cart) == 0
    ensures CompleteSale(t, db, cashier, customer, now, fault) ==
            (t, db, Err("Error completing sale: " + Sales.MissingData))
  {
  }

  /** A database fault anywhere in the commit leaves the screen and every
      table exactly as they were, so the same cart can be sent again; only a
      fault after the header insert moves the sale counter past the id the
      rolled-back header had taken. */
  lemma FaultLeavesTables(t: Terminal, db: Db, cashier: Option<int>, customer: Option<int>, now: int, fault: nat)
    requires |t.cart| > 0 && PaymentChosen(t) && !PhpEmpty(t.payment.value)
    requires !PhpEmptyNum(cashier) && Subtotal(t.cart) > 0
    requires fault < 1 + 2 * |t.cart|
    ensures CompleteSale(t, db, cashier, customer, now, Some(fault)) ==
            (t, if fault == 0 then db else db.(nextSaleId := db.nextSaleId + 1),
             Err("Error completing sale: " + DatabaseError))
  {
    assert SaleTotal(Subtotal(t.cart), TaxRateBp) > 0;
    var req := Submission(t, customer, TaxRateBp).value;
    assert !Sales.MissingRequired(cashier, req);
    assert Sales.FaultHits(Some(fault), req.items);
    var (db', reply) := Sales.Create(db, cashier, req, now, Some(fault));
    assert reply == Sales.Failed(DatabaseError);
    assert AfterReply(t, reply, []) == t;
  }
}

=== FILE: common.dfy ===
/** Shared vocabulary of the point-of-sale model: optional values, handler
    replies, and the string rules of the two runtimes the system is written in
    (PHP on the server, JavaScript in the browser). */
module Common {

  /** A value that may be absent: a missing request field, a SQL NULL, a
      lookup that found nothing. */
  datatype Option<+T> = None | Some(value: T)

  /** A handler's result: a value, or the message it reports to the client. */
  datatype Result<+T> = Ok(value: T) | Err(message: string)

  /** The JSON envelope the PHP handlers answer with: `success` and `message`. */
  datatype Reply = Success(message: string) | Failure(message: string)

  /** The prefix of the reply a handler gives when the database raises; the
      driver's own message text that follows it is not modelled. */
  const DatabaseError := "Database error: "

  /** Which runtime's string rules apply. */
  datatype Runtime = Php | Js

  /** The characters `trim` removes: PHP's default list (space, tab, newline,
      carriage return, NUL, vertical tab) or ECMAScript's WhiteSpace and
      LineTerminator productions. */
  predicate IsSpace(rt: Runtime, c: char) {
    match rt
    case Php =>
      c == ' ' || c == '\t' || c == '\n' || c == '\r' || c as int == 0 || c as int == 11
    case Js =>
      || c == ' ' || c == '\t' || c == '\n' || c == '\r'
      || c as int == 11 || c as int == 12 || c as int == 0xA0 || c as int == 0x1680
      || (0x2000 <= c as int <= 0x200A)
      || c as int == 0x2028 || c as int == 0x2029 || c as int == 0x202F
      || c as int == 0x205F || c as int == 0x3000 || c as int == 0xFEFF
  }

  /** `s` with its leading whitespace removed: a suffix of `s` made by
      dropping only whitespace, and starting with a non-space if non-empty. */
  function TrimStart(rt: Runtime, s: string): (r: string)
    ensures |r| <= |s| && r == s[|s| - |r|..]
    ensures forall i | 0 <= i < |s| - |r| :: IsSpace(rt, s[i])
    ensures |r| > 0 ==> !IsSpace(rt, r[0])
  {
    if |s| > 0 && IsSpace(rt, s[0]) then TrimStart(rt, s[1..]) else s
  }

  /** `s` with its trailing whitespace removed: a prefix of `s` made by
      dropping only whitespace, and ending with a non-space if non-empty. */
  function TrimEnd(rt: Runtime, s: string): (r: string)
    ensures |r| <= |s| && r == s[..|r|]
    ensures forall i | |r| <= i < |s| :: IsSpace(rt, s[i])
    ensures |r| > 0 ==> !IsSpace(rt, r[|r| - 1])
  {
    if |s| > 0 && IsSpace(rt, s[|s| - 1]) then TrimEnd(rt, s[..|s| - 1]) else s
  }

  /** `r` is the slice of `s` at `i`, and everything of `s` before and after
      that slice is whitespace. */
  predicate StrippedAt(rt: Runtime, r: string, s: string, i: int) {
    && MatchAt(r, s, i)
    && (forall j | 0 <= j < i :: IsSpace(rt, s[j]))
    && (forall j | i + |r| <= j < |s| :: IsSpace(rt, s[j]))
  }

  /** PHP `trim($s)` or JavaScript `s.trim()`: `s` with whitespace dropped
      from both ends only, neither starting nor ending with whitespace; it is
      empty exactly when `s` consists of whitespace only. */
  function Trim(rt: Runtime, s: string): (r: string)
    ensures exists i :: StrippedAt(rt, r, s, i)
    ensures exists i :: MatchAt(r, s, i)
    ensures |r| > 0 ==> !IsSpace(rt, r[0]) && !IsSpace(rt, r[|r| - 1])
    ensures r == "" <==> forall i | 0 <= i < |s| :: IsSpace(rt, s[i])
  {
    var a := TrimStart(rt, s);
    var r := TrimEnd(rt, a);
    TrimmedSlice(rt, s, a, r);
    TrimmedEmpty(rt, s, a, r);
    r
  }

  lemma TrimmedSlice(rt: Runtime, s: string, a: string, r: string)
    requires a == TrimStart(rt, s) && r == TrimEnd(rt, a)
    ensures StrippedAt(rt, r, s, |s| - |a|)
  {
    PrefixOfSuffix(s, a, r);
    TrimmedTail(rt, s, a, r);
  }

  /** A prefix of a suffix is a slice. */
  lemma PrefixOfSuffix(s: string, a: string, r: string)
    requires |a| <= |s| && a == s[|s| - |a|..]
    requires |r| <= |a| && r == a[..|r|]
    ensures MatchAt(r, s, |s| - |a|)
  {
    var i := |s| - |a|;
    assert forall k | 0 <= k < |r| :: s[i + k] == a[k];
  }

  lemma TrimmedTail(rt: Runtime, s: string, a: string, r: string)
    requires |a| <= |s| && a == s[|s| - |a|..]
    requires |r| <= |a| && forall j | |r| <= j < |a| :: IsSpace(rt, a[j])
    ensures forall j | |s| - |a| + |r| <= j < |s| :: IsSpace(rt, s[j])
  {
    var i := |s| - |a|;
    forall j | i + |r| <= j < |s| ensures IsSpace(rt, s[j]) {
      assert s[j] == a[j - i];
    }
  }

  lemma TrimmedEmpty(rt: Runtime, s: string, a: string, r: string)
    requires a == TrimStart(rt, s) && r == TrimEnd(rt, a)
    ensures r == "" ==> forall i | 0 <= i < |s| :: IsSpace(rt, s[i])
  {
  }

  /** A string that neither starts nor ends with whitespace is its own trim. */
  lemma TrimUnchanged(rt: Runtime, s: string)
    requires |s| > 0 && !IsSpace(rt, s[0]) && !IsSpace(rt, s[|s| - 1])
    ensures Trim(rt, s) == s
  {
    assert TrimStart(rt, s) == s;
    assert TrimEnd(rt, s) == s;
  }

  /** PHP `empty($s)` on a string: true for "" and for "0". */
  predicate PhpEmpty(s: string) {
    s == "" || s == "0"
  }

  /** PHP `empty($n)` on a numeric request field: absent, "" or zero. */
  predicate PhpEmptyNum(n: Option<int>) {
    n.None? || n.value == 0
  }

  /** ASCII case folding, the part of `toLowerCase` and of a case-insensitive
      collation that this model keeps. */
  function Lower(c: char): char {
    if 'A' <= c <= 'Z' then (c as int + 32) as char else c
  }

  function ToLower(s: string): (r: string)
    ensures |r| == |s|
    ensures forall i | 0 <= i < |s| :: r[i] == Lower(s[i])
  {
    seq(|s|, i requires 0 <= i < |s| => Lower(s[i]))
  }

  /** `t` appears in `s` starting at position `i`. */
  predicate MatchAt(t: string, s: string, i: int) {
    0 <= i && i + |t| <= |s| && s[i..i + |t|] == t
  }

  /** `t` occurs in `s` at some position: the reference meaning of a
      substring test. */
  ghost predicate Occurs(t: string, s: string) {
    exists i :: MatchAt(t, s, i)
  }

  /** JavaScript `s.includes(t)`, computed by scanning the start positions. */
  function Contains(s: string, t: string): (r: bool)
    ensures r <==> Occurs(t, s)
    decreases |s|
  {
    if t <= s then
      assert MatchAt(t, s, 0);
      true
    else if |s| == 0 then
      false
    else
      var r := Contains(s[1..], t);
      OccursStep(t, s);
      r
  }

  lemma OccursStep(t: string, s: string)
    requires |s| > 0 && !(t <= s)
    ensures Occurs(t, s) <==> Occurs(t, s[1..])
  {
    if Occurs(t, s) {
      var i :| MatchAt(t, s, i);
      if i > 0 {
        assert s[1..][i - 1..i - 1 + |t|] == s[i..i + |t|];
        assert MatchAt(t, s[1..], i - 1);
      }
    }
    if Occurs(t, s[1..]) {
      var j :| MatchAt(t, s[1..], j);
      assert s[j + 1..j + 1 + |t|] == s[1..][j..j + |t|];
      assert MatchAt(t, s, j + 1);
    }
  }

  /** The characters a MySQL `LIKE` pattern gives a meaning: the two
      wildcards and the default escape character. */
  predicate LikeSpecial(c: char) {
    c == '%' || c == '_' || c == '\\'
  }

  /** A search term with no character special to `LIKE`. */
  predicate Literal(t: string) {
    forall i | 0 <= i < |t| :: !LikeSpecial(t[i])
  }

  /** MySQL `s LIKE p` with the default escape character: `%` matches any
      run of characters, `_` exactly one, `\` makes the character after it
      literal (a `\` that ends the pattern is itself literal), and every
      other character matches itself with letters compared
      case-insensitively. */
  predicate LikeMatch(s: string, p: string)
    decreases |s| + |p|
  {
    if |p| == 0 then |s| == 0
    else if p[0] == '%' then LikeMatch(s, p[1..]) || (|s| > 0 && LikeMatch(s[1..], p))
    else if p[0] == '_' then |s| > 0 && LikeMatch(s[1..], p[1..])
    else if p[0] == '\\' && |p| > 1 then |s| > 0 && Lower(s[0]) == Lower(p[1]) && LikeMatch(s[1..], p[2..])
    else |s| > 0 && Lower(s[0]) == Lower(p[0]) && LikeMatch(s[1..], p[1..])
  }

  /** `t` occurs in `s` at `i` with letters compared case-insensitively. */
  predicate FoldedAt(t: string, s: string, i: int) {
    0 <= i && i + |t| <= |s| && forall k | 0 <= k < |t| :: Lower(s[i + k]) == Lower(t[k])
  }

  /** The search clause `LIKE "%$search%"`: the term is placed between two
      `%` wildcards, and its own `%`, `_` and `\` keep their meaning in the
      pattern. For a term without them it is a case-insensitive substring
      test. */
  function Like(s: string, t: string): (r: bool)
    ensures Literal(t) ==> (r <==> Occurs(ToLower(t), ToLower(s)))
  {
    if Literal(t) then
      LikeLiteral(s, t);
      LikeMatch(s, "%" + t + "%")
    else
      LikeMatch(s, "%" + t + "%")
  }

  lemma {:induction false} AnyMatchesPercent(s: string)
    ensures LikeMatch(s, "%")
    decreases |s|
  {
    assert "%"[1..] == "";
    if |s| > 0 {
      AnyMatchesPercent(s[1..]);
    }
  }

  /** A pattern opening with `%` matches when its rest matches some suffix. */
  lemma {:induction false} LeadingPercent(s: string, q: string)
    ensures LikeMatch(s, "%" + q) <==> exists i | 0 <= i <= |s| :: LikeMatch(s[i..], q)
    decreases |s|
  {
    var p := "%" + q;
    assert p[0] == '%' && p[1..] == q;
    assert s[0..] == s;
    if |s| > 0 {
      LeadingPercent(s[1..], q);
      if exists i | 0 <= i <= |s[1..]| :: LikeMatch(s[1..][i..], q) {
        var i :| 0 <= i <= |s[1..]| && LikeMatch(s[1..][i..], q);
        assert s[1..][i..] == s[i + 1..];
      }
      if exists i | 0 <= i <= |s| :: LikeMatch(s[i..], q) {
        var i :| 0 <= i <= |s| && LikeMatch(s[i..], q);
        if i > 0 {
          assert s[1..][i - 1..] == s[i..];
        }
      }
    }
  }

  /** A literal term at the head of a pattern must match the head of the
      string, letter case aside. */
  lemma {:induction false} LiteralPrefix(s: string, t: string, q: string)
    requires Literal(t)
    ensures LikeMatch(s, t + q) <==> FoldedAt(t, s, 0) && LikeMatch(s[|t|..], q)
    decreases |t|
  {
    if |t| == 0 {
      assert t + q == q && s[0..] == s;
    } else {
      var p := t + q;
      assert p[0] == t[0] && p[1..] == t[1..] + q;
      assert !LikeSpecial(t[0]);
      assert Literal(t[1..]) by {
        forall i | 0 <= i < |t[1..]| ensures !LikeSpecial(t[1..][i]) {
          assert t[1..][i] == t[i + 1];
        }
      }
      if |s| > 0 {
        LiteralPrefix(s[1..], t[1..], q);
        if |t| <= |s| {
          assert s[1..][|t| - 1..] == s[|t|..];
        }
        FoldedStep(t, s);
      }
    }
  }

  lemma FoldedStep(t: string, s: string)
    requires |t| > 0 && |s| > 0
    ensures FoldedAt(t, s, 0) <==> Lower(s[0]) == Lower(t[0]) && FoldedAt(t[1..], s[1..], 0)
  {
    if Lower(s[0]) == Lower(t[0]) && FoldedAt(t[1..], s[1..], 0) {
      forall k | 0 <= k < |t| ensures Lower(s[k]) == Lower(t[k]) {
        if k > 0 {
          assert s[1..][k - 1] == s[k] && t[1..][k - 1] == t[k];
        }
      }
    }
  }

  lemma FoldedIsMatch(t: string, s: string, i: int)
    ensures FoldedAt(t, s, i) <==> MatchAt(ToLower(t), ToLower(s), i)
  {
    if FoldedAt(t, s, i) {
      assert ToLower(s)[i..i + |t|] == ToLower(t);
    }
    if MatchAt(ToLower(t), ToLower(s), i) {
      forall k | 0 <= k < |t| ensures Lower(s[i + k]) == Lower(t[k]) {
        assert ToLower(s)[i..i + |t|][k] == ToLower(t)[k];
      }
    }
  }

  /** For a term without wildcards or escapes, `LIKE "%t%"` is the
      case-insensitive substring test. */
  lemma LikeLiteral(s: string, t: string)
    requires Literal(t)
    ensures LikeMatch(s, "%" + t + "%") <==> Occurs(ToLower(t), ToLower(s))
  {
    assert "%" + t + "%" == "%" + (t + "%");
    LeadingPercent(s, t + "%");
    forall i | 0 <= i <= |s|
      ensures LikeMatch(s[i..], t + "%") <==> MatchAt(ToLower(t), ToLower(s), i)
    {
      LiteralPrefix(s[i..], t, "%");
      if |t| <= |s| - i {
        AnyMatchesPercent(s[i..][|t|..]);
      }
      if FoldedAt(t, s[i..], 0) || FoldedAt(t, s, i) {
        assert FoldedAt(t, s[i..], 0) <==> FoldedAt(t, s, i) by {
          forall k | 0 <= k < |t| && i + k < |s| ensures s[i..][k] == s[i + k] { }
        }
      }
      FoldedIsMatch(t, s, i);
    }
    if Occurs(ToLower(t), ToLower(s)) {
      var i :| MatchAt(ToLower(t), ToLower(s), i);
      assert 0 <= i <= |s|;
    }
  }

  /** A string without the escape character matches itself as a pattern
      head: each `%` and `_` in it can stand for the character it is. */
  lemma {:induction false} SelfMatch(s: string, r: string, q: string)
    requires '\\' !in s && LikeMatch(r, q)
    ensures LikeMatch(s + r, s + q)
    decreases |s|
  {
    if |s| == 0 {
      assert s + r == r && s + q == q;
    } else {
      var str, pat := s + r, s + q;
      assert str[0] == pat[0] == s[0];
      assert str[1..] == s[1..] + r && pat[1..] == s[1..] + q;
      assert '\\' !in s[1..];
      SelfMatch(s[1..], r, q);
      if s[0] == '%' {
        assert LikeMatch(str[1..], pat);
      }
    }
  }

  /** Searching by a whole string finds it, unless it holds the escape
      character. */
  lemma SelfLike(s: string)
    requires '\\' !in s
    ensures Like(s, s)
  {
    AnyMatchesPercent("");
    SelfMatch(s, "", "%");
    assert s + "" == s;
    var p := "%" + s + "%";
    assert p[0] == '%' && p[1..] == s + "%";
  }

  /** The term's own characters keep their `LIKE` meaning: "a_c" finds
      "abc", which does not contain "a_c"; an escaped `%` finds only a
      percent sign; a lone `%` finds everything; and a backslash in a name
      stops the name from finding itself. */
  lemma LikeWildcards(s: string)
    ensures Like("abc", "a_c") && !Occurs("a_c", "abc")
    ensures Like("5%", "\\%") && !Like("5", "\\%")
    ensures Like(s, "%")
    ensures !Like("a\\b", "a\\b")
  {
    assert !MatchAt("a_c", "abc", 0);
    AnyMatchesPercent("");
    AnyMatchesPercent(s);
    // "a_c": the `_` stands for the "b".
    assert "%" + "a_c" + "%" == "%a_c%";
    assert LikeMatch("c", "c%");
    assert LikeMatch("bc", "_c%");
    assert LikeMatch("abc", "a_c%");
    // "\%": only a percent sign.
    assert "%" + "\\%" + "%" == "%\\%%";
    assert LikeMatch("%", "\\%%");
    assert LikeMatch("5%", "%\\%%");
    assert !LikeMatch("", "%\\%%");
    assert !LikeMatch("5", "%\\%%");
    // "%": everything.
    assert "%" + "%" + "%" == "%%%";
    assert LikeMatch(s, "%%");
    // "a\b": the backslash escapes the "b".
    assert "%" + "a\\b" + "%" == "%a\\b%";
    assert !LikeMatch("\\b", "\\b%");
    assert !LikeMatch("", "%a\\b%");
    assert !LikeMatch("b", "%a\\b%");
    assert !LikeMatch("\\b", "%a\\b%");
    assert !LikeMatch("a\\b", "%a\\b%");
  }

  /** Lexicographic order on strings by code point: the ordering `ORDER BY`
      on a name column is modelled with. */
  predicate LexLe(a: string, b: string)
    decreases |a|
  {
    |a| == 0 || (|b| > 0 && (a[0] < b[0] || (a[0] == b[0] && LexLe(a[1..], b[1..]))))
  }

  lemma {:induction false} LexLeTotal(a: string, b: string)
    ensures LexLe(a, b) || LexLe(b, a)
    decreases |a|
  {
    if |a| > 0 && |b| > 0 && a[0] == b[0] {
      LexLeTotal(a[1..], b[1..]);
    }
  }

  lemma {:induction false} LexLeTransitive(a: string, b: string, c: string)
    requires LexLe(a, b) && LexLe(b, c)
    ensures LexLe(a, c)
    decreases |a|
  {
    if |a| > 0 && a[0] == b[0] && b[0] == c[0] {
      LexLeTransitive(a[1..], b[1..], c[1..]);
    }
  }
}

=== FILE: currency.dfy ===
/** reports.js `formatCurrency`: `'₱' + amount.toFixed(2)` with a comma put
    after every digit that the regular expression `\d(?=(\d{3})+\.)` matches.
    Amounts are integer centavos. */
module Currency {
  import opened Common

  const Peso := '\U{20B1}'

  predicate IsDigit(c: char) { '0' <= c <= '9' }

  predicate AllDigits(s: string) {
    forall i | 0 <= i < |s| :: IsDigit(s[i])
  }

  function DigitChar(d: nat): (c: char)
    requires d < 10
    ensures IsDigit(c)
  {
    ('0' as int + d) as char
  }

  function DigitValue(c: char): nat
    requires IsDigit(c)
  {
    c as int - '0' as int
  }

  /** The decimal numeral of `n`, no leading zero. */
  function Digits(n: nat): (s: string)
    ensures |s| >= 1 && AllDigits(s)
    ensures s[0] == '0' ==> n == 0
  {
    if n < 10 then [DigitChar(n)] else Digits(n / 10) + [DigitChar(n % 10)]
  }

  /** The number a digit string denotes: the inverse of `Digits`. */
  function Value(s: string): nat
    requires AllDigits(s)
  {
    if |s| == 0 then 0 else Value(s[..|s| - 1]) * 10 + DigitValue(s[|s| - 1])
  }

  lemma {:induction false} ValueOfDigits(n: nat)
    ensures Value(Digits(n)) == n
  {
    if n >= 10 {
      var s := Digits(n);
      assert s[..|s| - 1] == Digits(n / 10);
      ValueOfDigits(n / 10);
    }
  }

  function Sign(c: int): string {
    if c < 0 then "-" else ""
  }

  function Abs(c: int): nat {
    if c < 0 then -c else c
  }

  /** The two decimals of `toFixed(2)`. */
  function Cents(c: int): (s: string)
    ensures |s| == 2 && AllDigits(s)
  {
    var r := Abs(c) % 100;
    [DigitChar(r / 10), DigitChar(r % 10)]
  }

  /** `toFixed(2)` of `c` centavos: sign, whole pesos, point, two decimals. */
  function Fixed(c: int): string {
    Sign(c) + Digits(Abs(c) / 100) + "." + Cents(c)
  }

  /** The lookahead `(?=(\d{3})+\.)` at position `j`: a positive multiple of
      three digits, then a point. */
  ghost predicate GroupsThenPoint(s: string, j: int) {
    exists k: nat :: 0 <= j && 1 <= k && j + 3 * k < |s| && AllDigits(s[j..j + 3 * k]) && s[j + 3 * k] == '.'
  }

  /** A match of the whole pattern at `i`: a digit followed by the lookahead. */
  ghost predicate CommaAfter(s: string, i: int) {
    0 <= i < |s| && IsDigit(s[i]) && GroupsThenPoint(s, i + 1)
  }

  /** Where the pattern matches in `s`. */
  ghost function Matches(s: string): (m: seq<bool>)
    ensures |m| == |s| && forall i | 0 <= i < |s| :: m[i] == CommaAfter(s, i)
  {
    seq(|s|, i requires 0 <= i < |s| => CommaAfter(s, i))
  }

  /** `s` from position `i` on with a comma after every marked character:
      `replace(..., '$&,')` keeps each match and appends a comma. The matches
      are single characters, so the global scan replaces every one of them. */
  function InsertCommas(s: string, m: seq<bool>, i: nat): string
    requires |m| == |s| && i <= |s|
    decreases |s| - i
  {
    if i == |s| then "" else [s[i]] + (if m[i] then "," else "") + InsertCommas(s, m, i + 1)
  }

  /** `formatCurrency` as written, for an amount in centavos. */
  ghost function FormatCurrency(c: int): (r: string)
    ensures |r| > 0 && r[0] == Peso
  {
    [Peso] + InsertCommas(Fixed(c), Matches(Fixed(c)), 0)
  }

  /** The reference grouping: the last three digits, and before them the
      grouping of the rest with a comma, for four digits and more. */
  function GroupDigits(d: string): (r: string)
    decreases |d|
  {
    if |d| <= 3 then d else GroupDigits(d[..|d| - 3]) + "," + d[|d| - 3..]
  }

  /** `s` with its commas removed. */
  function StripCommas(s: string): string {
    if |s| == 0 then "" else (if s[0] == ',' then "" else [s[0]]) + StripCommas(s[1..])
  }

  /** `r` is a positive multiple of three: `r` digits make whole groups. */
  predicate WholeGroups(r: int)
    decreases r
  {
    if r < 3 then false else r == 3 || WholeGroups(r - 3)
  }

  /** How many groups of three make `r`. */
  function GroupCount(r: int): (k: nat)
    requires WholeGroups(r)
    ensures 1 <= k && r == 3 * k
    decreases r
  {
    if r == 3 then 1 else GroupCount(r - 3) + 1
  }

  /** Whole groups, counted back. */
  lemma {:induction false} GroupsAreWhole(k: nat)
    requires 1 <= k
    ensures WholeGroups(3 * k)
  {
    if k > 1 {
      GroupsAreWhole(k - 1);
    }
  }

  /** The per-digit rule the match reduces to inside a run `d` of integer
      digits: a comma after position `p` exactly when a positive multiple of
      three digits follow it. */
  function SpreadFrom(d: string, p: nat): string
    requires p <= |d|
    decreases |d| - p
  {
    if p == |d| then "" else [d[p]] + (if WholeGroups(|d| - 1 - p) then "," else "") + SpreadFrom(d, p + 1)
  }

  /** The digits of `s` from `lo` up to the point at `hi`. */
  predicate DigitRun(s: string, lo: nat, hi: nat) {
    lo <= hi < |s| && s[hi] == '.' && forall t | lo <= t < hi :: IsDigit(s[t])
  }

  /** Inside a run of integer digits the lookahead holds exactly at the
      positions followed by a positive multiple of three digits. */
  lemma CommaAfterInDigits(s: string, lo: nat, hi: nat, i: nat)
    requires DigitRun(s, lo, hi) && lo <= i < hi
    ensures CommaAfter(s, i) <==> WholeGroups(hi - 1 - i)
  {
    if WholeGroups(hi - 1 - i) {
      CommaWhereGroupsFollow(s, lo, hi, i);
    }
    if CommaAfter(s, i) {
      CommaOnlyWhereGroupsFollow(s, lo, hi, i);
    }
  }

  lemma CommaWhereGroupsFollow(s: string, lo: nat, hi: nat, i: nat)
    requires DigitRun(s, lo, hi) && lo <= i < hi && WholeGroups(hi - 1 - i)
    ensures CommaAfter(s, i)
  {
    var k := GroupCount(hi - 1 - i);
    assert i + 1 + 3 * k == hi;
    var w := s[i + 1..hi];
    assert forall t | 0 <= t < |w| :: w[t] == s[i + 1 + t];
    assert AllDigits(w);
  }

  lemma CommaOnlyWhereGroupsFollow(s: string, lo: nat, hi: nat, i: nat)
    requires DigitRun(s, lo, hi) && lo <= i < hi && CommaAfter(s, i)
    ensures WholeGroups(hi - 1 - i)
  {
    var j := i + 1;
    var k: nat :| 1 <= k && j + 3 * k < |s| && AllDigits(s[j..j + 3 * k]) && s[j + 3 * k] == '.';
    GroupsAreWhole(k);
  }

  /** No match before the digits of `pre` when `pre` holds no digit, nor
      after the point, where no point follows. */
  lemma NoCommaOutsideDigits(s: string, i: nat)
    requires i < |s|
    requires !IsDigit(s[i]) || forall j | i < j < |s| :: s[j] != '.'
    ensures !CommaAfter(s, i)
  {
  }

  /** No mark from `i` up to `j`. */
  predicate Unmarked(m: seq<bool>, i: nat, j: nat)
    requires i <= j <= |m|
  {
    forall t | i <= t < j :: !m[t]
  }

  /** The marks from `lo` up to `hi` follow the per-digit rule. */
  predicate MarkedByRule(m: seq<bool>, lo: nat, hi: nat)
    requires lo <= hi <= |m|
  {
    forall t | lo <= t < hi :: m[t] == WholeGroups(hi - 1 - t)
  }

  /** Unmarked characters are copied as they are. */
  lemma {:induction false} CopyUnmarked(s: string, m: seq<bool>, i: nat, j: nat)
    requires |m| == |s| && i <= j <= |s|
    requires Unmarked(m, i, j)
    ensures InsertCommas(s, m, i) == s[i..j] + InsertCommas(s, m, j)
    decreases j - i
  {
    if i < j {
      CopyUnmarked(s, m, i + 1, j);
      InsertStep(s, m, i);
      Prepend(s, i, j, InsertCommas(s, m, j));
    }
  }

  /** One step of the insertion. */
  lemma InsertStep(s: string, m: seq<bool>, i: nat)
    requires |m| == |s| && i < |s|
    ensures InsertCommas(s, m, i) == [s[i]] + (if m[i] then "," else "") + InsertCommas(s, m, i + 1)
  {
  }

  lemma Prepend(s: string, i: nat, j: nat, rest: string)
    requires i < j <= |s|
    ensures [s[i]] + "" + (s[i + 1..j] + rest) == s[i..j] + rest
  {
    assert s[i..j] == [s[i]] + s[i + 1..j];
  }

  /** With no mark before `lo` or from `hi` on, and the per-digit rule in
      between, the insertion groups `s[lo..hi]` and copies the rest. */
  lemma Assemble(s: string, m: seq<bool>, lo: nat, hi: nat)
    requires |m| == |s| && lo <= hi <= |s|
    requires Unmarked(m, 0, lo) && MarkedByRule(m, lo, hi) && Unmarked(m, hi, |s|)
    ensures InsertCommas(s, m, 0) == s[..lo] + SpreadFrom(s[lo..hi], 0) + s[hi..]
  {
    var mid := SpreadFrom(s[lo..hi], 0);
    CopyUnmarked(s, m, 0, lo);
    DigitsSpread(s, m, lo, hi, lo);
    CopyUnmarked(s, m, hi, |s|);
    assert InsertCommas(s, m, |s|) == "";
    assert s[0..lo] == s[..lo] && s[hi..|s|] + "" == s[hi..];
    Assoc(s[..lo], mid, s[hi..]);
  }

  lemma Assoc(a: string, b: string, c: string)
    ensures a + (b + c) == a + b + c
  {
  }

  /** Over a run marked by the per-digit rule the insertion is that rule. */
  lemma {:induction false} DigitsSpread(s: string, m: seq<bool>, lo: nat, hi: nat, i: nat)
    requires |m| == |s| && lo <= i <= hi <= |s| && MarkedByRule(m, lo, hi)
    ensures InsertCommas(s, m, i) == SpreadFrom(s[lo..hi], i - lo) + InsertCommas(s, m, hi)
    decreases hi - i
  {
    if i < hi {
      var d := s[lo..hi];
      DigitsSpread(s, m, lo, hi, i + 1);
      InsertStep(s, m, i);
      SpreadStep(d, i - lo);
      assert d[i - lo] == s[i];
      assert m[i] == WholeGroups(|d| - 1 - (i - lo));
      Assoc([s[i]] + (if m[i] then "," else ""), SpreadFrom(d, i - lo + 1), InsertCommas(s, m, hi));
    }
  }

  /** One step of the per-digit rule. */
  lemma SpreadStep(d: string, p: nat)
    requires p < |d|
    ensures SpreadFrom(d, p) == [d[p]] + (if WholeGroups(|d| - 1 - p) then "," else "") + SpreadFrom(d, p + 1)
  {
  }

  /** The last three digits get no comma. */
  lemma {:induction false} ShortSpread(d: string, p: nat)
    requires |d| <= p + 3 && p <= |d|
    ensures SpreadFrom(d, p) == d[p..]
    decreases |d| - p
  {
    if p < |d| {
      ShortSpread(d, p + 1);
      SpreadStep(d, p);
      assert !WholeGroups(|d| - 1 - p);
      assert d[p..] == [d[p]] + d[p + 1..];
    }
  }

  /** The last three digits add one comma after the digits before them. */
  lemma {:induction false} SpreadSplit(a: string, b: string, p: nat)
    requires |b| == 3 && p < |a|
    ensures SpreadFrom(a + b, p) == SpreadFrom(a, p) + "," + b
    decreases |a| - p
  {
    var d := a + b;
    SpreadStep(d, p);
    SpreadStep(a, p);
    assert d[p] == a[p];
    assert WholeGroups(|d| - 1 - p) == (|a| - 1 - p == 0 || WholeGroups(|a| - 1 - p));
    if p == |a| - 1 {
      ShortSpread(d, p + 1);
      assert d[p + 1..] == b;
    } else {
      SpreadSplit(a, b, p + 1);
      var comma := if WholeGroups(|a| - 1 - p) then "," else "";
      Assoc([a[p]] + comma, SpreadFrom(a, p + 1) + ",", b);
      Assoc([a[p]] + comma, SpreadFrom(a, p + 1), ",");
    }
  }

  /** The per-digit rule is the grouping by threes from the right. */
  lemma {:induction false} SpreadIsGrouping(d: string)
    ensures SpreadFrom(d, 0) == GroupDigits(d)
    decreases |d|
  {
    if |d| <= 3 {
      ShortSpread(d, 0);
    } else {
      var a, b := d[..|d| - 3], d[|d| - 3..];
      assert d == a + b;
      SpreadSplit(a, b, 0);
      SpreadIsGrouping(a);
    }
  }

  /** Where the sign, the whole pesos and the decimals sit in `toFixed(2)`. */
  lemma FixedShape(c: int)
    ensures var s, lo := Fixed(c), |Sign(c)|;
            var hi := lo + |Digits(Abs(c) / 100)|;
            && DigitRun(s, lo, hi)
            && s[..lo] == Sign(c) && s[lo..hi] == Digits(Abs(c) / 100) && s[hi..] == "." + Cents(c)
            && (lo == 1 ==> s[0] == '-')
            && forall j | hi < j < |s| :: s[j] != '.'
  {
    var s, lo := Fixed(c), |Sign(c)|;
    var d := Digits(Abs(c) / 100);
    var hi := lo + |d|;
    assert s == Sign(c) + d + ("." + Cents(c));
    assert forall t | lo <= t < hi :: s[t] == d[t - lo];
    assert forall j | hi < j < |s| :: s[j] == Cents(c)[j - hi - 1];
  }

  /** The pattern matches inside the whole pesos by the per-digit rule and
      nowhere else. */
  lemma FixedMatches(c: int)
    ensures var s, lo := Fixed(c), |Sign(c)|;
            var hi := lo + |Digits(Abs(c) / 100)|;
            Unmarked(Matches(s), 0, lo) && MarkedByRule(Matches(s), lo, hi) && Unmarked(Matches(s), hi, |s|)
  {
    var s, lo := Fixed(c), |Sign(c)|;
    var hi := lo + |Digits(Abs(c) / 100)|;
    FixedShape(c);
    forall t | 0 <= t < lo ensures !CommaAfter(s, t) {
      NoCommaOutsideDigits(s, t);
    }
    forall t | lo <= t < hi ensures CommaAfter(s, t) == WholeGroups(hi - 1 - t) {
      CommaAfterInDigits(s, lo, hi, t);
    }
    forall t | hi <= t < |s| ensures !CommaAfter(s, t) {
      NoCommaOutsideDigits(s, t);
    }
  }

  /** The regular expression groups the whole pesos by threes from the right
      and touches neither the sign nor the decimals. */
  lemma FormatGroupsThousands(c: int)
    ensures FormatCurrency(c) == [Peso] + Sign(c) + GroupDigits(Digits(Abs(c) / 100)) + "." + Cents(c)
  {
    FormatParts(c);
    Regroup([Peso], Sign(c), GroupDigits(Digits(Abs(c) / 100)), ".", Cents(c));
  }

  lemma FormatParts(c: int)
    ensures FormatCurrency(c) == [Peso] + (Sign(c) + GroupDigits(Digits(Abs(c) / 100)) + ("." + Cents(c)))
  {
    var s, lo := Fixed(c), |Sign(c)|;
    var d := Digits(Abs(c) / 100);
    var hi := lo + |d|;
    FixedShape(c);
    FixedMatches(c);
    Assemble(s, Matches(s), lo, hi);
    SpreadIsGrouping(d);
  }

  lemma Regroup(p: string, a: string, b: string, x: string, y: string)
    ensures p + (a + b + (x + y)) == p + a + b + x + y
  {
  }

  /** Removing the commas of a grouping gives back the digits. */
  lemma {:induction false} StripGrouping(d: string)
    requires AllDigits(d)
    ensures StripCommas(GroupDigits(d)) == d
    decreases |d|
  {
    if |d| > 3 {
      var a, b := d[..|d| - 3], d[|d| - 3..];
      assert AllDigits(a) && AllDigits(b) by {
        assert forall t | 0 <= t < |a| :: a[t] == d[t];
        assert forall t | 0 <= t < |b| :: b[t] == d[|d| - 3 + t];
      }
      StripGrouping(a);
      StripLastGroup(GroupDigits(a), a, b);
      assert a + b == d;
    } else {
      NoCommas(d);
    }
  }

  lemma StripLastGroup(g: string, a: string, b: string)
    requires StripCommas(g) == a && AllDigits(b)
    ensures StripCommas(g + "," + b) == a + b
  {
    var cb := "," + b;
    assert StripCommas(cb) == b by {
      DigitsAreCommaFree(b);
      NoCommas(b);
      StripAppend(",", b);
      StripComma();
    }
    StripAppend(g, cb);
    Assoc(g, ",", b);
  }

  lemma {:induction false} StripAppend(x: string, y: string)
    ensures StripCommas(x + y) == StripCommas(x) + StripCommas(y)
    decreases |x|
  {
    if |x| > 0 {
      assert (x + y)[0] == x[0];
      assert (x + y)[1..] == x[1..] + y;
      StripAppend(x[1..], y);
    } else {
      assert x + y == y;
    }
  }

  lemma StripComma()
    ensures StripCommas(",") == ""
  {
    assert ","[1..] == "";
  }

  /** No comma anywhere in `s`. */
  predicate CommaFree(s: string) {
    forall i | 0 <= i < |s| :: s[i] != ','
  }

  lemma DigitsAreCommaFree(s: string)
    requires AllDigits(s)
    ensures CommaFree(s)
  {
    assert forall i | 0 <= i < |s| :: IsDigit(s[i]);
  }

  lemma {:induction false} NoCommas(s: string)
    requires CommaFree(s)
    ensures StripCommas(s) == s
    decreases |s|
  {
    if |s| > 0 {
      assert CommaFree(s[1..]) by {
        assert forall i | 0 <= i < |s| - 1 :: s[1..][i] == s[i + 1];
      }
      NoCommas(s[1..]);
    }
  }

  /** Reading centavos back from `toFixed(2)` text: an optional minus, the
      whole pesos, a point and two decimals; None for any other text. */
  function ParseFixed(t: string): Option<int> {
    if |t| > 0 && t[0] == '-' then
      match Unsigned(t[1..])
      case Some(v) => Some(-v)
      case None => None
    else Unsigned(t)
  }

  function Unsigned(t: string): Option<int> {
    if |t| >= 4 && |t| - 3 >= 1 && t[|t| - 3] == '.' && AllDigits(t[..|t| - 3]) && AllDigits(t[|t| - 2..])
    then Some(Value(t[..|t| - 3]) * 100 + Value(t[|t| - 2..]))
    else None
  }

  /** Without its commas, the text after the `₱` is the `toFixed(2)` text. */
  lemma StripFormatted(c: int)
    ensures StripCommas(FormatCurrency(c)[1..]) == Fixed(c)
  {
    var d := Digits(Abs(c) / 100);
    var g, tail := GroupDigits(d), "." + Cents(c);
    FormatParts(c);
    DropHead(Peso, Sign(c) + g + tail);
    StripGrouping(d);
    TailCommaFree(c);
    StripAround(Sign(c), g, d, tail);
    Assoc(Sign(c) + d, ".", Cents(c));
  }

  lemma TailCommaFree(c: int)
    ensures CommaFree("." + Cents(c))
  {
    var tail := "." + Cents(c);
    DigitsAreCommaFree(Cents(c));
    assert forall i | 1 <= i < |tail| :: tail[i] == Cents(c)[i - 1];
  }

  lemma DropHead(h: char, x: string)
    ensures ([h] + x)[1..] == x
  {
  }

  /** Removing commas around a part that holds none elsewhere. */
  lemma StripAround(x: string, g: string, d: string, y: string)
    requires StripCommas(g) == d && CommaFree(x) && CommaFree(y)
    ensures StripCommas(x + g + y) == x + d + y
  {
    assert x + g + y == x + (g + y);
    StripAppend(x, g + y);
    StripAppend(g, y);
    NoCommas(x);
    NoCommas(y);
  }

  /** The two decimals read back as the centavos below a peso. */
  lemma CentsValue(c: int)
    ensures Value(Cents(c)) == Abs(c) % 100
  {
    var k := Cents(c);
    assert k[..1] == [k[0]];
    assert [k[0]][..0] == [];
    assert Value([k[0]]) == DigitValue(k[0]);
  }

  /** The unsigned part of `toFixed(2)` reads back as the magnitude. */
  lemma UnsignedReadsBack(c: int)
    ensures Unsigned(Digits(Abs(c) / 100) + "." + Cents(c)) == Some(Abs(c))
  {
    var d := Digits(Abs(c) / 100);
    var u := d + "." + Cents(c);
    assert u[..|u| - 3] == d;
    assert u[|u| - 3] == '.';
    assert u[|u| - 2..] == Cents(c);
    ValueOfDigits(Abs(c) / 100);
    CentsValue(c);
  }

  /** `toFixed(2)` text reads back as the amount it was made from. */
  lemma FixedReadsBack(c: int)
    ensures ParseFixed(Fixed(c)) == Some(c)
  {
    var d := Digits(Abs(c) / 100);
    var u := d + "." + Cents(c);
    UnsignedReadsBack(c);
    assert u[0] == d[0] && IsDigit(d[0]);
    if c < 0 {
      assert Fixed(c) == "-" + u;
      DropHead('-', u);
    } else {
      assert Fixed(c) == u;
    }
  }

  /** The round trip: without its `₱` and its commas, the formatted amount
      reads back as the same number of centavos. */
  lemma FormatRoundTrip(c: int)
    ensures ParseFixed(StripCommas(FormatCurrency(c)[1..])) == Some(c)
  {
    StripFormatted(c);
    FixedReadsBack(c);
  }
}

=== FILE: customers.dfy ===
/** customers.php: the customer register. A name is the only required field;
    a customer named by any sale cannot be deleted; the list counts each
    customer's sales. */
module Customers {
  import opened Common
  import opened Rows
  import opened Schema
  import Sales

  /** The posted fields; a missing optional field is posted as "". */
  datatype CustomerInput = CustomerInput(name: string, contact: string, email: string, address: string)

  /** A listed customer with `total_orders`. */
  datatype CustomerRow = CustomerRow(customer: Customer, totalOrders: nat)

  const NameRequired := "Customer name is required"
  const HasSales := "Cannot delete customer with existing sales records"

  /** PHP `empty` on the trimmed name. */
  predicate Rejected(input: CustomerInput) {
    PhpEmpty(Trim(Php, input.name))
  }

  /** The row `create` inserts, or `update` writes: every field trimmed. */
  function Stored(id: int, input: CustomerInput): (c: Customer)
    ensures c.id == id
    ensures c.name == Trim(Php, input.name) && c.contact == Trim(Php, input.contact)
    ensures c.email == Trim(Php, input.email) && c.address == Trim(Php, input.address)
  {
    Customer(id, Trim(Php, input.name), Trim(Php, input.contact), Trim(Php, input.email), Trim(Php, input.address))
  }

  /** customers.php `create`: refused without a name; otherwise the trimmed
      row is appended under the next `Customer_ID`. */
  function Create(db: Db, input: CustomerInput): (r: (Db, Reply))
    ensures Rejected(input) ==> r == (db, Failure(NameRequired))
    ensures !Rejected(input) ==>
              && r.1 == Success("Customer created successfully")
              && r.0.customers == db.customers + [Stored(db.nextCustomerId, input)]
              && r.0 == db.(customers := r.0.customers, nextCustomerId := db.nextCustomerId + 1)
  {
    if Rejected(input) then (db, Failure(NameRequired))
    else
      (db.(customers := db.customers + [Stored(db.nextCustomerId, input)], nextCustomerId := db.nextCustomerId + 1),
       Success("Customer created successfully"))
  }

  /** customers.php `update`: the same rule; then the four fields of that
      customer, and nothing else, are rewritten. */
  function Update(db: Db, id: int, input: CustomerInput): (r: (Db, Reply))
    ensures Rejected(input) ==> r == (db, Failure(NameRequired))
    ensures !Rejected(input) ==>
              && r.1 == Success("Customer updated successfully")
              && r.0 == db.(customers := r.0.customers)
              && |r.0.customers| == |db.customers|
              && forall i | 0 <= i < |db.customers| ::
                   r.0.customers[i] == if db.customers[i].id == id then Stored(id, input) else db.customers[i]
  {
    if Rejected(input) then (db, Failure(NameRequired))
    else (db.(customers := Rewrite(db.customers, id, input)), Success("Customer updated successfully"))
  }

  /** The `UPDATE ... WHERE Customer_ID = :id` over the rows. */
  function Rewrite(cs: seq<Customer>, id: int, input: CustomerInput): (r: seq<Customer>)
    ensures |r| == |cs|
    ensures forall i | 0 <= i < |cs| :: r[i] == if cs[i].id == id then Stored(id, input) else cs[i]
  {
    seq(|cs|, i requires 0 <= i < |cs| => if cs[i].id == id then Stored(id, input) else cs[i])
  }

  /** The number of sales that name customer `id`; a walk-in sale names none. */
  function OrdersOf(sales: seq<Sale>, id: int): (n: nat)
    ensures n > 0 <==> exists i | 0 <= i < |sales| :: sales[i].customerId == Some(id)
  {
    Count(sales, NamesCustomer(id))
  }

  /** The `WHERE Customer_ID = :id` of a sales count; SQL NULL matches no id. */
  function NamesCustomer(id: int): Sale -> bool {
    (s: Sale) => s.customerId == Some(id)
  }

  /** customers.php `delete`: refused while any sale names the customer;
      otherwise exactly that row goes. */
  function Delete(db: Db, id: int): (r: (Db, Reply))
    ensures OrdersOf(db.sales, id) > 0 ==> r == (db, Failure(HasSales))
    ensures OrdersOf(db.sales, id) == 0 ==>
              && r.1 == Success("Customer deleted successfully")
              && r.0 == db.(customers := r.0.customers)
              && (forall c :: c in r.0.customers <==> c in db.customers && c.id != id)
              && SubseqOf(r.0.customers, db.customers)
  {
    if OrdersOf(db.sales, id) > 0 then (db, Failure(HasSales))
    else (db.(customers := RemoveKey(db.customers, CustomerKey, id)), Success("Customer deleted successfully"))
  }

  /** customers.php `read` with an id: that customer or "Customer not found". */
  function ReadOne(db: Db, id: int): (r: Result<Customer>)
    ensures r.Err? <==> !HasKey(db.customers, CustomerKey, id)
    ensures r.Err? ==> r.message == "Customer not found"
    ensures r.Ok? ==> r.value in db.customers && r.value.id == id
  {
    match Lookup(db.customers, CustomerKey, id)
    case None => Err("Customer not found")
    case Some(c) => Ok(c)
  }

  /** The `HAVING` of the list: no search, or the term inside the name or the
      email. */
  predicate Matches(search: string, c: Customer) {
    PhpEmpty(search) || Like(c.name, search) || Like(c.email, search)
  }

  function RowOf(db: Db, c: Customer): CustomerRow {
    CustomerRow(c, OrdersOf(db.sales, c.id))
  }

  /** The customers of listed rows, in order. */
  function CustomersOf(rows: seq<CustomerRow>): (cs: seq<Customer>)
    ensures |cs| == |rows| && forall i | 0 <= i < |rows| :: cs[i] == rows[i].customer
  {
    seq(|rows|, i requires 0 <= i < |rows| => rows[i].customer)
  }

  /** customers.php `read` without an id: exactly the matching customers,
      each with the number of sales naming it, ordered by name. */
  function List(db: Db, search: string): (r: seq<CustomerRow>)
    ensures forall c :: RowOf(db, c) in r <==> c in db.customers && Matches(search, c)
    ensures forall i | 0 <= i < |r| :: r[i] == RowOf(db, r[i].customer)
    ensures forall i, j | 0 <= i < j < |r| :: CustomerNameLe(r[i].customer, r[j].customer)
    ensures forall c :: multiset(CustomersOf(r))[c] == if Matches(search, c) then multiset(db.customers)[c] else 0
  {
    NameOrdersArePreorders();
    var matching := Filter(db.customers, c => Matches(search, c));
    var sorted := Sort(matching, CustomerNameLe);
    PermutationMembers(matching, sorted);
    WithOrders(db, sorted)
  }

  /** Each customer of `cs`, in order, with its number of sales. The same
      shape as the category list's `WithCounts`; each table keeps its own,
      since the rows differ in type and in the count they carry. */
  function WithOrders(db: Db, cs: seq<Customer>): (r: seq<CustomerRow>)
    ensures |r| == |cs|
    ensures forall i | 0 <= i < |cs| :: r[i] == RowOf(db, cs[i])
    ensures forall c :: RowOf(db, c) in r <==> c in cs
    ensures CustomersOf(r) == cs
  {
    var r := seq(|cs|, i requires 0 <= i < |cs| => RowOf(db, cs[i]));
    forall c | c in cs ensures RowOf(db, c) in r {
      var i :| 0 <= i < |cs| && cs[i] == c;
      assert r[i] == RowOf(db, c);
    }
    r
  }

  datatype ReadReply = One(customer: Result<Customer>) | Many(customers: seq<CustomerRow>)

  /** customers.php `read`: a truthy `Customer_ID` reads one customer,
      anything else lists. */
  function Read(db: Db, id: Option<int>, search: string): (r: ReadReply)
    ensures r.One? <==> !PhpEmptyNum(id)
    ensures r.One? ==> r.customer == ReadOne(db, id.value)
    ensures r.Many? ==> r.customers == List(db, search)
  {
    if PhpEmptyNum(id) then Many(List(db, search)) else One(ReadOne(db, id.value))
  }

  /** Every sale's customer, if it has one, is on the register. */
  ghost predicate SaleCustomersExist(db: Db) {
    forall s | s in db.sales && s.customerId.Some? :: HasKey(db.customers, CustomerKey, s.customerId.value)
  }

  /** The delete guard keeps every sale's customer on the register. */
  lemma DeleteKeepsSaleCustomers(db: Db, id: int)
    requires SaleCustomersExist(db)
    ensures SaleCustomersExist(Delete(db, id).0)
  {
    var (db', reply) := Delete(db, id);
    if reply.Success? {
      forall s | s in db'.sales && s.customerId.Some?
        ensures HasKey(db'.customers, CustomerKey, s.customerId.value)
      {
        var i :| 0 <= i < |db.sales| && db.sales[i] == s;
        KeptCustomerKeepsKey(db.customers, db'.customers, id, s.customerId.value);
      }
    }
  }

  lemma KeptCustomerKeepsKey(cs: seq<Customer>, cs': seq<Customer>, id: int, k: int)
    requires HasKey(cs, CustomerKey, k) && k != id
    requires forall c :: c in cs' <==> c in cs && c.id != id
    ensures HasKey(cs', CustomerKey, k)
  {
    var i :| 0 <= i < |cs| && cs[i].id == k;
    assert cs[i] in cs';
    var j :| 0 <= j < |cs'| && cs'[j] == cs[i];
  }

  /** A committed sale for a customer raises that customer's `total_orders`
      by one and leaves every other customer's count as it was. */
  lemma {:induction false} SaleCountsOnce(sales: seq<Sale>, s: Sale, id: int)
    ensures OrdersOf(sales + [s], id) == OrdersOf(sales, id) + (if s.customerId == Some(id) then 1 else 0)
  {
    FilterAppend(sales, [s], NamesCustomer(id));
  }

  lemma CommitCountsForCustomer(db: Db, cashier: Option<int>, req: Sales.SaleRequest, now: int, fault: Option<nat>, id: int)
    requires Sales.Create(db, cashier, req, now, fault).1.Completed?
    ensures OrdersOf(Sales.Create(db, cashier, req, now, fault).0.sales, id) ==
            OrdersOf(db.sales, id) + (if req.customerId == Some(id) then 1 else 0)
  {
    var db' := Sales.Create(db, cashier, req, now, fault).0;
    SaleCountsOnce(db.sales, db'.sales[|db.sales|], id);
  }

  /** A created customer reads back under the new id with every field
      trimmed. */
  lemma CreateThenRead(db: Db, input: CustomerInput)
    requires UniqueKeys(db.customers, CustomerKey) && KeysBelow(db.customers, CustomerKey, db.nextCustomerId)
    requires !Rejected(input)
    ensures ReadOne(Create(db, input).0, db.nextCustomerId) == Ok(Stored(db.nextCustomerId, input))
  {
    var row := Stored(db.nextCustomerId, input);
    assert forall i | 0 <= i < |db.customers| :: CustomerKey(db.customers[i]) != CustomerKey(row);
    LookupAppended(db.customers, CustomerKey, row);
  }

  /** `create`, `update` and `delete` keep the table's keys unique and below
      the counter. */
  lemma CreatePreservesWellFormed(db: Db, input: CustomerInput)
    requires WellFormed(db) && db.nextCustomerId > 0
    ensures WellFormed(Create(db, input).0)
  {
    if !Rejected(input) {
      AppendFreshKey(db.customers, CustomerKey, db.nextCustomerId, Stored(db.nextCustomerId, input));
    }
  }

  lemma UpdatePreservesWellFormed(db: Db, id: int, input: CustomerInput)
    requires WellFormed(db)
    ensures WellFormed(Update(db, id, input).0)
  {
    if !Rejected(input) {
      var cs := Rewrite(db.customers, id, input);
      assert forall i | 0 <= i < |cs| :: CustomerKey(cs[i]) == CustomerKey(db.customers[i]);
    }
  }

  lemma DeletePreservesWellFormed(db: Db, id: int)
    requires WellFormed(db)
    ensures WellFormed(Delete(db, id).0)
  {
    if OrdersOf(db.sales, id) == 0 {
      SubseqKeys(RemoveKey(db.customers, CustomerKey, id), db.customers, CustomerKey, db.nextCustomerId);
    }
  }
}

=== FILE: employee_form.dfy ===
/** employees.js: the browser side of the employee screen. `handleFormSubmit`
    runs five checks in a fixed order — the first that fails is the one
    reported — and then sends a create or an update; `deleteEmployee`
    refuses the signed-in user's own row before asking for confirmation. */
module EmployeeForm {
  import opened Common
  import opened Rows
  import Employees
  import Schema

  /** The form fields. `id` is the hidden `employeeId` field: None when it is
      empty (a new employee). */
  datatype FormInput = FormInput(
    id: Option<int>, username: string, password: string, fullName: string, role: string, status: string)

  /** `employeeData`: the trimmed names, role and status, and the password
      only when one was typed. */
  datatype Payload = Payload(username: string, fullName: string, role: string, status: string, password: Option<string>)

  datatype Outcome = Refused(message: string) | SendCreate(payload: Payload) | SendUpdate(id: int, payload: Payload)

  const OnlyAdmins := "Only administrators can create admin accounts"
  const LastAdmin := "Cannot demote the last active administrator"
  const FillAll := "Please fill all required fields"
  const PasswordNeeded := "Password is required for new employees"
  const PasswordShort := "Password must be at least 6 characters long"

  function LoadedKey(e: Employees.EmployeeView): int { e.id }

  /** Check 1: only an Admin may give the Admin role. */
  predicate GrantsAdmin(currentRole: string, input: FormInput) {
    input.role == "Admin" && currentRole != "Admin"
  }

  /** An active Admin other than the one being edited. */
  predicate OtherActiveAdmin(e: Employees.EmployeeView, id: int) {
    e.role == "Admin" && e.status == "Active" && e.id != id
  }

  /** Check 2: editing a loaded Admin to another role, when no other active
      Admin is loaded. */
  predicate DemotesLastAdmin(loaded: seq<Employees.EmployeeView>, input: FormInput) {
    && input.id.Some? && input.role != "Admin"
    && match Lookup(loaded, LoadedKey, input.id.value)
       case None => false
       case Some(editing) =>
         editing.role == "Admin" && !exists i | 0 <= i < |loaded| :: OtherActiveAdmin(loaded[i], input.id.value)
  }

  /** Check 3: a required field is empty after JavaScript `trim`. */
  predicate MissingField(input: FormInput) {
    Trim(Js, input.username) == "" || Trim(Js, input.fullName) == "" || input.role == "" || input.status == ""
  }

  /** `employeesManager.handleFormSubmit`. `currentRole` is the signed-in
      user's role; `loaded` the rows the screen last listed. */
  function Submit(currentRole: string, loaded: seq<Employees.EmployeeView>, input: FormInput): (r: Outcome)
    ensures GrantsAdmin(currentRole, input) ==> r == Refused(OnlyAdmins)
    ensures !GrantsAdmin(currentRole, input) && DemotesLastAdmin(loaded, input) ==> r == Refused(LastAdmin)
    ensures !GrantsAdmin(currentRole, input) && !DemotesLastAdmin(loaded, input) && MissingField(input) ==>
              r == Refused(FillAll)
    ensures !GrantsAdmin(currentRole, input) && !DemotesLastAdmin(loaded, input) && !MissingField(input) ==>
              && (input.id.None? && input.password == "" ==> r == Refused(PasswordNeeded))
              && (!(input.id.None? && input.password == "") && 0 < |input.password| < 6 ==> r == Refused(PasswordShort))
    ensures r.SendCreate? <==> r.Refused? == false && input.id.None?
    ensures !r.Refused? ==>
              && r.payload.username == Trim(Js, input.username) && r.payload.fullName == Trim(Js, input.fullName)
              && r.payload.role == input.role && r.payload.status == input.status
              && (r.payload.password.Some? <==> input.password != "")
              && (r.payload.password.Some? ==> r.payload.password.value == input.password)
              && (r.SendUpdate? ==> r.id == input.id.value)
  {
    var username := Trim(Js, input.username);
    var fullName := Trim(Js, input.fullName);
    if GrantsAdmin(currentRole, input) then Refused(OnlyAdmins)
    else if DemotesLastAdmin(loaded, input) then Refused(LastAdmin)
    else if MissingField(input) then Refused(FillAll)
    else if input.id.None? && input.password == "" then Refused(PasswordNeeded)
    else if input.password != "" && |input.password| < 6 then Refused(PasswordShort)
    else
      var payload := Payload(username, fullName, input.role, input.status,
                             if input.password != "" then Some(input.password) else None);
      match input.id
      case None => SendCreate(payload)
      case Some(id) => SendUpdate(id, payload)
  }

  /** Whatever is sent passed every check: no Admin role granted by a
      non-Admin, non-empty trimmed fields, a password on every create, and no
      typed password shorter than 6 characters. */
  lemma SentMeansValid(currentRole: string, loaded: seq<Employees.EmployeeView>, input: FormInput)
    requires !Submit(currentRole, loaded, input).Refused?
    ensures input.role == "Admin" ==> currentRole == "Admin"
    ensures Trim(Js, input.username) != "" && Trim(Js, input.fullName) != ""
    ensures input.role != "" && input.status != ""
    ensures input.id.None? ==> |input.password| >= 6
    ensures input.password == "" || |input.password| >= 6
  {
  }

  /** The last-admin rule: an update that takes the Admin role away from a
      loaded Admin is only sent when another active Admin is loaded. */
  lemma DemotionKeepsAnAdmin(currentRole: string, loaded: seq<Employees.EmployeeView>, input: FormInput, k: nat)
    requires UniqueKeys(loaded, LoadedKey)
    requires k < |loaded| && loaded[k].role == "Admin"
    requires Submit(currentRole, loaded, input).SendUpdate? && Submit(currentRole, loaded, input).id == loaded[k].id
    requires input.role != "Admin"
    ensures exists i | 0 <= i < |loaded| :: OtherActiveAdmin(loaded[i], loaded[k].id)
  {
    assert loaded[k].id == input.id.value;
    assert Lookup(loaded, LoadedKey, loaded[k].id) == Some(loaded[k]);
  }

  /** The request a sent payload makes to employees.php. */
  function ServerInput(p: Payload): Employees.EmployeeInput {
    Employees.EmployeeInput(p.username, if p.password.Some? then p.password.value else "", p.fullName, p.role, p.status)
  }

  /** Conversely, a form that passes every check is sent. */
  lemma ValidIsSent(currentRole: string, loaded: seq<Employees.EmployeeView>, input: FormInput)
    requires !GrantsAdmin(currentRole, input) && !DemotesLastAdmin(loaded, input) && !MissingField(input)
    requires input.id.Some? || input.password != ""
    requires input.password == "" || |input.password| >= 6
    ensures !Submit(currentRole, loaded, input).Refused?
  {
  }

  /** A username of "0" passes every browser check but is `empty` to PHP:
      the server refuses the create the form sends. */
  lemma ZeroUsernamePassesFormOnly(currentRole: string, loaded: seq<Employees.EmployeeView>, input: FormInput)
    requires input.id.None? && Trim(Js, input.username) == "0"
    requires !GrantsAdmin(currentRole, input) && Trim(Js, input.fullName) != ""
    requires input.role != "" && input.status != "" && |input.password| >= 6
    ensures Submit(currentRole, loaded, input).SendCreate?
    ensures Employees.CreateRejected(ServerInput(Submit(currentRole, loaded, input).payload))
  {
    ZeroUsernameSent(currentRole, loaded, input);
    ZeroIsEmpty(Submit(currentRole, loaded, input).payload);
  }

  lemma ZeroUsernameSent(currentRole: string, loaded: seq<Employees.EmployeeView>, input: FormInput)
    requires input.id.None? && Trim(Js, input.username) == "0"
    requires !GrantsAdmin(currentRole, input) && Trim(Js, input.fullName) != ""
    requires input.role != "" && input.status != "" && |input.password| >= 6
    ensures Submit(currentRole, loaded, input).SendCreate?
    ensures Submit(currentRole, loaded, input).payload.username == "0"
  {
    ValidIsSent(currentRole, loaded, input);
  }

  lemma ZeroIsEmpty(p: Payload)
    requires p.username == "0"
    ensures Employees.CreateRejected(ServerInput(p))
  {
    TrimUnchanged(Php, "0");
  }

  datatype DeleteOutcome = DeleteRefused(message: string) | Cancelled | SendDelete(id: int)

  /** `employeesManager.deleteEmployee`: the signed-in user's own row is
      refused; otherwise the request goes only if the user confirms. */
  function RequestDelete(current: Option<int>, id: int, confirmed: bool): (r: DeleteOutcome)
    ensures current == Some(id) ==> r == DeleteRefused("You cannot delete your own account")
    ensures current != Some(id) ==> (r == SendDelete(id) <==> confirmed)
    ensures r.SendDelete? ==> r.id == id
  {
    if current == Some(id) then DeleteRefused("You cannot delete your own account")
    else if !confirmed then Cancelled
    else SendDelete(id)
  }

  /** The browser guard and the server guard agree: when the browser's user
      is the session's employee, a delete the browser sends never fails the
      server's own-account check, and the server would refuse the one the
      browser refuses. */
  lemma DeleteGuardsAgree(db: Schema.Db, current: Option<int>, id: int, confirmed: bool)
    ensures RequestDelete(current, id, confirmed).SendDelete? ==>
              Employees.Delete(db, current, id).1 != Failure(Employees.OwnAccount)
    ensures RequestDelete(current, id, confirmed).DeleteRefused? ==>
              Employees.Delete(db, current, id) == (db, Failure(Employees.OwnAccount))
  {
  }
}

=== FILE: employees.dfy ===
/** employees.php: accounts of the people who use the system. Usernames are
    kept unique by a lookup before every insert and rename; passwords are
    stored hashed; an account cannot be deleted by its own session or while
    any sale names it as cashier. */
module Employees {
  import opened Common
  import opened Rows
  import opened Schema

  /** The posted fields of `create` and `update`. `password` is "" when not
      posted (update only). */
  datatype EmployeeInput = EmployeeInput(
    username: string, password: string, fullName: string, role: string, status: string)

  /** A row as `read` returns it: every column but the password. */
  datatype EmployeeView = EmployeeView(
    id: int, username: string, fullName: string, role: string, status: string, createdAt: int)

  /** The list filters; an empty one is no filter. */
  datatype EmployeeFilter = EmployeeFilter(role: string, status: string, search: string)

  const AllRequired := "All fields are required"
  const RequiredMissing := "Required fields are missing"
  const UsernameTaken := "Username already exists"
  const OwnAccount := "You cannot delete your own account"
  const HasSales := "Cannot delete employee with sales records"

  /** `WHERE username = :username` under a case-insensitive collation. */
  predicate SameUsername(a: string, b: string) {
    ToLower(a) == ToLower(b)
  }

  /** No two accounts share a username (up to the collation). */
  ghost predicate UniqueUsernames(es: seq<Employee>) {
    forall i, j | 0 <= i < j < |es| :: !SameUsername(es[i].username, es[j].username)
  }

  /** Some account other than `except` holds the username. */
  predicate UsernameHeld(es: seq<Employee>, username: string, except: Option<int>) {
    exists i | 0 <= i < |es| :: SameUsername(es[i].username, username) && (except.None? || es[i].id != except.value)
  }

  /** PHP `empty` on trimmed username, raw password, trimmed full name and
      raw role. The status is not checked. */
  predicate CreateRejected(input: EmployeeInput) {
    || PhpEmpty(Trim(Php, input.username)) || PhpEmpty(input.password)
    || PhpEmpty(Trim(Php, input.fullName)) || PhpEmpty(input.role)
  }

  /** employees.php `create`: the required fields, then the username lookup;
      an accepted account is appended under the next id with the trimmed
      names, the hashed password and `created_at` = `now`. */
  function Create(db: Db, input: EmployeeInput, now: int): (r: (Db, Reply))
    ensures CreateRejected(input) ==> r == (db, Failure(AllRequired))
    ensures !CreateRejected(input) && UsernameHeld(db.employees, Trim(Php, input.username), None) ==>
              r == (db, Failure(UsernameTaken))
    ensures r.1.Success? <==> !CreateRejected(input) && !UsernameHeld(db.employees, Trim(Php, input.username), None)
    ensures r.1.Success? ==>
              && r.1.message == "Employee created successfully"
              && r.0.employees == db.employees + [NewAccount(db.nextEmployeeId, input, now)]
              && r.0 == db.(employees := r.0.employees, nextEmployeeId := db.nextEmployeeId + 1)
  {
    if CreateRejected(input) then (db, Failure(AllRequired))
    else if UsernameHeld(db.employees, Trim(Php, input.username), None) then (db, Failure(UsernameTaken))
    else
      (db.(employees := db.employees + [NewAccount(db.nextEmployeeId, input, now)],
           nextEmployeeId := db.nextEmployeeId + 1),
       Success("Employee created successfully"))
  }

  /** The row `create` inserts: trimmed names, the hashed password, the
      posted role and status, and `created_at` = `now`. */
  function NewAccount(id: int, input: EmployeeInput, now: int): Employee {
    Employee(id, Trim(Php, input.username), Hashed(input.password), Trim(Php, input.fullName),
             input.role, input.status, now)
  }

  /** PHP `empty` on trimmed username, trimmed full name and raw role; the
      password may be empty. */
  predicate UpdateRejected(input: EmployeeInput) {
    PhpEmpty(Trim(Php, input.username)) || PhpEmpty(Trim(Php, input.fullName)) || PhpEmpty(input.role)
  }

  /** The row after `update`: new username, full name, role and status; the
      password replaced only by a non-empty one. */
  function Updated(e: Employee, input: EmployeeInput): (r: Employee)
    ensures r.id == e.id && r.createdAt == e.createdAt
    ensures PhpEmpty(input.password) ==> r.password == e.password
    ensures !PhpEmpty(input.password) ==> r.password == Hashed(input.password)
  {
    e.(username := Trim(Php, input.username), fullName := Trim(Php, input.fullName),
       role := input.role, status := input.status,
       password := if PhpEmpty(input.password) then e.password else Hashed(input.password))
  }

  /** employees.php `update`: the required fields, then the username lookup
      that skips the employee being edited; then that employee's row is
      rewritten. An id that matches no row still reports success. */
  function Update(db: Db, id: int, input: EmployeeInput): (r: (Db, Reply))
    ensures UpdateRejected(input) ==> r == (db, Failure(RequiredMissing))
    ensures !UpdateRejected(input) && UsernameHeld(db.employees, Trim(Php, input.username), Some(id)) ==>
              r == (db, Failure(UsernameTaken))
    ensures r.1.Success? <==>
              !UpdateRejected(input) && !UsernameHeld(db.employees, Trim(Php, input.username), Some(id))
    ensures r.1.Success? ==>
              && r.0 == db.(employees := r.0.employees)
              && |r.0.employees| == |db.employees|
              && forall i | 0 <= i < |db.employees| ::
                   r.0.employees[i] == if db.employees[i].id == id then Updated(db.employees[i], input) else db.employees[i]
  {
    if UpdateRejected(input) then (db, Failure(RequiredMissing))
    else if UsernameHeld(db.employees, Trim(Php, input.username), Some(id)) then (db, Failure(UsernameTaken))
    else (db.(employees := Rewrite(db.employees, id, input)), Success("Employee updated successfully"))
  }

  /** The `UPDATE ... WHERE Employee_ID = :id` over the rows. */
  function Rewrite(es: seq<Employee>, id: int, input: EmployeeInput): (r: seq<Employee>)
    ensures |r| == |es|
    ensures forall i | 0 <= i < |es| :: r[i] == if es[i].id == id then Updated(es[i], input) else es[i]
  {
    seq(|es|, i requires 0 <= i < |es| => if es[i].id == id then Updated(es[i], input) else es[i])
  }

  predicate IsCashierOf(id: int, s: Sale) {
    s.cashierId == id
  }

  /** employees.php `delete`: refused for the session's own id, then for an
      employee any sale names as cashier; otherwise exactly that row goes. */
  function Delete(db: Db, session: Option<int>, id: int): (r: (Db, Reply))
    ensures session == Some(id) ==> r == (db, Failure(OwnAccount))
    ensures session != Some(id) && (exists s | s in db.sales :: s.cashierId == id) ==> r == (db, Failure(HasSales))
    ensures r.1.Success? <==> session != Some(id) && forall s | s in db.sales :: s.cashierId != id
    ensures r.1.Success? ==>
              && r.0 == db.(employees := r.0.employees)
              && (forall e :: e in r.0.employees <==> e in db.employees && e.id != id)
              && SubseqOf(r.0.employees, db.employees)
  {
    if session == Some(id) then (db, Failure(OwnAccount))
    else if Count(db.sales, s => IsCashierOf(id, s)) > 0 then (db, Failure(HasSales))
    else (db.(employees := RemoveKey(db.employees, EmployeeKey, id)), Success("Employee deleted successfully"))
  }

  function View(e: Employee): EmployeeView {
    EmployeeView(e.id, e.username, e.fullName, e.role, e.status, e.createdAt)
  }

  /** employees.php `read` with an id: that account without its password, or
      "Employee not found". */
  function ReadOne(db: Db, id: int): (r: Result<EmployeeView>)
    ensures r.Err? <==> !HasKey(db.employees, EmployeeKey, id)
    ensures r.Err? ==> r.message == "Employee not found"
    ensures r.Ok? ==> r.value.id == id && exists e | e in db.employees :: View(e) == r.value
  {
    match Lookup(db.employees, EmployeeKey, id)
    case None => Err("Employee not found")
    case Some(e) => Ok(View(e))
  }

  /** Each non-empty filter holds: exact role, exact status, and the search
      term inside the username or the full name. */
  predicate Matches(f: EmployeeFilter, e: Employee) {
    && (PhpEmpty(f.role) || e.role == f.role)
    && (PhpEmpty(f.status) || e.status == f.status)
    && (PhpEmpty(f.search) || Like(e.username, f.search) || Like(e.fullName, f.search))
  }

  /** The `WHERE` of the list, as a filter on rows. */
  function Listed(f: EmployeeFilter): Employee -> bool {
    (e: Employee) => Matches(f, e)
  }

  /** employees.php `read` without an id: exactly the matching accounts,
      one row per account, without passwords, newest first. */
  function List(db: Db, f: EmployeeFilter): (r: seq<EmployeeView>)
    ensures forall e | e in db.employees && Matches(f, e) :: View(e) in r
    ensures forall v | v in r :: exists e | e in db.employees && Matches(f, e) :: View(e) == v
    ensures |r| == |Filter(db.employees, Listed(f))|
    ensures multiset(r) == multiset(Views(Filter(db.employees, Listed(f))))
    ensures forall i, j | 0 <= i < j < |r| :: r[i].createdAt >= r[j].createdAt
  {
    DateOrdersArePreorders();
    var matching := Filter(db.employees, Listed(f));
    var sorted := Sort(matching, NewestEmployeeFirst);
    PermutationMembers(matching, sorted);
    ViewsPermute(sorted, matching);
    var r := Views(sorted);
    assert |r| == |matching|;
    r
  }

  lemma ViewsAppend(a: seq<Employee>, b: seq<Employee>)
    ensures Views(a + b) == Views(a) + Views(b)
  {
    var l, va, vb := Views(a + b), Views(a), Views(b);
    forall i | 0 <= i < |l| ensures l[i] == (va + vb)[i] {
      if i < |a| {
        assert (a + b)[i] == a[i];
      } else {
        assert (a + b)[i] == b[i - |a|];
      }
    }
    assert l == va + vb;
  }

  /** Reordering the accounts reorders their views. */
  lemma {:induction false} ViewsPermute(a: seq<Employee>, b: seq<Employee>)
    requires multiset(a) == multiset(b)
    ensures multiset(Views(a)) == multiset(Views(b))
    decreases |a|
  {
    if |a| == 0 {
      assert |multiset(b)| == 0;
    } else {
      var x := a[0];
      assert x in multiset(b);
      var k :| 0 <= k < |b| && b[k] == x;
      var rest := b[..k] + b[k + 1..];
      PermutationRemove(a, b, k);
      ViewsPermute(a[1..], rest);
      assert b == b[..k] + [x] + b[k + 1..];
      assert a == [x] + a[1..];
      ViewsAppend([x], a[1..]);
      ViewsAppend(b[..k], b[k + 1..]);
      ViewsAppend(b[..k] + [x], b[k + 1..]);
      ViewsAppend(b[..k], [x]);
    }
  }

  /** Each account of `es`, in order, without its password. */
  function Views(es: seq<Employee>): (r: seq<EmployeeView>)
    ensures |r| == |es|
    ensures forall i | 0 <= i < |es| :: r[i] == View(es[i])
    ensures forall e | e in es :: View(e) in r
    ensures forall v | v in r :: exists e | e in es :: View(e) == v
  {
    var r := seq(|es|, i requires 0 <= i < |es| => View(es[i]));
    assert forall i | 0 <= i < |r| :: es[i] in es;
    forall e | e in es ensures View(e) in r {
      var i :| 0 <= i < |es| && es[i] == e;
      assert r[i] == View(e);
    }
    r
  }

  datatype ReadReply = One(employee: Result<EmployeeView>) | Many(employees: seq<EmployeeView>)

  /** employees.php `read`: a truthy `Employee_ID` reads one account,
      anything else lists. */
  function Read(db: Db, id: Option<int>, f: EmployeeFilter): (r: ReadReply)
    ensures r.One? <==> !PhpEmptyNum(id)
    ensures r.One? ==> r.employee == ReadOne(db, id.value)
    ensures r.Many? ==> r.employees == List(db, f)
  {
    if PhpEmptyNum(id) then Many(List(db, f)) else One(ReadOne(db, id.value))
  }

  /** `create` keeps usernames unique. */
  lemma CreateKeepsUsernamesUnique(db: Db, input: EmployeeInput, now: int)
    requires UniqueUsernames(db.employees)
    ensures UniqueUsernames(Create(db, input, now).0.employees)
  {
    if Create(db, input, now).1.Success? {
      AppendKeepsUnique(db.employees, NewAccount(db.nextEmployeeId, input, now));
    }
  }

  lemma AppendKeepsUnique(es: seq<Employee>, e: Employee)
    requires UniqueUsernames(es) && !UsernameHeld(es, e.username, None)
    ensures UniqueUsernames(es + [e])
  {
    var es' := es + [e];
    forall i, j | 0 <= i < j < |es'| ensures !SameUsername(es'[i].username, es'[j].username) {
      assert es'[i] == es[i];
      if j < |es| {
        assert es'[j] == es[j];
      }
    }
  }

  /** `update` keeps usernames unique, given unique ids: the only row that
      may take the new name is the one being edited. */
  lemma UpdateKeepsUsernamesUnique(db: Db, id: int, input: EmployeeInput)
    requires UniqueUsernames(db.employees) && UniqueKeys(db.employees, EmployeeKey)
    ensures UniqueUsernames(Update(db, id, input).0.employees)
  {
    var r := Update(db, id, input);
    if r.1.Success? {
      var es := r.0.employees;
      var name := Trim(Php, input.username);
      forall i, j | 0 <= i < j < |es| ensures !SameUsername(es[i].username, es[j].username) {
        if db.employees[i].id == id {
          assert db.employees[j].id != id;
          assert !SameUsername(db.employees[j].username, name);
        } else if db.employees[j].id == id {
          assert !SameUsername(db.employees[i].username, name);
        }
      }
    }
  }

  /** Keeping one's username is never a conflict: an update that renames an
      account to its current name is accepted whenever the names are unique. */
  lemma KeepingOwnUsernameIsAllowed(db: Db, k: nat, input: EmployeeInput)
    requires k < |db.employees| && UniqueUsernames(db.employees) && UniqueKeys(db.employees, EmployeeKey)
    requires !UpdateRejected(input) && Trim(Php, input.username) == db.employees[k].username
    ensures Update(db, db.employees[k].id, input).1 == Success("Employee updated successfully")
  {
    OwnNameNotHeld(db.employees, k);
  }

  lemma OwnNameNotHeld(es: seq<Employee>, k: nat)
    requires k < |es| && UniqueUsernames(es) && UniqueKeys(es, EmployeeKey)
    ensures !UsernameHeld(es, es[k].username, Some(es[k].id))
  {
    forall i | 0 <= i < |es| && es[i].id != es[k].id ensures !SameUsername(es[i].username, es[k].username) {
      assert i != k;
    }
  }

  /** A deletion never leaves a sale whose cashier no longer exists, when
      none did before. */
  lemma DeleteKeepsCashiers(db: Db, session: Option<int>, id: int)
    requires forall s | s in db.sales :: HasKey(db.employees, EmployeeKey, s.cashierId)
    ensures var db' := Delete(db, session, id).0;
            forall s | s in db'.sales :: HasKey(db'.employees, EmployeeKey, s.cashierId)
  {
    var (db', reply) := Delete(db, session, id);
    if reply.Success? {
      forall s | s in db'.sales ensures HasKey(db'.employees, EmployeeKey, s.cashierId) {
        KeptRowKeepsKey(db.employees, db'.employees, id, s.cashierId);
      }
    }
  }

  /** A key other than the deleted one survives a deletion. */
  lemma KeptRowKeepsKey(es: seq<Employee>, es': seq<Employee>, id: int, k: int)
    requires HasKey(es, EmployeeKey, k) && k != id
    requires forall e :: e in es' <==> e in es && e.id != id
    ensures HasKey(es', EmployeeKey, k)
  {
    var i :| 0 <= i < |es| && es[i].id == k;
    assert es[i] in es';
    var j :| 0 <= j < |es'| && es'[j] == es[i];
  }

  /** A created account reads back under the new id, and the read never
      carries the password. */
  lemma CreateThenRead(db: Db, input: EmployeeInput, now: int)
    requires UniqueKeys(db.employees, EmployeeKey) && KeysBelow(db.employees, EmployeeKey, db.nextEmployeeId)
    requires Create(db, input, now).1.Success?
    ensures ReadOne(Create(db, input, now).0, db.nextEmployeeId) ==
            Ok(EmployeeView(db.nextEmployeeId, Trim(Php, input.username), Trim(Php, input.fullName),
                            input.role, input.status, now))
  {
    var row := NewAccount(db.nextEmployeeId, input, now);
    assert forall i | 0 <= i < |db.employees| :: EmployeeKey(db.employees[i]) != EmployeeKey(row);
    LookupAppended(db.employees, EmployeeKey, row);
  }
}

=== FILE: pos.dfy ===
/** pos.js: the point-of-sale screen. The cart is a sequence of lines keyed
    by product id, built from the active products the screen loaded; the
    sale is submitted to sales.php as the cart itself plus a total computed
    in the browser. */
module Pos {
  import opened Common
  import opened Rows
  import Schema
  import Sales

  /** A product as the screen loaded it (`this.products`). */
  datatype Item = Item(id: int, name: string, price: int, stock: int)

  /** A cart line. `price` is captured when the line is created. */
  datatype Line = Line(productId: int, name: string, price: int, quantity: int, subTotal: int)

  /** The screen's state: cart, loaded products, selected payment method. */
  datatype Terminal = Terminal(cart: seq<Line>, products: seq<Item>, payment: Option<string>)

  function ItemKey(p: Item): int { p.id }
  function LineKey(l: Line): int { l.productId }

  /** The quantity of product `id` in the cart: that of its first line, or 0. */
  function QtyInCart(cart: seq<Line>, id: int): int {
    match FindIndex(cart, LineKey, id)
    case None => 0
    case Some(i) => cart[i].quantity
  }

  /** The cart invariant: at most one line per product, every line for a
      loaded product, 1 <= Quantity <= that product's stock, and
      SubTotal = Quantity * Price. */
  ghost predicate CartValid(cart: seq<Line>, products: seq<Item>) {
    && UniqueKeys(cart, LineKey)
    && forall i | 0 <= i < |cart| ::
         && HasKey(products, ItemKey, cart[i].productId)
         && 1 <= cart[i].quantity <= Lookup(products, ItemKey, cart[i].productId).value.stock
         && cart[i].subTotal == cart[i].quantity * cart[i].price
  }

  /** pos.js `addToCart(product)`. An existing line grows by one while its
      quantity is below the product's stock; a new line (quantity 1,
      subtotal = price) is appended only when the stock is positive. Both
      cases are one rule: the quantity goes up by one exactly when it is
      below the stock, and otherwise the cart is unchanged. */
  function AddToCart(cart: seq<Line>, p: Item): (r: seq<Line>)
    ensures QtyInCart(cart, p.id) < p.stock ==> QtyInCart(r, p.id) == QtyInCart(cart, p.id) + 1
    ensures QtyInCart(cart, p.id) >= p.stock ==> r == cart
    ensures |r| == |cart| || (!HasKey(cart, LineKey, p.id) && r == cart + [Line(p.id, p.name, p.price, 1, p.price)])
    ensures forall i | 0 <= i < |cart| && cart[i].productId != p.id :: r[i] == cart[i]
    ensures forall i | 0 <= i < |cart| ::
              r[i].productId == cart[i].productId && r[i].name == cart[i].name && r[i].price == cart[i].price
    ensures r != cart ==>
              && FindIndex(r, LineKey, p.id).Some?
              && var j := FindIndex(r, LineKey, p.id).value;
                 r[j].subTotal == r[j].quantity * r[j].price
  {
    match FindIndex(cart, LineKey, p.id)
    case Some(i) =>
      var existing := cart[i];
      if existing.quantity < p.stock then
        var q := existing.quantity + 1;
        var r := cart[i := existing.(quantity := q, subTotal := q * existing.price)];
        FindIndexIs(r, LineKey, p.id, i);
        r
      else cart
    case None =>
      if p.stock > 0 then
        var r := cart + [Line(p.id, p.name, p.price, 1, p.price)];
        FindIndexIs(r, LineKey, p.id, |cart|);
        r
      else cart
  }

  /** pos.js `removeFromCart(id)`: exactly the lines with that id go, the
      others stay in order. */
  function RemoveFromCart(cart: seq<Line>, id: int): (r: seq<Line>)
    ensures !HasKey(r, LineKey, id)
    ensures forall l :: l in r <==> l in cart && l.productId != id
    ensures SubseqOf(r, cart)
  {
    RemoveKey(cart, LineKey, id)
  }

  /** pos.js `updateQuantity(id, qty)`: a no-op for an unknown line or
      product; removes the line when qty <= 0; refuses a qty above the
      product's stock; otherwise sets the quantity and its subtotal. */
  function UpdateQuantity(cart: seq<Line>, products: seq<Item>, id: int, qty: int): (r: seq<Line>)
    ensures !HasKey(cart, LineKey, id) || !HasKey(products, ItemKey, id) ==> r == cart
    ensures HasKey(cart, LineKey, id) && HasKey(products, ItemKey, id) && qty <= 0 ==>
              r == RemoveFromCart(cart, id)
    ensures HasKey(cart, LineKey, id) && HasKey(products, ItemKey, id) ==>
              (0 < qty && qty > Lookup(products, ItemKey, id).value.stock ==> r == cart)
    ensures HasKey(cart, LineKey, id) && HasKey(products, ItemKey, id) ==>
              (0 < qty <= Lookup(products, ItemKey, id).value.stock ==>
                 && QtyInCart(r, id) == qty
                 && r == SetQuantity(cart, FindIndex(cart, LineKey, id).value, qty))
  {
    if !HasKey(cart, LineKey, id) || !HasKey(products, ItemKey, id) then cart
    else if qty <= 0 then RemoveFromCart(cart, id)
    else if qty > Lookup(products, ItemKey, id).value.stock then cart
    else
      var i := FindIndex(cart, LineKey, id).value;
      var r := SetQuantity(cart, i, qty);
      FindIndexIs(r, LineKey, id, i);
      r
  }

  /** Line `i` with quantity `qty` and the matching subtotal; the other lines
      untouched. */
  function SetQuantity(cart: seq<Line>, i: nat, qty: int): (r: seq<Line>)
    requires i < |cart|
    ensures |r| == |cart|
    ensures r[i].productId == cart[i].productId && r[i].price == cart[i].price
    ensures r[i].quantity == qty && r[i].subTotal == qty * cart[i].price
    ensures forall j | 0 <= j < |cart| && j != i :: r[j] == cart[j]
  {
    cart[i := cart[i].(quantity := qty, subTotal := qty * cart[i].price)]
  }

  /** pos.js `increaseQuantity(id)`. */
  function IncreaseQuantity(cart: seq<Line>, products: seq<Item>, id: int): seq<Line> {
    if HasKey(cart, LineKey, id) then UpdateQuantity(cart, products, id, QtyInCart(cart, id) + 1) else cart
  }

  /** pos.js `decreaseQuantity(id)`. */
  function DecreaseQuantity(cart: seq<Line>, products: seq<Item>, id: int): seq<Line> {
    if HasKey(cart, LineKey, id) then UpdateQuantity(cart, products, id, QtyInCart(cart, id) - 1) else cart
  }

  /** With unique product ids, a loaded product is the one `find` returns for its id. */
  lemma LookupLoaded(products: seq<Item>, p: Item)
    requires p in products && UniqueKeys(products, ItemKey)
    ensures Lookup(products, ItemKey, p.id) == Some(p)
  {
    var k :| 0 <= k < |products| && products[k] == p;
  }

  /** Adding a loaded product keeps the cart invariant. */
  lemma AddKeepsCartValid(cart: seq<Line>, products: seq<Item>, p: Item)
    requires CartValid(cart, products) && UniqueKeys(products, ItemKey) && p in products
    ensures CartValid(AddToCart(cart, p), products)
  {
    LookupLoaded(products, p);
    match FindIndex(cart, LineKey, p.id)
    case Some(i) =>
      if cart[i].quantity < p.stock {
        GrowLineKeepsValid(cart, products, p, i);
      }
    case None =>
      if p.stock > 0 {
        NewLineKeepsValid(cart, products, p);
      }
  }

  lemma GrowLineKeepsValid(cart: seq<Line>, products: seq<Item>, p: Item, i: nat)
    requires CartValid(cart, products) && Lookup(products, ItemKey, p.id) == Some(p)
    requires i < |cart| && cart[i].productId == p.id && cart[i].quantity < p.stock
    ensures var q := cart[i].quantity + 1;
            CartValid(cart[i := cart[i].(quantity := q, subTotal := q * cart[i].price)], products)
  {
    var q := cart[i].quantity + 1;
    var r := cart[i := cart[i].(quantity := q, subTotal := q * cart[i].price)];
    assert forall j | 0 <= j < |r| :: LineKey(r[j]) == LineKey(cart[j]);
    assert forall j | 0 <= j < |r| && j != i :: r[j] == cart[j];
  }

  lemma NewLineKeepsValid(cart: seq<Line>, products: seq<Item>, p: Item)
    requires CartValid(cart, products) && Lookup(products, ItemKey, p.id) == Some(p)
    requires !HasKey(cart, LineKey, p.id) && p.stock > 0
    ensures CartValid(cart + [Line(p.id, p.name, p.price, 1, p.price)], products)
  {
    var r := cart + [Line(p.id, p.name, p.price, 1, p.price)];
    assert forall j | 0 <= j < |cart| :: r[j] == cart[j];
    assert r[|cart|].productId == p.id;
  }

  /** Changing a quantity keeps the cart invariant. */
  lemma UpdateKeepsCartValid(cart: seq<Line>, products: seq<Item>, id: int, qty: int)
    requires CartValid(cart, products)
    ensures CartValid(UpdateQuantity(cart, products, id, qty), products)
  {
    var r := UpdateQuantity(cart, products, id, qty);
    if HasKey(cart, LineKey, id) && HasKey(products, ItemKey, id) {
      var i := FindIndex(cart, LineKey, id).value;
      if qty <= 0 {
        RemoveKeepsCartValid(cart, products, id);
      } else if qty <= Lookup(products, ItemKey, id).value.stock {
        assert forall j | 0 <= j < |r| && j != i :: r[j] == cart[j];
        assert r[i].productId == id;
      }
    }
  }

  /** Removing a line keeps the cart invariant. */
  lemma RemoveKeepsCartValid(cart: seq<Line>, products: seq<Item>, id: int)
    requires CartValid(cart, products)
    ensures CartValid(RemoveFromCart(cart, id), products)
  {
    var r := RemoveFromCart(cart, id);
    SubseqUnique(r, cart, LineKey);
    forall i | 0 <= i < |r|
      ensures HasKey(products, ItemKey, r[i].productId)
      ensures 1 <= r[i].quantity <= Lookup(products, ItemKey, r[i].productId).value.stock
      ensures r[i].subTotal == r[i].quantity * r[i].price
    {
      assert r[i] in r;
      var k :| 0 <= k < |cart| && cart[k] == r[i];
    }
  }

  /** The + button agrees with clicking the product again: both raise the
      quantity by one while it is below the stock, and both refuse above it. */
  lemma IncreaseAgreesWithAdd(cart: seq<Line>, products: seq<Item>, p: Item)
    requires CartValid(cart, products) && UniqueKeys(products, ItemKey) && p in products
    requires HasKey(cart, LineKey, p.id)
    ensures IncreaseQuantity(cart, products, p.id) == AddToCart(cart, p)
  {
    LookupLoaded(products, p);
    var i := FindIndex(cart, LineKey, p.id).value;
    var q := cart[i].quantity + 1;
    assert HasKey(products, ItemKey, p.id) && QtyInCart(cart, p.id) + 1 == q;
    if q <= p.stock {
      assert IncreaseQuantity(cart, products, p.id) == SetQuantity(cart, i, q);
      assert AddToCart(cart, p) == SetQuantity(cart, i, q);
    } else {
      assert IncreaseQuantity(cart, products, p.id) == cart;
      assert AddToCart(cart, p) == cart;
    }
  }

  /** The - button on a line of quantity 1 removes the line. */
  lemma DecreaseFromOneRemoves(cart: seq<Line>, products: seq<Item>, id: int)
    requires CartValid(cart, products) && HasKey(cart, LineKey, id) && QtyInCart(cart, id) == 1
    ensures DecreaseQuantity(cart, products, id) == RemoveFromCart(cart, id)
  {
    var i := FindIndex(cart, LineKey, id).value;
    assert cart[i].productId == id;
  }

  /** pos.js `this.taxRate = 0.10`, in basis points. */
  const TaxRateBp := 1000

  function LineSubTotal(l: Line): int { l.subTotal }
  function LineValue(l: Line): int { l.quantity * l.price }

  /** `this.cart.reduce((s, i) => s + i.SubTotal, 0)`. */
  function Subtotal(cart: seq<Line>): int {
    SumBy(cart, LineSubTotal)
  }

  /** Under the cart invariant the summed subtotals are the sum of
      quantity * price over the lines. */
  lemma {:induction false} SubtotalIsQuantityTimesPrice(cart: seq<Line>, products: seq<Item>)
    requires CartValid(cart, products)
    ensures Subtotal(cart) == SumBy(cart, LineValue)
    decreases |cart|
  {
    if |cart| > 0 {
      assert CartValid(cart[1..], products) by {
        assert forall i | 0 <= i < |cart[1..]| :: cart[1..][i] == cart[i + 1];
      }
      SubtotalIsQuantityTimesPrice(cart[1..], products);
    }
  }

  /** The total `completeSale` posts, subtotal * (1 + tax rate), as the
      two-decimal `TotalAmount` column stores it: rounded half up to whole
      centavos. It is exact whenever the product is a whole number of centavos. */
  function SaleTotal(subtotal: int, taxBp: int): (r: int)
    ensures -5000 < r * 10000 - subtotal * (10000 + taxBp) <= 5000
    ensures subtotal * (10000 + taxBp) % 10000 == 0 ==> r * 10000 == subtotal * (10000 + taxBp)
  {
    var exact := subtotal * (10000 + taxBp);
    (exact + 5000) / 10000
  }

  /** `this.selectedPaymentMethod` is truthy. */
  predicate PaymentChosen(t: Terminal) {
    t.payment.Some? && t.payment.value != ""
  }

  /** A cart line as `JSON.stringify(this.cart)` sends it. */
  function ItemOf(l: Line): Sales.SaleItem {
    Sales.SaleItem(l.productId, l.quantity, l.price, l.subTotal)
  }

  /** The checks and the request of pos.js `completeSale`: an empty cart, then
      a missing payment method, are refused before anything is sent;
      otherwise the request carries the cart lines as they are, the chosen
      method and the total computed from the subtotals. */
  function Submission(t: Terminal, customer: Option<int>, taxBp: int): (r: Result<Sales.SaleRequest>)
    ensures |t.cart| == 0 ==> r == Err("Cart is empty")
    ensures |t.cart| > 0 && !PaymentChosen(t) ==> r == Err("Please select a payment method")
    ensures r.Ok? <==> |t.cart| > 0 && PaymentChosen(t)
    ensures r.Ok? ==>
              && r.value.customerId == customer
              && r.value.paymentMethod == t.payment.value
              && r.value.totalAmount == Some(SaleTotal(Subtotal(t.cart), taxBp))
              && |r.value.items| == |t.cart|
              && forall k | 0 <= k < |t.cart| ::
                   r.value.items[k] == Sales.SaleItem(t.cart[k].productId, t.cart[k].quantity,
                                                      t.cart[k].price, t.cart[k].subTotal)
  {
    if |t.cart| == 0 then Err("Cart is empty")
    else if !PaymentChosen(t) then Err("Please select a payment method")
    else
      var items := seq(|t.cart|, k requires 0 <= k < |t.cart| => ItemOf(t.cart[k]));
      Ok(Sales.SaleRequest(customer, Some(SaleTotal(Subtotal(t.cart), taxBp)), t.payment.value, items))
  }

  /** The end of `completeSale`: on success the cart is cleared, the payment
      method deselected and the products reloaded; on failure the screen is
      left as it was, so the same cart can be submitted again. */
  function AfterReply(t: Terminal, reply: Sales.CreateReply, reloaded: seq<Item>): (r: Terminal)
    ensures reply.Completed? ==> r.cart == [] && r.payment == None && r.products == reloaded
    ensures reply.Failed? ==> r == t
  {
    match reply
    case Completed(_) => Terminal([], reloaded, None)
    case Failed(_) => t
  }

  /** pos.js `clearCart`: only the cart is emptied; the payment choice stays. */
  function ClearCart(t: Terminal): (r: Terminal)
    ensures r.cart == [] && r.products == t.products && r.payment == t.payment
  {
    t.(cart := [])
  }

  predicate IsActive(p: Schema.Product) {
    p.status == "Active"
  }

  function ItemOfProduct(p: Schema.Product): Item {
    Item(p.id, p.name, p.price, p.stock)
  }

  /** pos.js `loadProducts`: the listed products whose status is exactly
      "Active", in listing order. */
  function LoadProducts(listing: seq<Schema.Product>): (r: seq<Item>)
    ensures |r| <= |listing|
    ensures forall i | 0 <= i < |r| :: exists p | p in listing :: IsActive(p) && r[i] == ItemOfProduct(p)
    ensures forall p | p in listing && IsActive(p) :: ItemOfProduct(p) in r
  {
    var active := Filter(listing, IsActive);
    var r := Items(active);
    forall i | 0 <= i < |r| ensures exists p | p in listing :: IsActive(p) && r[i] == ItemOfProduct(p) {
      assert active[i] in active;
    }
    r
  }

  /** Each product of `ps`, in order, as a screen item. */
  function Items(ps: seq<Schema.Product>): (r: seq<Item>)
    ensures |r| == |ps|
    ensures forall i | 0 <= i < |ps| :: r[i] == ItemOfProduct(ps[i])
    ensures forall p | p in ps :: ItemOfProduct(p) in r
  {
    var r := seq(|ps|, i requires 0 <= i < |ps| => ItemOfProduct(ps[i]));
    forall p | p in ps ensures ItemOfProduct(p) in r {
      var i :| 0 <= i < |ps| && ps[i] == p;
      assert r[i] == ItemOfProduct(p);
    }
    r
  }
}

=== FILE: product_form.dfy ===
/** products.js: the browser side of the product screen — the form's submit
    and the low-stock mark of a listed row. */
module ProductForm {
  import opened Common
  import Schema
  import Sales

  /** The number `parseFloat` or `parseInt` makes of a field: NaN when the
      text does not start with a number. Prices are in centavos. */
  datatype Num = NaN | Val(v: int)

  /** JavaScript `n <= 0` and `n < 0`: every comparison with NaN is false. */
  predicate AtMostZero(n: Num) { n.Val? && n.v <= 0 }
  predicate BelowZero(n: Num) { n.Val? && n.v < 0 }

  /** The form fields. `id` and `categoryId` are the raw field values: "" when
      the product is new or no category is selected. */
  datatype FormInput = FormInput(id: string, name: string, categoryId: string, price: Num, stock: Num, status: string)

  /** `productData`: exactly the five fields the server takes. */
  datatype Payload = Payload(name: string, categoryId: string, price: Num, stock: Num, status: string)

  datatype Outcome = Refused(message: string) | SendCreate(payload: Payload) | SendUpdate(id: string, payload: Payload)

  const InvalidFields := "Please fill all required fields with valid values"

  /** The one combined check of `handleFormSubmit`. */
  predicate Invalid(input: FormInput) {
    Trim(Js, input.name) == "" || input.categoryId == "" || AtMostZero(input.price) || BelowZero(input.stock)
  }

  /** `productsManager.handleFormSubmit`: an invalid form is refused with one
      message; otherwise the five fields, the name trimmed, go to update when
      the hidden id is filled and to create when it is empty. */
  function Submit(input: FormInput): (r: Outcome)
    ensures r.Refused? <==> Invalid(input)
    ensures r.Refused? ==> r.message == InvalidFields
    ensures r.SendUpdate? <==> !Invalid(input) && input.id != ""
    ensures r.SendUpdate? ==> r.id == input.id
    ensures !r.Refused? ==>
              r.payload == Payload(Trim(Js, input.name), input.categoryId, input.price, input.stock, input.status)
  {
    if Invalid(input) then Refused(InvalidFields)
    else
      var payload := Payload(Trim(Js, input.name), input.categoryId, input.price, input.stock, input.status);
      if input.id != "" then SendUpdate(input.id, payload) else SendCreate(payload)
  }

  /** A sent form has a non-blank name, a chosen category, a price that is
      not a number at most zero, and a stock that is not a negative number. */
  lemma SentMeansValid(input: FormInput)
    requires !Submit(input).Refused?
    ensures Submit(input).payload.name != "" && Submit(input).payload.categoryId != ""
    ensures Submit(input).payload.price.Val? ==> Submit(input).payload.price.v > 0
    ensures Submit(input).payload.stock.Val? ==> Submit(input).payload.stock.v >= 0
  {
  }

  /** A price that does not parse passes the form: the NaN comparisons are
      false, so the check the form means to make does not stop it. */
  lemma NaNPriceIsSent(input: FormInput)
    requires Trim(Js, input.name) != "" && input.categoryId != "" && !BelowZero(input.stock)
    requires input.price == NaN
    ensures !Submit(input).Refused? && Submit(input).payload.price == NaN
  {
  }

  /** The row mark of `renderProducts`: `Stock_Quantity <= 10`. */
  predicate LowStock(p: Schema.Product) {
    p.stock <= 10
  }

  /** Items with no negative quantity take a non-negative total from each
      product. */
  lemma {:induction false} QtyForNonNegative(items: seq<Sales.SaleItem>, pid: int)
    requires forall k | 0 <= k < |items| :: items[k].quantity >= 0
    ensures Sales.QtyFor(items, pid) >= 0
    decreases |items|
  {
    if |items| > 0 {
      QtyForNonNegative(items[1..], pid);
    }
  }

  /** A committed sale whose quantities are not negative never clears a
      low-stock mark: every product marked before is marked after. */
  lemma SaleKeepsLowStockLow(db: Schema.Db, cashier: Option<int>, req: Sales.SaleRequest, now: int, fault: Option<nat>, i: nat)
    requires Sales.Create(db, cashier, req, now, fault).1.Completed?
    requires forall k | 0 <= k < |req.items| :: req.items[k].quantity >= 0
    requires i < |db.products| && LowStock(db.products[i])
    ensures LowStock(Sales.Create(db, cashier, req, now, fault).0.products[i])
  {
    QtyForNonNegative(req.items, db.products[i].id);
  }
}

=== FILE: products.dfy ===
/** products.php: the product catalogue. `create` and `update` check the
    name, category and price and store whatever stock and status were posted;
    `delete` is unconditional; `read` returns one product or a filtered,
    name-ordered list, each row joined with its category's name. */
module Products {
  import opened Common
  import opened Rows
  import opened Schema

  /** The posted fields of `create` and `update`. Category and price are None
      when missing or empty; a posted "0" is Some(0). */
  datatype ProductInput = ProductInput(
    name: string, categoryId: Option<int>, price: Option<int>, stock: int, status: string)

  /** A listed product with `c.Category_Name` from the LEFT JOIN: None when
      the category does not exist. */
  datatype ProductRow = ProductRow(product: Product, categoryName: Option<string>)

  /** The products of a listing, in order. */
  function ProductsOf(rows: seq<ProductRow>): (ps: seq<Product>)
    ensures |ps| == |rows| && forall i | 0 <= i < |rows| :: ps[i] == rows[i].product
  {
    seq(|rows|, i requires 0 <= i < |rows| => rows[i].product)
  }

  /** The list filters: a category, a status and a search term; an empty one
      is no filter. */
  datatype ProductFilter = ProductFilter(categoryId: Option<int>, status: string, search: string)

  const RequiredMessage := "Product name, category, and price are required"

  /** PHP `empty` on the trimmed name, the category or the price; a price of
      0 counts as missing. Stock and status are not checked. */
  predicate Rejected(input: ProductInput) {
    PhpEmpty(Trim(Php, input.name)) || PhpEmptyNum(input.categoryId) || PhpEmptyNum(input.price)
  }

  /** The row `create` inserts, or `update` writes over product `id`: the
      name trimmed, the other fields as posted. */
  function Stored(id: int, input: ProductInput): (p: Product)
    requires !Rejected(input)
    ensures p.id == id && p.name == Trim(Php, input.name)
    ensures p.categoryId == input.categoryId.value && p.price == input.price.value
    ensures p.stock == input.stock && p.status == input.status
  {
    Product(id, Trim(Php, input.name), input.categoryId.value, input.price.value, input.stock, input.status)
  }

  /** products.php `create`: a rejected input changes nothing; otherwise one
      row is appended under the next `Product_ID`, with the trimmed name and
      the posted stock and status as they are. */
  function Create(db: Db, input: ProductInput): (r: (Db, Reply))
    ensures Rejected(input) ==> r == (db, Failure(RequiredMessage))
    ensures !Rejected(input) ==>
              && r.1 == Success("Product created successfully")
              && r.0.nextProductId == db.nextProductId + 1
              && r.0.products == db.products + [Stored(db.nextProductId, input)]
              && r.0 == db.(products := r.0.products, nextProductId := r.0.nextProductId)
  {
    if Rejected(input) then (db, Failure(RequiredMessage))
    else
      (db.(products := db.products + [Stored(db.nextProductId, input)], nextProductId := db.nextProductId + 1),
       Success("Product created successfully"))
  }

  /** products.php `update`: the same check; then all five columns of the
      product with that id are overwritten, stock included. An id that
      matches no row still reports success. */
  function Update(db: Db, id: int, input: ProductInput): (r: (Db, Reply))
    ensures Rejected(input) ==> r == (db, Failure(RequiredMessage))
    ensures !Rejected(input) ==>
              && r.1 == Success("Product updated successfully")
              && r.0 == db.(products := r.0.products)
              && |r.0.products| == |db.products|
              && forall i | 0 <= i < |db.products| ::
                   r.0.products[i] == if db.products[i].id == id then Stored(id, input) else db.products[i]
  {
    if Rejected(input) then (db, Failure(RequiredMessage))
    else
      var products := seq(|db.products|, i requires 0 <= i < |db.products| =>
        if db.products[i].id == id then Stored(id, input) else db.products[i]);
      (db.(products := products), Success("Product updated successfully"))
  }

  /** products.php `delete`: the row goes whether or not any sale names it. */
  function Delete(db: Db, id: int): (r: (Db, Reply))
    ensures r.1 == Success("Product deleted successfully")
    ensures !HasKey(r.0.products, ProductKey, id)
    ensures forall p :: p in r.0.products <==> p in db.products && p.id != id
    ensures r.0 == db.(products := r.0.products)
  {
    (db.(products := RemoveKey(db.products, ProductKey, id)), Success("Product deleted successfully"))
  }

  /** The category name the LEFT JOIN attaches to a product. */
  function CategoryName(db: Db, categoryId: int): (r: Option<string>)
    ensures r.None? <==> !HasKey(db.categories, CategoryKey, categoryId)
    ensures r.Some? ==> exists c | c in db.categories :: c.id == categoryId && c.name == r.value
  {
    match Lookup(db.categories, CategoryKey, categoryId)
    case None => None
    case Some(c) => Some(c.name)
  }

  function WithCategory(db: Db, p: Product): ProductRow {
    ProductRow(p, CategoryName(db, p.categoryId))
  }

  /** products.php `read` with an id: the product and its category name, or
      "Product not found". */
  function ReadOne(db: Db, id: int): (r: Result<ProductRow>)
    ensures r.Err? <==> !HasKey(db.products, ProductKey, id)
    ensures r.Err? ==> r.message == "Product not found"
    ensures r.Ok? ==> r.value.product in db.products && r.value.product.id == id
    ensures r.Ok? ==> r.value.categoryName == CategoryName(db, r.value.product.categoryId)
  {
    match Lookup(db.products, ProductKey, id)
    case None => Err("Product not found")
    case Some(p) => Ok(WithCategory(db, p))
  }

  /** The `WHERE` of the list: each non-empty filter must hold. The search
      matches the product name with `LIKE '%term%'`. */
  predicate Matches(f: ProductFilter, p: Product) {
    && (PhpEmptyNum(f.categoryId) || p.categoryId == f.categoryId.value)
    && (PhpEmpty(f.status) || p.status == f.status)
    && (PhpEmpty(f.search) || Like(p.name, f.search))
  }

  /** products.php `read` without an id, with the search clause repaired to
      match on the product name: exactly the matching products, each with
      its category name, ordered by name. */
  function List(db: Db, f: ProductFilter): (r: seq<ProductRow>)
    ensures forall p :: WithCategory(db, p) in r <==> p in db.products && Matches(f, p)
    ensures forall i | 0 <= i < |r| :: r[i] == WithCategory(db, r[i].product)
    ensures forall i, j | 0 <= i < j < |r| :: ProductNameLe(r[i].product, r[j].product)
    ensures forall p :: multiset(ProductsOf(r))[p] == if Matches(f, p) then multiset(db.products)[p] else 0
  {
    NameOrdersArePreorders();
    var matching := Filter(db.products, p => Matches(f, p));
    var sorted := Sort(matching, ProductNameLe);
    PermutationMembers(matching, sorted);
    JoinCategories(db, sorted)
  }

  /** Each product of `ps`, in order, with its category name. */
  function JoinCategories(db: Db, ps: seq<Product>): (r: seq<ProductRow>)
    ensures |r| == |ps|
    ensures forall i | 0 <= i < |ps| :: r[i] == WithCategory(db, ps[i])
    ensures forall p :: WithCategory(db, p) in r <==> p in ps
    ensures ProductsOf(r) == ps
  {
    var r := seq(|ps|, i requires 0 <= i < |ps| => WithCategory(db, ps[i]));
    assert forall p | p in ps :: WithCategory(db, p) in r by {
      forall p | p in ps ensures WithCategory(db, p) in r {
        var i :| 0 <= i < |ps| && ps[i] == p;
        assert r[i] == WithCategory(db, p);
      }
    }
    r
  }

  /** The read queries as written join a table called `category`, while
      categories.php keeps the categories in `categories`; nothing in the
      system writes `category`. `category` is that table's contents when the
      database has one, None when it does not, in which case the statement
      fails and the handler answers with a database error. Otherwise a
      product's category name is looked up there. */
  function ReadOneAsWritten(db: Db, category: Option<seq<Category>>, id: int): (r: Result<ProductRow>)
    ensures category.None? ==> r == Err(DatabaseError)
    ensures category.Some? ==> r == ReadOne(db.(categories := category.value), id)
  {
    match category
    case None => Err(DatabaseError)
    case Some(t) => ReadOne(db.(categories := t), id)
  }

  /** The list query as written: the same join, and a non-empty search adds
      `p. LIKE :search`, which names no column, so the statement fails to
      prepare. Without a search and with a `category` table it is the list
      above, with names from that table. */
  function ListAsWritten(db: Db, category: Option<seq<Category>>, f: ProductFilter): (r: Result<seq<ProductRow>>)
    ensures category.None? || !PhpEmpty(f.search) ==> r == Err(DatabaseError)
    ensures category.Some? && PhpEmpty(f.search) ==> r == Ok(List(db.(categories := category.value), f))
  {
    if category.None? || !PhpEmpty(f.search) then Err(DatabaseError)
    else Ok(List(db.(categories := category.value), f))
  }

  /** Whatever the catalogue holds, searching for a product by its own name
      fails as written, while the repaired query finds it, unless the name
      holds a backslash, which `LIKE` reads as an escape. */
  lemma SearchByNameFails(db: Db, category: Option<seq<Category>>, p: Product)
    requires p in db.products && !PhpEmpty(p.name)
    ensures ListAsWritten(db, category, ProductFilter(None, "", p.name)).Err?
    ensures '\\' !in p.name ==> WithCategory(db, p) in List(db, ProductFilter(None, "", p.name))
  {
    if '\\' !in p.name {
      SelfLike(p.name);
    }
  }

  /** A stored product whose category exists on the category screen: as
      written it cannot be read at all without a `category` table, and with
      one it shows a name only when that table happens to hold its category
      id, while the repaired join always shows the category's name. */
  lemma CategoryJoinAsWritten(db: Db, category: seq<Category>, id: int)
    requires ReadOne(db, id).Ok? && HasKey(db.categories, CategoryKey, ReadOne(db, id).value.product.categoryId)
    ensures ReadOneAsWritten(db, None, id) == Err(DatabaseError)
    ensures ReadOneAsWritten(db, Some(category), id).Ok?
    ensures ReadOneAsWritten(db, Some(category), id).value.categoryName.Some? <==>
            HasKey(category, CategoryKey, ReadOne(db, id).value.product.categoryId)
    ensures ReadOne(db, id).value.categoryName.Some?
  {
    var p := ReadOne(db, id).value.product;
    var db' := db.(categories := category);
    assert HasKey(db'.products, ProductKey, id);
    assert Lookup(db'.products, ProductKey, id) == Lookup(db.products, ProductKey, id);
  }

  /** The smallest such database: one category, one product in it. */
  lemma CategoryJoinExample()
    ensures
      var db := Db([Product(1, "Soap", 1, 2500, 10, "Active")], [Category(1, "Toiletries")], [], [], [], [], 2, 2, 1, 1, 1);
      && ReadOneAsWritten(db, None, 1) == Err(DatabaseError)
      && ReadOneAsWritten(db, Some([]), 1) == Ok(ProductRow(db.products[0], None))
      && ReadOne(db, 1) == Ok(ProductRow(db.products[0], Some("Toiletries")))
  {
    var db := Db([Product(1, "Soap", 1, 2500, 10, "Active")], [Category(1, "Toiletries")], [], [], [], [], 2, 2, 1, 1, 1);
    assert HasKey(db.categories, CategoryKey, 1) by { assert CategoryKey(db.categories[0]) == 1; }
    assert HasKey(db.products, ProductKey, 1) by { assert ProductKey(db.products[0]) == 1; }
  }

  datatype ReadReply = One(product: Result<ProductRow>) | Many(products: seq<ProductRow>)

  /** products.php `read`: a truthy `Product_ID` reads one product, anything
      else lists. */
  function Read(db: Db, id: Option<int>, f: ProductFilter): (r: ReadReply)
    ensures r.One? <==> !PhpEmptyNum(id)
    ensures r.One? ==> r.product == ReadOne(db, id.value)
    ensures r.Many? ==> r.products == List(db, f)
  {
    if PhpEmptyNum(id) then Many(List(db, f)) else One(ReadOne(db, id.value))
  }

  /** A created product reads back under the new id as it was stored: the
      trimmed name, and stock and status exactly as posted, negative stock
      included. */
  lemma CreateThenRead(db: Db, input: ProductInput)
    requires WellFormed(db) && !Rejected(input)
    ensures
      var db' := Create(db, input).0;
      ReadOne(db', db.nextProductId) == Ok(WithCategory(db', Stored(db.nextProductId, input)))
  {
    var db' := Create(db, input).0;
    assert db'.products[|db.products|] == Stored(db.nextProductId, input);
    forall i | 0 <= i < |db.products| ensures db'.products[i].id != db.nextProductId {
      assert db'.products[i] == db.products[i];
    }
    FindIndexIs(db'.products, ProductKey, db.nextProductId, |db.products|);
  }

  /** `create` and `update` keep the table's keys unique and below the counter. */
  lemma CreatePreservesWellFormed(db: Db, input: ProductInput)
    requires WellFormed(db) && db.nextProductId > 0
    ensures WellFormed(Create(db, input).0)
  {
    if !Rejected(input) {
      AppendFreshKey(db.products, ProductKey, db.nextProductId, Stored(db.nextProductId, input));
    }
  }

  lemma UpdatePreservesWellFormed(db: Db, id: int, input: ProductInput)
    requires WellFormed(db)
    ensures WellFormed(Update(db, id, input).0)
  {
    var db' := Update(db, id, input).0;
    forall i | 0 <= i < |db'.products| ensures db'.products[i].id == db.products[i].id {
    }
  }

  /** An accepted update of an existing product reads back with the posted
      values: in particular it sets the stock, whatever sales took from it. */
  lemma UpdateThenRead(db: Db, id: int, input: ProductInput)
    requires WellFormed(db) && !Rejected(input) && HasKey(db.products, ProductKey, id)
    ensures
      var db' := Update(db, id, input).0;
      && ReadOne(db', id).Ok?
      && ReadOne(db', id).value.product == Stored(id, input)
      && ReadOne(db', id).value.product.stock == input.stock
  {
    var db' := Update(db, id, input).0;
    var k := FindIndex(db.products, ProductKey, id).value;
    FindIndexIs(db'.products, ProductKey, id, k);
  }

  /** Deleting keeps the database well formed and the product is gone. */
  lemma DeletePreservesWellFormed(db: Db, id: int)
    requires WellFormed(db)
    ensures WellFormed(Delete(db, id).0)
    ensures ReadOne(Delete(db, id).0, id) == Err("Product not found")
  {
    var r := RemoveKey(db.products, ProductKey, id);
    SubseqKeys(r, db.products, ProductKey, db.nextProductId);
  }
}

=== FILE: reports.dfy ===
/** reports.js: the figures of the reports screen — the KPI cards, the top
    category, and the data behind the sales and top-products charts. */
module Reports {
  import opened Common
  import opened Rows
  import opened Schema
  import Products
  import Tally

  const NotAvailable := "N/A"

  // ---------------------------------------------------------------------
  // KPI cards

  datatype Kpi = Kpi(totalSales: int, transactions: nat, averageOrder: real)

  function Amount(s: Sale): int { s.totalAmount }

  /** `loadKPIData` on the listed sales: the sum of their totals, their
      number, and the average order, 0 when there are no sales. */
  function Kpis(sales: seq<Sale>): (k: Kpi)
    ensures k.transactions == |sales|
    ensures k.totalSales == SumBy(sales, Amount)
    ensures k.transactions == 0 ==> k.averageOrder == 0.0
    ensures k.transactions > 0 ==> k.averageOrder * k.transactions as real == k.totalSales as real
  {
    var total := SumBy(sales, Amount);
    Kpi(total, |sales|, if |sales| > 0 then total as real / |sales| as real else 0.0)
  }

  lemma {:induction false} SumByBounds(sales: seq<Sale>, lo: int, hi: int)
    requires forall i | 0 <= i < |sales| :: lo <= sales[i].totalAmount <= hi
    ensures |sales| * lo <= SumBy(sales, Amount) <= |sales| * hi
    decreases |sales|
  {
    if |sales| > 0 {
      SumByBounds(sales[1..], lo, hi);
    }
  }

  /** The average order lies between the smallest and the largest sale. */
  lemma AverageWithinSales(sales: seq<Sale>, lo: int, hi: int)
    requires |sales| > 0
    requires forall i | 0 <= i < |sales| :: lo <= sales[i].totalAmount <= hi
    ensures lo as real <= Kpis(sales).averageOrder <= hi as real
  {
    SumByBounds(sales, lo, hi);
    var k := Kpis(sales);
    QuotientBetween(k.totalSales, |sales|, lo, hi, k.averageOrder);
  }

  lemma QuotientBetween(t: int, n: int, lo: int, hi: int, q: real)
    requires n > 0 && q * n as real == t as real && n * lo <= t <= n * hi
    ensures lo as real <= q <= hi as real
  {
    var nr, lr, hr := n as real, lo as real, hi as real;
    assert (n * lo) as real == nr * lr;
    assert (n * hi) as real == nr * hr;
    assert nr * lr <= q * nr <= nr * hr;
  }

  // ---------------------------------------------------------------------
  // Top category

  /** The products.php reply as `findTopCategory` reads it: `data` is None
      when the reply carries none. */
  datatype ProductsReply = ProductsReply(success: bool, data: Option<seq<Products.ProductRow>>)

  /** `if (product.Category_Name)`: a joined name that is a non-empty string. */
  predicate Named(r: Products.ProductRow) {
    r.categoryName.Some? && r.categoryName.value != ""
  }

  /** The category names of the named rows, in row order. */
  function CategoryNames(rows: seq<Products.ProductRow>): (names: seq<string>)
    ensures forall n :: n in names <==> exists i | 0 <= i < |rows| :: Named(rows[i]) && rows[i].categoryName.value == n
  {
    if |rows| == 0 then []
    else
      var rest := CategoryNames(rows[1..]);
      assert forall i | 1 <= i < |rows| :: rows[i] == rows[1..][i - 1];
      (if Named(rows[0]) then [rows[0].categoryName.value] else []) + rest
  }

  /** One point per name: the `+ 1` of the count. */
  function Ones(names: seq<string>): (ps: seq<Tally.Entry>)
    ensures |ps| == |names| && forall i | 0 <= i < |names| :: ps[i] == Tally.Entry(names[i], 1)
  {
    seq(|names|, i requires 0 <= i < |names| => Tally.Entry(names[i], 1))
  }

  lemma {:induction false} OnesCount(names: seq<string>, n: string)
    ensures Tally.SumFor(Ones(names), n) == multiset(names)[n]
    decreases |names|
  {
    if |names| > 0 {
      var init := names[..|names| - 1];
      assert Ones(names)[..|names| - 1] == Ones(init);
      assert names == init + [names[|names| - 1]];
      OnesCount(init, n);
    }
  }

  /** The top category of `names`: "N/A" when there is none; otherwise a
      name with the greatest count, and among those the one that occurs
      first. */
  ghost predicate IsTop(names: seq<string>, top: string) {
    if |names| == 0 then top == NotAvailable
    else
      && top in names
      && (forall n :: multiset(names)[n] <= multiset(names)[top])
      && forall p | 0 <= p < |names| && multiset(names)[names[p]] == multiset(names)[top] :: top in names[..p + 1]
  }

  /** `findTopCategory`: "N/A" for a missing or failed reply; otherwise the
      scan over the counts keeps the first strictly greatest. */
  method FindTopCategory(reply: Option<ProductsReply>) returns (top: string)
    ensures reply.None? || !reply.value.success || reply.value.data.None? ==> top == NotAvailable
    ensures reply.Some? && reply.value.success && reply.value.data.Some? ==>
              IsTop(CategoryNames(reply.value.data.value), top)
  {
    if reply.None? || !reply.value.success || reply.value.data.None? {
      return NotAvailable;
    }
    var names := CategoryNames(reply.value.data.value);
    var counts := Tally.Accumulate(Ones(names));
    PositiveCounts(names, counts);
    ghost var best;
    top, best := ScanCounts(counts);
    if |counts| == 0 {
      NoCountsNoNames(names, counts);
    } else {
      TopOfCounts(names, counts, best);
    }
  }

  /** The loop of `findTopCategory` over `Object.entries(categoryCount)`:
      it keeps the first entry whose count beats every earlier one. With
      every count at least one, the starting "N/A" survives only an empty
      object. */
  method ScanCounts(counts: seq<Tally.Entry>) returns (top: string, ghost best: nat)
    requires forall j | 0 <= j < |counts| :: counts[j].amount >= 1
    ensures |counts| == 0 ==> top == NotAvailable
    ensures |counts| > 0 ==> best < |counts| && top == counts[best].key
    ensures |counts| > 0 ==> forall j | 0 <= j < |counts| :: counts[j].amount <= counts[best].amount
    ensures |counts| > 0 ==> forall j | 0 <= j < best :: counts[j].amount < counts[best].amount
  {
    top := NotAvailable;
    var maxCount := 0;
    best := 0;
    var i := 0;
    while i < |counts|
      invariant 0 <= i <= |counts| && best <= i
      invariant i == 0 ==> top == NotAvailable && maxCount == 0
      invariant 0 < i ==> best < i && top == counts[best].key && maxCount == counts[best].amount
      invariant forall j | 0 <= j < i :: counts[j].amount <= maxCount
      invariant forall j | 0 <= j < best :: counts[j].amount < maxCount
    {
      if counts[i].amount > maxCount {
        maxCount := counts[i].amount;
        top := counts[i].key;
        best := i;
      }
      i := i + 1;
    }
  }

  lemma PositiveCounts(names: seq<string>, counts: seq<Tally.Entry>)
    requires Tally.Tallies(counts, Ones(names))
    ensures forall j | 0 <= j < |counts| :: counts[j].amount >= 1
  {
    forall j | 0 <= j < |counts| ensures counts[j].amount >= 1 {
      var k := counts[j].key;
      assert Tally.HasKey(counts, k);
      var p :| 0 <= p < |Ones(names)| && Ones(names)[p].key == k;
      assert names[p] == k;
      OnesCount(names, k);
    }
  }

  lemma NoCountsNoNames(names: seq<string>, counts: seq<Tally.Entry>)
    requires Tally.Tallies(counts, Ones(names)) && |counts| == 0
    ensures |names| == 0
  {
    if |names| > 0 {
      assert Ones(names)[0].key == names[0];
      assert Tally.HasKey(Ones(names), names[0]);
    }
  }

  /** The first greatest count of the tally is the top category. */
  lemma TopOfCounts(names: seq<string>, counts: seq<Tally.Entry>, best: nat)
    requires Tally.Tallies(counts, Ones(names)) && best < |counts|
    requires forall j | 0 <= j < |counts| :: counts[j].amount <= counts[best].amount
    requires forall j | 0 <= j < best :: counts[j].amount < counts[best].amount
    ensures IsTop(names, counts[best].key)
  {
    var ps := Ones(names);
    var top := counts[best].key;
    var m := counts[best].amount;
    OnesCount(names, top);
    assert Tally.HasKey(counts, top);
    var p0 :| 0 <= p0 < |ps| && ps[p0].key == top;
    assert names[p0] == top;
    forall n ensures multiset(names)[n] <= m {
      OnesCount(names, n);
      if n in names {
        var p :| 0 <= p < |names| && names[p] == n;
        assert ps[p].key == n;
        assert Tally.HasKey(ps, n);
        var k :| 0 <= k < |counts| && counts[k].key == n;
      }
    }
    forall p | 0 <= p < |names| && multiset(names)[names[p]] == m ensures top in names[..p + 1] {
      FirstOfTies(names, counts, best, p);
    }
  }

  lemma FirstOfTies(names: seq<string>, counts: seq<Tally.Entry>, best: nat, p: nat)
    requires Tally.Tallies(counts, Ones(names)) && best < |counts|
    requires forall j | 0 <= j < best :: counts[j].amount < counts[best].amount
    requires p < |names| && multiset(names)[names[p]] == counts[best].amount
    ensures counts[best].key in names[..p + 1]
  {
    var ps := Ones(names);
    assert ps[p].key == names[p];
    assert Tally.HasKey(ps, names[p]);
    var k :| 0 <= k < |counts| && counts[k].key == names[p];
    OnesCount(names, names[p]);
    assert names[..p + 1][p] == names[p];
    if k > best {
      assert Tally.FirstSeenOrder(counts, ps);
      var q :| 0 <= q < p && ps[q].key == counts[best].key;
      assert names[..p + 1][q] == names[q];
    }
  }

  // ---------------------------------------------------------------------
  // Sales chart

  datatype SalesChart = SalesChart(labels: seq<string>, data: seq<int>)

  /** The fixed data shown when there are no sales. */
  const SampleSales := SalesChart(["Mon", "Tue", "Wed", "Thu", "Fri", "Sat", "Sun"],
                                  [12000, 19000, 15000, 18000, 22000, 19500, 16000])

  /** Each sale as a point: its date label (`toLocaleDateString`, passed in
      as `dateLabel`) and its total. */
  function Points(sales: seq<Sale>, dateLabel: int -> string): (ps: seq<Tally.Entry>)
    ensures |ps| == |sales| && forall i | 0 <= i < |sales| :: ps[i] == Tally.Entry(dateLabel(sales[i].date), sales[i].totalAmount)
  {
    seq(|sales|, i requires 0 <= i < |sales| => Tally.Entry(dateLabel(sales[i].date), sales[i].totalAmount))
  }

  function Sum(xs: seq<int>): int {
    if |xs| == 0 then 0 else Sum(xs[..|xs| - 1]) + xs[|xs| - 1]
  }

  function Labels(es: seq<Tally.Entry>): (r: seq<string>)
    ensures |r| == |es| && forall i | 0 <= i < |es| :: r[i] == es[i].key
  {
    seq(|es|, i requires 0 <= i < |es| => es[i].key)
  }

  function Values(es: seq<Tally.Entry>): (r: seq<int>)
    ensures |r| == |es| && forall i | 0 <= i < |es| :: r[i] == es[i].amount
    ensures Sum(r) == Tally.Total(es)
  {
    if |es| == 0 then []
    else
      var r := Values(es[..|es| - 1]) + [es[|es| - 1].amount];
      assert r[..|r| - 1] == Values(es[..|es| - 1]);
      r
  }

  /** `processSalesDataForChart`: the sample data for no sales; otherwise one
      label per distinct date label, in order of first appearance, each with
      the sum of the totals of the sales on it. */
  function ProcessSalesData(sales: seq<Sale>, dateLabel: int -> string): (r: SalesChart)
    ensures |sales| == 0 ==> r == SampleSales
    ensures |sales| > 0 ==>
              && |r.labels| == |r.data|
              && (forall i, j | 0 <= i < j < |r.labels| :: r.labels[i] != r.labels[j])
              && (forall d :: d in r.labels <==> exists i | 0 <= i < |sales| :: dateLabel(sales[i].date) == d)
              && (forall i | 0 <= i < |r.labels| :: r.data[i] == Tally.SumFor(Points(sales, dateLabel), r.labels[i]))
              && Sum(r.data) == Tally.Total(Points(sales, dateLabel))
              && FirstSeen(r.labels, Points(sales, dateLabel))
  {
    if |sales| == 0 then SampleSales
    else
      PointKeys(sales, dateLabel);
      TallyChart(Points(sales, dateLabel))
  }

  /** `Object.keys` and `Object.values` of the tally of the points. */
  function TallyChart(ps: seq<Tally.Entry>): (r: SalesChart)
    ensures |r.labels| == |r.data|
    ensures forall i, j | 0 <= i < j < |r.labels| :: r.labels[i] != r.labels[j]
    ensures forall d :: d in r.labels <==> Tally.HasKey(ps, d)
    ensures forall i | 0 <= i < |r.labels| :: r.data[i] == Tally.SumFor(ps, r.labels[i])
    ensures Sum(r.data) == Tally.Total(ps)
    ensures FirstSeen(r.labels, ps)
  {
    var byDate := Tally.Accumulate(ps);
    ChartOfTally(byDate, ps);
    SalesChart(Labels(byDate), Values(byDate))
  }

  lemma ChartOfTally(es: seq<Tally.Entry>, ps: seq<Tally.Entry>)
    requires Tally.Tallies(es, ps)
    ensures forall i, j | 0 <= i < j < |Labels(es)| :: Labels(es)[i] != Labels(es)[j]
    ensures forall d :: d in Labels(es) <==> Tally.HasKey(ps, d)
    ensures forall i | 0 <= i < |Labels(es)| :: Values(es)[i] == Tally.SumFor(ps, Labels(es)[i])
    ensures FirstSeen(Labels(es), ps)
  {
    LabelsAreKeys(es, ps);
    LabelsFirstSeen(es, ps);
  }

  lemma LabelsFirstSeen(es: seq<Tally.Entry>, ps: seq<Tally.Entry>)
    requires Tally.FirstSeenOrder(es, ps)
    ensures FirstSeen(Labels(es), ps)
  {
    var ls := Labels(es);
    forall i, j, p | 0 <= i < j < |ls| && 0 <= p < |ps| && ps[p].key == ls[j]
      ensures exists q | 0 <= q < p :: ps[q].key == ls[i]
    {
      assert ps[p].key == es[j].key;
      var q :| 0 <= q < p && ps[q].key == es[i].key;
    }
  }

  /** `Object.keys` order: every point of a later label is preceded by a
      point of each earlier label, so labels come in order of first
      appearance. With `Points`, the points are the sales in order. */
  ghost predicate FirstSeen(labels: seq<string>, ps: seq<Tally.Entry>) {
    forall i, j, p | 0 <= i < j < |labels| && 0 <= p < |ps| && ps[p].key == labels[j] ::
      exists q | 0 <= q < p :: ps[q].key == labels[i]
  }

  lemma PointKeys(sales: seq<Sale>, dateLabel: int -> string)
    ensures forall d :: Tally.HasKey(Points(sales, dateLabel), d) <==> exists i | 0 <= i < |sales| :: dateLabel(sales[i].date) == d
  {
    var ps := Points(sales, dateLabel);
    forall d ensures Tally.HasKey(ps, d) <==> exists i | 0 <= i < |sales| :: dateLabel(sales[i].date) == d {
      if exists i | 0 <= i < |sales| :: dateLabel(sales[i].date) == d {
        var i :| 0 <= i < |sales| && dateLabel(sales[i].date) == d;
        assert ps[i].key == d;
      }
    }
  }

  lemma LabelsAreKeys(es: seq<Tally.Entry>, ps: seq<Tally.Entry>)
    requires forall k :: Tally.HasKey(es, k) <==> Tally.HasKey(ps, k)
    ensures forall d :: d in Labels(es) <==> Tally.HasKey(ps, d)
  {
    forall d ensures d in Labels(es) <==> Tally.HasKey(es, d) {
      if d in Labels(es) {
        var i :| 0 <= i < |es| && Labels(es)[i] == d;
      }
      if Tally.HasKey(es, d) {
        var i :| 0 <= i < |es| && es[i].key == d;
        assert Labels(es)[i] == d;
      }
    }
  }

  lemma {:induction false} PointsTotal(sales: seq<Sale>, dateLabel: int -> string)
    ensures Tally.Total(Points(sales, dateLabel)) == SumBy(sales, Amount)
    decreases |sales|
  {
    if |sales| > 0 {
      var init := sales[..|sales| - 1];
      assert Points(sales, dateLabel)[..|sales| - 1] == Points(init, dateLabel);
      PointsTotal(init, dateLabel);
      assert sales == init + [sales[|sales| - 1]];
      SumByAppend(init, [sales[|sales| - 1]], Amount);
    }
  }

  /** The bars of the sales chart add up to the total-sales card. */
  lemma ChartAddsUpToKpi(sales: seq<Sale>, dateLabel: int -> string)
    requires |sales| > 0
    ensures Sum(ProcessSalesData(sales, dateLabel).data) == Kpis(sales).totalSales
  {
    PointsTotal(sales, dateLabel);
  }

  // ---------------------------------------------------------------------
  // Top-products chart

  datatype ProductsChart = ProductsChart(labels: seq<string>, data: seq<int>, colors: seq<string>)

  const Palette := ["#4361ee", "#4cc9f0", "#f72585", "#7209b7", "#3a0ca3"]

  /** The fixed data shown when there are no products. */
  const SampleProducts := ProductsChart(["Product A", "Product B", "Product C", "Product D", "Product E"],
                                        [35, 25, 15, 12, 8], Palette)

  /** The comparator `b.Stock_Quantity - a.Stock_Quantity`, as an order. */
  predicate MoreStock(a: Product, b: Product) {
    a.stock >= b.stock
  }

  lemma StockOrderIsPreorder()
    ensures TotalPreorder(MoreStock)
  {
  }

  function Min(a: int, b: int): int { if a < b then a else b }

  /** `.sort(...).slice(0, 5)`: the five largest stocks, largest first; no
      product left out has more stock than one kept. */
  function TopByStock(products: seq<Product>): (top: seq<Product>)
    ensures |top| == Min(5, |products|)
    ensures multiset(top) <= multiset(products)
    ensures forall i, j | 0 <= i < j < |top| :: top[i].stock >= top[j].stock
    ensures forall p | p in multiset(products) - multiset(top) :: forall i | 0 <= i < |top| :: p.stock <= top[i].stock
  {
    StockOrderIsPreorder();
    var sorted := Sort(products, MoreStock);
    var n := Min(5, |sorted|);
    var top := sorted[..n];
    LeftOutIsSmaller(sorted, n);
    top
  }

  lemma LeftOutIsSmaller(sorted: seq<Product>, n: nat)
    requires n <= |sorted| && Sorted(sorted, MoreStock)
    ensures multiset(sorted[..n]) <= multiset(sorted)
    ensures forall p | p in multiset(sorted) - multiset(sorted[..n]) :: forall i | 0 <= i < n :: p.stock <= sorted[i].stock
  {
    assert sorted == sorted[..n] + sorted[n..];
    assert multiset(sorted) - multiset(sorted[..n]) == multiset(sorted[n..]);
    forall p | p in multiset(sorted[n..]) ensures forall i | 0 <= i < n :: p.stock <= sorted[i].stock {
      var k :| 0 <= k < |sorted[n..]| && sorted[n..][k] == p;
      assert sorted[n + k] == p;
    }
  }

  /** `processProductsDataForChart`: the sample data for no products;
      otherwise the names and stocks of the five best-stocked products, one
      palette colour each. */
  function ProcessProductsData(rows: seq<Products.ProductRow>): (r: ProductsChart)
    ensures |rows| == 0 ==> r == SampleProducts
    ensures |rows| > 0 ==>
              && |r.labels| == |r.data| == |r.colors| == Min(5, |rows|)
              && r.colors == Palette[..|r.labels|]
              && (forall i, j | 0 <= i < j < |r.data| :: r.data[i] >= r.data[j])
              && var top := TopByStock(Products.ProductsOf(rows));
                 forall i | 0 <= i < |top| :: r.labels[i] == top[i].name && r.data[i] == top[i].stock
  {
    if |rows| == 0 then SampleProducts
    else
      var top := TopByStock(Products.ProductsOf(rows));
      ProductsChart(seq(|top|, i requires 0 <= i < |top| => top[i].name),
                    seq(|top|, i requires 0 <= i < |top| => top[i].stock),
                    Palette[..|top|])
  }
}

=== FILE: rows.dfy ===
/** Tables and query results as sequences of rows. A table is a `seq` of
    records each carrying its primary key; `key` projects that key. The SQL
    the handlers run (`WHERE`, `ORDER BY`, `COUNT`, `DELETE ... WHERE id =`)
    and the JavaScript array methods the browser uses (`find`, `filter`,
    `reduce`, `sort`) are defined here once. */
module Rows {
  import opened Common

  /** `r` can be obtained from `s` by deleting elements: it keeps their order. */
  ghost predicate SubseqOf<T>(r: seq<T>, s: seq<T>)
    decreases |s|
  {
    |r| == 0 || (|s| > 0 && ((r[0] == s[0] && SubseqOf(r[1..], s[1..])) || SubseqOf(r, s[1..])))
  }

  /** SQL `WHERE p` over a table, or JavaScript `s.filter(p)`: exactly the
      rows satisfying `p`, in their original order. */
  function Filter<T(!new)>(s: seq<T>, p: T -> bool): (r: seq<T>)
    ensures forall x :: x in r <==> x in s && p(x)
    ensures SubseqOf(r, s)
    ensures multiset(r) <= multiset(s)
    ensures forall x :: multiset(r)[x] == if p(x) then multiset(s)[x] else 0
    ensures |r| <= |s|
  {
    if |s| == 0 then []
    else
      var rest := Filter(s[1..], p);
      var r := if p(s[0]) then [s[0]] + rest else rest;
      FilterStep(s, p, rest, r);
      r
  }

  /** One step of `Filter`: keeping or dropping the head carries the
      filter's properties from the tail to the whole table. */
  lemma FilterStep<T(!new)>(s: seq<T>, p: T -> bool, rest: seq<T>, r: seq<T>)
    requires |s| > 0 && r == if p(s[0]) then [s[0]] + rest else rest
    requires forall x :: x in rest <==> x in s[1..] && p(x)
    requires SubseqOf(rest, s[1..])
    requires forall x :: multiset(rest)[x] == if p(x) then multiset(s[1..])[x] else 0
    ensures forall x :: x in r <==> x in s && p(x)
    ensures SubseqOf(r, s)
    ensures forall x :: multiset(r)[x] == if p(x) then multiset(s)[x] else 0
    ensures multiset(r) <= multiset(s)
  {
    assert s == [s[0]] + s[1..];
    FilterStepCounts(s, p, rest, r);
    if p(s[0]) {
      assert r[0] == s[0] && r[1..] == rest;
    }
  }

  lemma FilterStepCounts<T(!new)>(s: seq<T>, p: T -> bool, rest: seq<T>, r: seq<T>)
    requires |s| > 0 && r == if p(s[0]) then [s[0]] + rest else rest
    requires forall x :: multiset(rest)[x] == if p(x) then multiset(s[1..])[x] else 0
    ensures forall x :: multiset(r)[x] == if p(x) then multiset(s)[x] else 0
  {
    assert s == [s[0]] + s[1..];
    assert multiset(s) == multiset{s[0]} + multiset(s[1..]);
    if p(s[0]) {
      assert multiset(r) == multiset{s[0]} + multiset(rest);
    }
  }

  lemma {:induction false} FilterAppend<T(!new)>(a: seq<T>, b: seq<T>, p: T -> bool)
    ensures Filter(a + b, p) == Filter(a, p) + Filter(b, p)
    decreases |a|
  {
    if |a| == 0 {
      assert a + b == b;
    } else {
      assert (a + b)[1..] == a[1..] + b;
      FilterAppend(a[1..], b, p);
      assert (a + b)[0] == a[0];
    }
  }

  /** The number of rows satisfying `p`: SQL `COUNT(*) ... WHERE p`. */
  function Count<T(!new)>(s: seq<T>, p: T -> bool): (n: nat)
    ensures n == |Filter(s, p)|
    ensures n > 0 <==> exists i | 0 <= i < |s| :: p(s[i])
  {
    var f := Filter(s, p);
    assert |f| > 0 ==> f[0] in f;
    assert forall i | 0 <= i < |s| :: s[i] in s;
    |f|
  }

  /** JavaScript `s.reduce((acc, x) => acc + f(x), 0)`. */
  function SumBy<T>(s: seq<T>, f: T -> int): int {
    if |s| == 0 then 0 else f(s[0]) + SumBy(s[1..], f)
  }

  lemma {:induction false} SumByAppend<T>(a: seq<T>, b: seq<T>, f: T -> int)
    ensures SumBy(a + b, f) == SumBy(a, f) + SumBy(b, f)
    decreases |a|
  {
    if |a| == 0 {
      assert a + b == b;
    } else {
      assert (a + b)[1..] == a[1..] + b;
      SumByAppend(a[1..], b, f);
    }
  }

  /** No two rows share a primary key. */
  ghost predicate UniqueKeys<T>(s: seq<T>, key: T -> int) {
    forall i, j | 0 <= i < j < |s| :: key(s[i]) != key(s[j])
  }

  /** Every element of a subsequence is an element of the sequence. */
  lemma {:induction false} SubseqMembers<T>(r: seq<T>, s: seq<T>)
    requires SubseqOf(r, s)
    ensures forall x | x in r :: x in s
    decreases |s|
  {
    if |r| > 0 && |s| > 0 {
      if r[0] == s[0] && SubseqOf(r[1..], s[1..]) {
        SubseqMembers(r[1..], s[1..]);
        assert forall x | x in r :: x == r[0] || x in r[1..];
      } else {
        SubseqMembers(r, s[1..]);
      }
    }
  }

  /** Deleting rows keeps primary keys unique. */
  lemma {:induction false} SubseqUnique<T>(r: seq<T>, s: seq<T>, key: T -> int)
    requires SubseqOf(r, s) && UniqueKeys(s, key)
    ensures UniqueKeys(r, key)
    decreases |s|
  {
    if |r| > 0 && |s| > 0 {
      if r[0] == s[0] && SubseqOf(r[1..], s[1..]) {
        SubseqUnique(r[1..], s[1..], key);
        SubseqMembers(r[1..], s[1..]);
        forall j | 1 <= j < |r| ensures key(r[0]) != key(r[j]) {
          assert r[j] == r[1..][j - 1] && r[1..][j - 1] in r[1..];
          var k :| 0 <= k < |s[1..]| && s[1..][k] == r[j];
          assert s[k + 1] == r[j];
        }
      } else {
        SubseqUnique(r, s[1..], key);
      }
    }
  }

  /** Some row has primary key `k`. */
  predicate HasKey<T>(s: seq<T>, key: T -> int, k: int) {
    exists i | 0 <= i < |s| :: key(s[i]) == k
  }

  /** The position of the first row with key `k`, as JavaScript `findIndex`
      and a primary-key `SELECT` find it. */
  function FindIndex<T>(s: seq<T>, key: T -> int, k: int): (r: Option<nat>)
    ensures r.None? <==> !HasKey(s, key, k)
    ensures r.Some? ==> r.value < |s| && key(s[r.value]) == k
    ensures r.Some? ==> forall j | 0 <= j < r.value :: key(s[j]) != k
  {
    if |s| == 0 then None
    else if key(s[0]) == k then Some(0)
    else
      match FindIndex(s[1..], key, k)
      case None => None
      case Some(i) => Some(i + 1)
  }

  /** The first row with key `k` is the one `FindIndex` reports. */
  lemma {:induction false} FindIndexIs<T>(s: seq<T>, key: T -> int, k: int, i: nat)
    requires i < |s| && key(s[i]) == k
    requires forall j | 0 <= j < i :: key(s[j]) != k
    ensures FindIndex(s, key, k) == Some(i)
    decreases i
  {
    if i > 0 {
      FindIndexIs(s[1..], key, k, i - 1);
    }
  }

  /** A row appended under a key no earlier row has is what a lookup of
      that key finds. */
  lemma LookupAppended<T>(s: seq<T>, key: T -> int, row: T)
    requires forall i | 0 <= i < |s| :: key(s[i]) != key(row)
    ensures Lookup(s + [row], key, key(row)) == Some(row)
  {
    var s' := s + [row];
    assert forall j | 0 <= j < |s| :: s'[j] == s[j];
    FindIndexIs(s', key, key(row), |s|);
  }

  /** The first row with key `k`, if any. */
  function Lookup<T>(s: seq<T>, key: T -> int, k: int): (r: Option<T>)
    ensures r.None? <==> !HasKey(s, key, k)
    ensures r.Some? ==> r.value in s && key(r.value) == k
    ensures r.Some? && UniqueKeys(s, key) ==>
              forall i | 0 <= i < |s| && key(s[i]) == k :: s[i] == r.value
  {
    match FindIndex(s, key, k)
    case None => None
    case Some(i) => Some(s[i])
  }

  /** `DELETE FROM t WHERE id = k`, or JavaScript `s.filter(x => x.id !== k)`. */
  function RemoveKey<T(!new)>(s: seq<T>, key: T -> int, k: int): (r: seq<T>)
    ensures !HasKey(r, key, k)
    ensures forall x :: x in r <==> x in s && key(x) != k
    ensures SubseqOf(r, s)
    ensures !HasKey(s, key, k) ==> r == s
  {
    var r := Filter(s, x => key(x) != k);
    if !HasKey(s, key, k) then
      FilterAll(s, x => key(x) != k);
      r
    else
      assert forall i | 0 <= i < |r| :: r[i] in r;
      r
  }

  lemma {:induction false} FilterAll<T(!new)>(s: seq<T>, p: T -> bool)
    requires forall i | 0 <= i < |s| :: p(s[i])
    ensures Filter(s, p) == s
    decreases |s|
  {
    if |s| > 0 {
      FilterAll(s[1..], p);
    }
  }

  /** `le` orders every pair and is transitive: a total preorder, which is
      what an `ORDER BY` column or a JavaScript comparator induces. */
  ghost predicate TotalPreorder<T(!new)>(le: (T, T) -> bool) {
    && (forall a, b :: le(a, b) || le(b, a))
    && (forall a, b, c :: le(a, b) && le(b, c) ==> le(a, c))
  }

  predicate Sorted<T>(s: seq<T>, le: (T, T) -> bool) {
    forall i, j | 0 <= i < j < |s| :: le(s[i], s[j])
  }

  /** Inserts `x` into a sorted sequence before the first element it is
      `le` to. */
  function Insert<T(!new)>(x: T, s: seq<T>, le: (T, T) -> bool): (r: seq<T>)
    requires TotalPreorder(le) && Sorted(s, le)
    ensures multiset(r) == multiset(s) + multiset{x}
    ensures Sorted(r, le)
    decreases |s|
  {
    if |s| == 0 then [x]
    else if le(x, s[0]) then
      [x] + s
    else
      var rest := Insert(x, s[1..], le);
      assert s == [s[0]] + s[1..];
      InsertHead(x, s, rest, le);
      [s[0]] + rest
  }

  lemma InsertHead<T(!new)>(x: T, s: seq<T>, rest: seq<T>, le: (T, T) -> bool)
    requires TotalPreorder(le) && Sorted(s, le) && |s| > 0 && !le(x, s[0])
    requires multiset(rest) == multiset(s[1..]) + multiset{x} && Sorted(rest, le)
    ensures Sorted([s[0]] + rest, le)
  {
    forall y | y in rest ensures le(s[0], y) {
      assert y in multiset(rest);
      if y != x {
        assert y in multiset(s[1..]);
        var k :| 0 <= k < |s[1..]| && s[1..][k] == y;
        assert s[k + 1] == y;
      }
    }
    var r := [s[0]] + rest;
    forall i, j | 0 <= i < j < |r| ensures le(r[i], r[j]) {
      if i == 0 {
        assert r[j] == rest[j - 1];
        assert rest[j - 1] in rest;
      } else {
        assert r[i] == rest[i - 1] && r[j] == rest[j - 1];
      }
    }
  }

  /** Taking the head of `a` out of `b`, where it sits at `k`, leaves a
      permutation of the tail. */
  lemma PermutationRemove<T>(a: seq<T>, b: seq<T>, k: int)
    requires multiset(a) == multiset(b) && |a| > 0 && 0 <= k < |b| && b[k] == a[0]
    ensures multiset(a[1..]) == multiset(b[..k] + b[k + 1..])
  {
    assert b == b[..k] + [b[k]] + b[k + 1..];
    assert a == [a[0]] + a[1..];
    assert multiset(b) == multiset(b[..k]) + multiset{b[k]} + multiset(b[k + 1..]);
    assert multiset(a) == multiset{a[0]} + multiset(a[1..]);
    var rest := b[..k] + b[k + 1..];
    assert multiset(rest) == multiset(b[..k]) + multiset(b[k + 1..]);
    forall y ensures multiset(a[1..])[y] == multiset(rest)[y] {
      assert multiset(a)[y] == multiset{a[0]}[y] + multiset(a[1..])[y];
      assert multiset(b)[y] == multiset{a[0]}[y] + multiset(rest)[y];
    }
  }

  /** A permutation has the same members. */
  lemma PermutationMembers<T>(s: seq<T>, r: seq<T>)
    requires multiset(r) == multiset(s)
    ensures forall x :: x in r <==> x in s
  {
    forall x ensures x in r <==> x in s {
      assert x in r <==> x in multiset(r);
      assert x in s <==> x in multiset(s);
    }
  }

  /** A sort by `le`: a permutation of `s` that is sorted. */
  function Sort<T(!new)>(s: seq<T>, le: (T, T) -> bool): (r: seq<T>)
    requires TotalPreorder(le)
    ensures multiset(r) == multiset(s)
    ensures Sorted(r, le)
    ensures |r| == |s|
  {
    if |s| == 0 then []
    else
      assert s == [s[0]] + s[1..];
      var r := Insert(s[0], Sort(s[1..], le), le);
      assert |multiset(r)| == |multiset(s)|;
      r
  }
}

=== FILE: sales.dfy ===
/** sales.php: the sale commit (`create`), the status change (`update`) and
    the ledger queries (`read`). The commit is one database transaction: a
    `Completed` header, one detail row per posted item, and one stock
    decrement per item, or — when any statement raises — none of them. */
module Sales {
  import opened Common
  import opened Rows
  import opened Schema

  /** One element of the posted `items` array: a cart line as the browser
      serialised it. Price and subtotal are the client's figures. */
  datatype SaleItem = SaleItem(productId: int, quantity: int, price: int, subTotal: int)

  /** The posted fields `create` reads. None stands for a missing or empty
      field; an undecodable `items` value decodes to the empty list. */
  datatype SaleRequest = SaleRequest(
    customerId: Option<int>, totalAmount: Option<int>, paymentMethod: string, items: seq<SaleItem>)

  /** The answer to `create`: the new `Sale_ID`, or the reported message. */
  datatype CreateReply = Completed(saleId: int) | Failed(message: string)

  const MissingData := "Required data is missing"
  const CompletedStatus := "Completed"

  /** PHP `empty` on each value `create` requires: the session cashier, the
      total, the payment method and the decoded items. A total or a cashier
      of 0 counts as missing. */
  predicate MissingRequired(cashier: Option<int>, req: SaleRequest) {
    PhpEmptyNum(cashier) || PhpEmptyNum(req.totalAmount) || PhpEmpty(req.paymentMethod) || |req.items| == 0
  }

  /** The statements of a commit are numbered: 0 inserts the header, 1 + 2k
      inserts the detail row of item k, 2 + 2k decrements that item's stock.
      `fault` names the statement at which the database raises, if any. */
  predicate FaultHits(fault: Option<nat>, items: seq<SaleItem>) {
    fault.Some? && fault.value < 1 + 2 * |items|
  }

  function DetailOf(saleId: int, item: SaleItem): SaleDetail {
    SaleDetail(saleId, item.productId, item.quantity, item.price, item.subTotal)
  }

  /** `UPDATE product SET Stock_Quantity = Stock_Quantity - :quantity
      WHERE Product_ID = :product_id`; a missing product matches no row. */
  function DecrementStock(products: seq<Product>, pid: int, q: int): seq<Product> {
    seq(|products|, i requires 0 <= i < |products| =>
      if products[i].id == pid then products[i].(stock := products[i].stock - q) else products[i])
  }

  /** The total quantity the items take from product `pid`: the reference for
      the cumulative stock decrement. */
  function QtyFor(items: seq<SaleItem>, pid: int): int {
    if |items| == 0 then 0
    else (if items[0].productId == pid then items[0].quantity else 0) + QtyFor(items[1..], pid)
  }

  /** The loop of sales.php over the items, from statement number `step` on:
      None when a statement raises, otherwise the state with one detail row
      per item appended in order and each product's stock lowered by the
      quantities of all items naming it. Nothing else changes. */
  function ApplyItems(db: Db, saleId: int, items: seq<SaleItem>, step: nat, fault: Option<nat>): (r: Option<Db>)
    ensures r.None? <==> fault.Some? && step <= fault.value < step + 2 * |items|
    ensures r.Some? ==> r.value == db.(details := r.value.details, products := r.value.products)
    ensures r.Some? ==> |r.value.details| == |db.details| + |items|
    ensures r.Some? ==> r.value.details[..|db.details|] == db.details
    ensures r.Some? ==> forall k | 0 <= k < |items| ::
              r.value.details[|db.details| + k] == DetailOf(saleId, items[k])
    ensures r.Some? ==> |r.value.products| == |db.products|
    ensures r.Some? ==> forall i | 0 <= i < |db.products| ::
              r.value.products[i] == db.products[i].(stock := db.products[i].stock - QtyFor(items, db.products[i].id))
    decreases |items|
  {
    if |items| == 0 then
      assert forall i | 0 <= i < |db.products| :: db.products[i].(stock := db.products[i].stock - 0) == db.products[i];
      Some(db)
    else if fault == Some(step) || fault == Some(step + 1) then
      None
    else
      var db1 := db.(details := db.details + [DetailOf(saleId, items[0])],
                     products := DecrementStock(db.products, items[0].productId, items[0].quantity));
      var r := ApplyItems(db1, saleId, items[1..], step + 2, fault);
      if r.Some? then
        assert r.value.details[..|db.details|] == db.details by {
          assert r.value.details[..|db1.details|] == db1.details;
        }
        assert forall k | 1 <= k < |items| :: items[k] == items[1..][k - 1];
        r
      else
        r
  }

  /** sales.php `create`. The cashier comes from the session, never from the
      request; `now` is the database clock; `fault` is the failing statement,
      if any. On success the reply carries the new `Sale_ID`. A rollback
      restores every table, but not the `AUTO_INCREMENT` value the header
      insert took: after a fault past that insert the counter has moved on,
      and the next sale skips that id. */
  function Create(db: Db, cashier: Option<int>, req: SaleRequest, now: int, fault: Option<nat>): (r: (Db, CreateReply))
    ensures MissingRequired(cashier, req) ==> r == (db, Failed(MissingData))
    ensures !MissingRequired(cashier, req) && fault == Some(0) ==> r == (db, Failed(DatabaseError))
    ensures !MissingRequired(cashier, req) && FaultHits(fault, req.items) && fault != Some(0) ==>
              r == (db.(nextSaleId := db.nextSaleId + 1), Failed(DatabaseError))
    ensures r.1.Completed? <==> !MissingRequired(cashier, req) && !FaultHits(fault, req.items)
    ensures r.1.Completed? ==> r.1.saleId == db.nextSaleId && r.0.nextSaleId == db.nextSaleId + 1
    ensures r.1.Completed? ==>
              r.0.sales == db.sales + [Sale(db.nextSaleId, now, req.customerId, cashier.value,
                                            req.totalAmount.value, req.paymentMethod, CompletedStatus)]
    ensures r.1.Completed? ==>
              && |r.0.details| == |db.details| + |req.items|
              && r.0.details[..|db.details|] == db.details
              && forall k | 0 <= k < |req.items| ::
                   r.0.details[|db.details| + k] ==
                   SaleDetail(db.nextSaleId, req.items[k].productId, req.items[k].quantity,
                              req.items[k].price, req.items[k].subTotal)
    ensures r.1.Completed? ==>
              && |r.0.products| == |db.products|
              && forall i | 0 <= i < |db.products| ::
                   && r.0.products[i].stock == db.products[i].stock - QtyFor(req.items, db.products[i].id)
                   && r.0.products[i] == db.products[i].(stock := r.0.products[i].stock)
    ensures r.1.Completed? ==>
              r.0 == db.(sales := r.0.sales, details := r.0.details, products := r.0.products,
                         nextSaleId := r.0.nextSaleId)
  {
    if MissingRequired(cashier, req) then
      (db, Failed(MissingData))
    else if fault == Some(0) then
      (db, Failed(DatabaseError))
    else
      var saleId := db.nextSaleId;
      var header := Sale(saleId, now, req.customerId, cashier.value,
                         req.totalAmount.value, req.paymentMethod, CompletedStatus);
      var db1 := db.(sales := db.sales + [header], nextSaleId := saleId + 1);
      match ApplyItems(db1, saleId, req.items, 1, fault)
      case None => (db.(nextSaleId := saleId + 1), Failed(DatabaseError))
      case Some(db2) => (db2, Completed(saleId))
  }

  /** A product no item names keeps its stock. */
  lemma {:induction false} QtyForAbsent(items: seq<SaleItem>, pid: int)
    requires forall k | 0 <= k < |items| :: items[k].productId != pid
    ensures QtyFor(items, pid) == 0
    decreases |items|
  {
    if |items| > 0 {
      QtyForAbsent(items[1..], pid);
    }
  }

  /** A product named by exactly one item drops by that item's quantity. */
  lemma {:induction false} QtyForSingle(items: seq<SaleItem>, pid: int, k: nat)
    requires k < |items| && items[k].productId == pid
    requires forall j | 0 <= j < |items| && j != k :: items[j].productId != pid
    ensures QtyFor(items, pid) == items[k].quantity
    decreases |items|
  {
    if k == 0 {
      QtyForAbsent(items[1..], pid);
    } else {
      QtyForSingle(items[1..], pid, k - 1);
    }
  }

  /** Repeated items add up: the decrement of a product over a concatenation
      of item lists is the sum of the decrements over each. */
  lemma {:induction false} QtyForAppend(a: seq<SaleItem>, b: seq<SaleItem>, pid: int)
    ensures QtyFor(a + b, pid) == QtyFor(a, pid) + QtyFor(b, pid)
    decreases |a|
  {
    if |a| == 0 {
      assert a + b == b;
    } else {
      assert (a + b)[1..] == a[1..] + b;
      QtyForAppend(a[1..], b, pid);
    }
  }

  /** A successful create leaves every earlier sale, and every product that no
      item names, exactly as it was. */
  lemma CreateLeavesOthersAlone(db: Db, cashier: Option<int>, req: SaleRequest, now: int, fault: Option<nat>, i: nat)
    requires Create(db, cashier, req, now, fault).1.Completed?
    requires i < |db.products|
    requires forall k | 0 <= k < |req.items| :: req.items[k].productId != db.products[i].id
    ensures Create(db, cashier, req, now, fault).0.products[i] == db.products[i]
    ensures Create(db, cashier, req, now, fault).0.sales[..|db.sales|] == db.sales
  {
    QtyForAbsent(req.items, db.products[i].id);
    var r := Create(db, cashier, req, now, fault);
    assert r.0.products[i] == db.products[i].(stock := db.products[i].stock - 0);
  }

  /** There is no stock check: a commit can drive stock below zero. */
  lemma StockCanGoNegative()
    ensures
      var db := Db([Product(1, "Soap", 1, 2500, 1, "Active")], [], [], [], [], [], 2, 1, 1, 1, 1);
      var req := SaleRequest(None, Some(5500), "Cash", [SaleItem(1, 2, 2500, 5000)]);
      var r := Create(db, Some(7), req, 0, None);
      r.1 == Completed(1) && r.0.products[0].stock == -1
  {
    var db := Db([Product(1, "Soap", 1, 2500, 1, "Active")], [], [], [], [], [], 2, 1, 1, 1, 1);
    var req := SaleRequest(None, Some(5500), "Cash", [SaleItem(1, 2, 2500, 5000)]);
    assert QtyFor(req.items, 1) == 2;
  }

  /** A commit keeps the database well formed: the new header takes the
      counter's value and the new details reference it; a rollback at most
      moves the counter on. */
  lemma CreatePreservesWellFormed(db: Db, cashier: Option<int>, req: SaleRequest, now: int, fault: Option<nat>)
    requires WellFormed(db) && db.nextSaleId > 0
    ensures WellFormed(Create(db, cashier, req, now, fault).0)
  {
    var r := Create(db, cashier, req, now, fault);
    if r.1.Completed? {
      var header := Sale(db.nextSaleId, now, req.customerId, cashier.value,
                         req.totalAmount.value, req.paymentMethod, CompletedStatus);
      AppendFreshKey(db.sales, SaleKey, db.nextSaleId, header);
      forall i, j | 0 <= i < j < |r.0.products| ensures r.0.products[i].id != r.0.products[j].id {
        assert db.products[i].id != db.products[j].id;
      }
      forall i | 0 <= i < |r.0.products| ensures 0 < r.0.products[i].id < r.0.nextProductId {
        assert r.0.products[i].id == db.products[i].id;
      }
      forall i | 0 <= i < |r.0.details| ensures r.0.details[i].saleId < r.0.nextSaleId {
        if i < |db.details| {
          assert r.0.details[i] == r.0.details[..|db.details|][i];
        } else {
          var k := i - |db.details|;
          assert r.0.details[|db.details| + k] == DetailOf(db.nextSaleId, req.items[k]);
        }
      }
    }
  }

  /** sales.php `update`: `UPDATE sales SET Status = :status WHERE
      Sale_ID = :sale_id`. Any status is accepted and nothing else moves:
      stock is not restored and the details are untouched. An unknown id
      matches no row and still reports success. */
  function UpdateStatus(db: Db, saleId: int, status: string): (r: (Db, Reply))
    ensures r.1 == Success("Sale updated successfully")
    ensures r.0 == db.(sales := r.0.sales)
    ensures |r.0.sales| == |db.sales|
    ensures forall i | 0 <= i < |db.sales| ::
              && r.0.sales[i] == db.sales[i].(status := r.0.sales[i].status)
              && r.0.sales[i].status == if db.sales[i].id == saleId then status else db.sales[i].status
  {
    var sales := seq(|db.sales|, i requires 0 <= i < |db.sales| =>
      if db.sales[i].id == saleId then db.sales[i].(status := status) else db.sales[i]);
    (db.(sales := sales), Success("Sale updated successfully"))
  }

  /** Setting the same status twice is the same as setting it once. */
  lemma UpdateStatusIdempotent(db: Db, saleId: int, status: string)
    ensures UpdateStatus(UpdateStatus(db, saleId, status).0, saleId, status) == UpdateStatus(db, saleId, status)
  {
    var once := UpdateStatus(db, saleId, status).0;
    var twice := UpdateStatus(once, saleId, status).0;
    assert twice.sales == once.sales;
  }

  /** There is no transition rule: a refunded sale can be set back to
      `Completed`, and the refund never returned its stock. */
  lemma RefundIsReversible(db: Db, i: nat)
    requires i < |db.sales|
    ensures
      var refunded := UpdateStatus(db, db.sales[i].id, "Refunded").0;
      var again := UpdateStatus(refunded, db.sales[i].id, CompletedStatus).0;
      && refunded.sales[i].status == "Refunded"
      && again.sales[i].status == CompletedStatus
      && refunded.products == db.products && again.products == db.products
  {
  }

  /** The list filters of sales.php `read`. A day bound is None when the
      posted date is empty; an empty (or "0") method or status is no filter. */
  datatype SaleFilter = SaleFilter(startDay: Option<int>, endDay: Option<int>, paymentMethod: string, status: string)

  /** SQL `DATE(Sale_Date)`: the day number of a timestamp in seconds. */
  function Day(t: int): int {
    t / 86400
  }

  /** A sale satisfies every non-empty filter: an inclusive day range, the
      payment method, the status. */
  predicate MatchesFilter(f: SaleFilter, s: Sale) {
    && (f.startDay.None? || Day(s.date) >= f.startDay.value)
    && (f.endDay.None? || Day(s.date) <= f.endDay.value)
    && (PhpEmpty(f.paymentMethod) || s.paymentMethod == f.paymentMethod)
    && (PhpEmpty(f.status) || s.status == f.status)
  }

  /** sales.php `read` without an id: exactly the matching sales, each as
      often as in the ledger, newest first. */
  function ListSales(db: Db, f: SaleFilter): (r: seq<Sale>)
    ensures forall s :: s in r <==> s in db.sales && MatchesFilter(f, s)
    ensures forall s :: multiset(r)[s] == if MatchesFilter(f, s) then multiset(db.sales)[s] else 0
    ensures Sorted(r, NewestSaleFirst)
  {
    DateOrdersArePreorders();
    var matching := Filter(db.sales, s => MatchesFilter(f, s));
    var r := Sort(matching, NewestSaleFirst);
    PermutationMembers(matching, r);
    r
  }

  /** `c.Name as customer_name` of `LEFT JOIN customer`: NULL for a walk-in
      sale and for a customer no row has. */
  function CustomerName(db: Db, id: Option<int>): (r: Option<string>)
    ensures r.Some? <==> id.Some? && HasKey(db.customers, CustomerKey, id.value)
    ensures r.Some? ==> exists c | c in db.customers :: c.id == id.value && c.name == r.value
  {
    if id.None? then None
    else match Lookup(db.customers, CustomerKey, id.value)
      case None => None
      case Some(c) => Some(c.name)
  }

  /** `e.Full_Name as cashier_name` of `LEFT JOIN employee`: NULL for an
      employee no row has. */
  function CashierName(db: Db, id: int): (r: Option<string>)
    ensures r.Some? <==> HasKey(db.employees, EmployeeKey, id)
    ensures r.Some? ==> exists e | e in db.employees :: e.id == id && e.fullName == r.value
  {
    match Lookup(db.employees, EmployeeKey, id)
    case None => None
    case Some(e) => Some(e.fullName)
  }

  /** A listed sale: the header with its customer's and cashier's names. */
  datatype SaleRow = SaleRow(sale: Sale, customerName: Option<string>, cashierName: Option<string>)

  function RowOf(db: Db, s: Sale): SaleRow {
    SaleRow(s, CustomerName(db, s.customerId), CashierName(db, s.cashierId))
  }

  /** sales.php `read` without an id, as answered: the filtered listing, row
      for row, each sale with its names. */
  function ListRows(db: Db, f: SaleFilter): (r: seq<SaleRow>)
    ensures |r| == |ListSales(db, f)|
    ensures forall i | 0 <= i < |r| :: r[i] == RowOf(db, ListSales(db, f)[i])
    ensures forall s :: RowOf(db, s) in r <==> s in db.sales && MatchesFilter(f, s)
  {
    var sales := ListSales(db, f);
    var r := seq(|sales|, i requires 0 <= i < |sales| => RowOf(db, sales[i]));
    forall s | s in sales ensures RowOf(db, s) in r {
      var i :| 0 <= i < |sales| && sales[i] == s;
      assert r[i] == RowOf(db, s);
    }
    r
  }

  /** A detail row of a sale joined with its product's name. */
  datatype ItemView = ItemView(detail: SaleDetail, productName: string)

  /** A sale header with its customer's and cashier's names and its items. */
  datatype SaleView = SaleView(sale: Sale, customerName: Option<string>, cashierName: Option<string>, items: seq<ItemView>)

  /** The detail rows of joined items, in order. */
  function DetailsOf(items: seq<ItemView>): (ds: seq<SaleDetail>)
    ensures |ds| == |items| && forall i | 0 <= i < |items| :: ds[i] == items[i].detail
  {
    seq(|items|, i requires 0 <= i < |items| => items[i].detail)
  }

  /** The join condition: the detail belongs to the sale and its product
      still exists. */
  predicate Joined(products: seq<Product>, saleId: int, d: SaleDetail) {
    d.saleId == saleId && HasKey(products, ProductKey, d.productId)
  }

  /** `sales_detail sd JOIN product p ... WHERE sd.Sale_ID = :sale_id`: an
      inner join, so a detail whose product has been deleted is not shown. */
  function JoinItems(details: seq<SaleDetail>, products: seq<Product>, saleId: int): (r: seq<ItemView>)
    ensures forall v :: v in r <==>
              && v.detail in details && v.detail.saleId == saleId
              && Lookup(products, ProductKey, v.detail.productId).Some?
              && Lookup(products, ProductKey, v.detail.productId).value.name == v.productName
    ensures |r| <= |details|
  {
    if |details| == 0 then []
    else
      var rest := JoinItems(details[1..], products, saleId);
      var d := details[0];
      assert forall x | x in details :: x == d || x in details[1..];
      if d.saleId == saleId then
        match Lookup(products, ProductKey, d.productId)
        case Some(p) => [ItemView(d, p.name)] + rest
        case None => rest
      else rest
  }

  /** The join keeps every joined detail as often as it is stored, and no
      other. */
  lemma {:induction false} JoinItemsCounts(details: seq<SaleDetail>, products: seq<Product>, saleId: int, d: SaleDetail)
    ensures multiset(DetailsOf(JoinItems(details, products, saleId)))[d] ==
            if Joined(products, saleId, d) then multiset(details)[d] else 0
    decreases |details|
  {
    if |details| > 0 {
      var head, tail := details[0], details[1..];
      JoinItemsCounts(tail, products, saleId, d);
      assert multiset(details)[d] == multiset([head])[d] + multiset(tail)[d] by {
        assert details == [head] + tail;
      }
      if Joined(products, saleId, head) {
        JoinedHead(details, products, saleId);
      } else {
        assert JoinItems(details, products, saleId) == JoinItems(tail, products, saleId);
      }
    }
  }

  /** A head detail that joins comes first, followed by the join of the rest. */
  lemma JoinedHead(details: seq<SaleDetail>, products: seq<Product>, saleId: int)
    requires |details| > 0 && Joined(products, saleId, details[0])
    ensures DetailsOf(JoinItems(details, products, saleId)) ==
            [details[0]] + DetailsOf(JoinItems(details[1..], products, saleId))
  {
    var rest := JoinItems(details[1..], products, saleId);
    var p := Lookup(products, ProductKey, details[0].productId).value;
    assert JoinItems(details, products, saleId) == [ItemView(details[0], p.name)] + rest;
    DetailsOfCons(ItemView(details[0], p.name), rest);
  }

  lemma DetailsOfCons(v: ItemView, rest: seq<ItemView>)
    ensures DetailsOf([v] + rest) == [v.detail] + DetailsOf(rest)
  {
    assert forall k | 0 < k <= |rest| :: ([v] + rest)[k] == rest[k - 1];
  }

  /** sales.php `read` with an id: the sale and its items, or "Sale not found". */
  function ReadSale(db: Db, saleId: int): (r: Result<SaleView>)
    ensures r.Err? <==> !HasKey(db.sales, SaleKey, saleId)
    ensures r.Err? ==> r.message == "Sale not found"
    ensures r.Ok? ==> r.value.sale in db.sales && r.value.sale.id == saleId
    ensures r.Ok? ==> r.value.items == JoinItems(db.details, db.products, saleId)
    ensures r.Ok? ==> r.value.customerName == CustomerName(db, r.value.sale.customerId)
    ensures r.Ok? ==> r.value.cashierName == CashierName(db, r.value.sale.cashierId)
  {
    match Lookup(db.sales, SaleKey, saleId)
    case None => Err("Sale not found")
    case Some(s) =>
      Ok(SaleView(s, CustomerName(db, s.customerId), CashierName(db, s.cashierId),
                  JoinItems(db.details, db.products, saleId)))
  }

  datatype ReadReply = One(sale: Result<SaleView>) | Many(sales: seq<SaleRow>)

  /** sales.php `read`: a truthy `Sale_ID` reads one sale, anything else
      (missing, empty, 0) lists with the filters. */
  function Read(db: Db, saleId: Option<int>, f: SaleFilter): (r: ReadReply)
    ensures r.One? <==> !PhpEmptyNum(saleId)
    ensures r.One? ==> r.sale == ReadSale(db, saleId.value)
    ensures r.Many? ==> r.sales == ListRows(db, f)
  {
    if PhpEmptyNum(saleId) then Many(ListRows(db, f)) else One(ReadSale(db, saleId.value))
  }

  /** Reading a sale right after its commit gives back the header as
      recorded, with status `Completed`, and one item per posted line whose
      product exists. */
  lemma {:induction false} ReadAfterCreate(db: Db, cashier: Option<int>, req: SaleRequest, now: int, fault: Option<nat>)
    requires WellFormed(db)
    requires Create(db, cashier, req, now, fault).1.Completed?
    ensures
      var (db', reply) := Create(db, cashier, req, now, fault);
      var v := ReadSale(db', reply.saleId);
      && v.Ok?
      && v.value.sale == Sale(reply.saleId, now, req.customerId, cashier.value,
                              req.totalAmount.value, req.paymentMethod, CompletedStatus)
      && forall k | 0 <= k < |req.items| && HasKey(db'.products, ProductKey, req.items[k].productId) ::
           exists v' :: v' in v.value.items && v'.detail == DetailOf(reply.saleId, req.items[k])
  {
    var (db', reply) := Create(db, cashier, req, now, fault);
    var id := reply.saleId;
    assert db'.sales[|db.sales|].id == id;
    forall i | 0 <= i < |db.sales| ensures db'.sales[i].id != id {
      assert db'.sales[i] == db.sales[i];
    }
    var v := ReadSale(db', id);
    assert v.value.sale == db'.sales[|db.sales|];
    forall k | 0 <= k < |req.items| && HasKey(db'.products, ProductKey, req.items[k].productId)
      ensures exists v' :: v' in v.value.items && v'.detail == DetailOf(id, req.items[k])
    {
      var d := db'.details[|db.details| + k];
      assert d in db'.details;
      var p := Lookup(db'.products, ProductKey, d.productId);
      assert ItemView(d, p.value.name) in v.value.items;
    }
  }
}

=== FILE: schema.dfy ===
/** The database the PHP handlers share: one sequence of rows per table and
    one AUTO_INCREMENT counter per table with a generated key. Column names
    follow the SQL (`Stock_Quantity` is `stock`, `TotalAmount` is
    `totalAmount`, ...). Money is held in integer minor units (centavos). */
module Schema {
  import opened Common
  import opened Rows

  /** A stored password. `password_hash` is not modelled: the hash is an
      opaque wrapper around the plain text. */
  datatype Secret = Hashed(plain: string)

  datatype Product = Product(id: int, name: string, categoryId: int, price: int, stock: int, status: string)

  datatype Category = Category(id: int, name: string)

  datatype Customer = Customer(id: int, name: string, contact: string, email: string, address: string)

  /** `createdAt` is the `NOW()` timestamp of the insert, in seconds. */
  datatype Employee = Employee(
    id: int, username: string, password: Secret, fullName: string,
    role: string, status: string, createdAt: int)

  /** A sales header. `date` is the `NOW()` timestamp of the commit, in
      seconds; `customerId` is None for a walk-in sale (SQL NULL). */
  datatype Sale = Sale(
    id: int, date: int, customerId: Option<int>, cashierId: int,
    totalAmount: int, paymentMethod: string, status: string)

  /** A `sales_detail` row: one product line of a committed sale. */
  datatype SaleDetail = SaleDetail(saleId: int, productId: int, quantity: int, price: int, subTotal: int)

  datatype Db = Db(
    products: seq<Product>,
    categories: seq<Category>,
    customers: seq<Customer>,
    employees: seq<Employee>,
    sales: seq<Sale>,
    details: seq<SaleDetail>,
    nextProductId: int,
    nextCategoryId: int,
    nextCustomerId: int,
    nextEmployeeId: int,
    nextSaleId: int)

  function ProductKey(p: Product): int { p.id }
  function CategoryKey(c: Category): int { c.id }
  function CustomerKey(c: Customer): int { c.id }
  function EmployeeKey(e: Employee): int { e.id }
  function SaleKey(s: Sale): int { s.id }

  /** Every key in `s` was issued by a counter now standing at `next`. */
  ghost predicate KeysBelow<T>(s: seq<T>, key: T -> int, next: int) {
    forall i | 0 <= i < |s| :: 0 < key(s[i]) < next
  }

  /** Primary keys are unique and below their table's AUTO_INCREMENT counter,
      and every detail row belongs to a sale id already issued. */
  ghost predicate WellFormed(db: Db) {
    && (forall i | 0 <= i < |db.details| :: db.details[i].saleId < db.nextSaleId)
    && UniqueKeys(db.products, ProductKey) && KeysBelow(db.products, ProductKey, db.nextProductId)
    && UniqueKeys(db.categories, CategoryKey) && KeysBelow(db.categories, CategoryKey, db.nextCategoryId)
    && UniqueKeys(db.customers, CustomerKey) && KeysBelow(db.customers, CustomerKey, db.nextCustomerId)
    && UniqueKeys(db.employees, EmployeeKey) && KeysBelow(db.employees, EmployeeKey, db.nextEmployeeId)
    && UniqueKeys(db.sales, SaleKey) && KeysBelow(db.sales, SaleKey, db.nextSaleId)
  }

  /** Appending a row keyed by the counter's value, and advancing the
      counter, keeps the keys unique and below the counter. */
  lemma {:induction false} AppendFreshKey<T>(s: seq<T>, key: T -> int, next: int, row: T)
    requires UniqueKeys(s, key) && KeysBelow(s, key, next)
    requires key(row) == next && next > 0
    ensures UniqueKeys(s + [row], key) && KeysBelow(s + [row], key, next + 1)
  {
    forall i, j | 0 <= i < j < |s + [row]| ensures key((s + [row])[i]) != key((s + [row])[j]) {
      if j == |s| {
        assert (s + [row])[i] == s[i];
      } else {
        assert (s + [row])[i] == s[i] && (s + [row])[j] == s[j];
      }
    }
    forall i | 0 <= i < |s + [row]| ensures 0 < key((s + [row])[i]) < next + 1 {
      if i < |s| {
        assert (s + [row])[i] == s[i];
      }
    }
  }

  /** Keeping a subsequence of a table keeps its keys unique and below the
      counter: deletes preserve well-formedness. */
  lemma SubseqKeys<T>(r: seq<T>, s: seq<T>, key: T -> int, next: int)
    requires SubseqOf(r, s) && UniqueKeys(s, key) && KeysBelow(s, key, next)
    ensures UniqueKeys(r, key) && KeysBelow(r, key, next)
  {
    SubseqUnique(r, s, key);
    SubseqMembers(r, s);
    forall i | 0 <= i < |r| ensures 0 < key(r[i]) < next {
      assert r[i] in r;
      var k :| 0 <= k < |s| && s[k] == r[i];
    }
  }

  /** `ORDER BY Product_Name`, `ORDER BY c.Name`, `ORDER BY c.Category_Name`
      under a case-insensitive collation. */
  predicate ProductNameLe(a: Product, b: Product) { LexLe(ToLower(a.name), ToLower(b.name)) }
  predicate CustomerNameLe(a: Customer, b: Customer) { LexLe(ToLower(a.name), ToLower(b.name)) }
  predicate CategoryNameLe(a: Category, b: Category) { LexLe(ToLower(a.name), ToLower(b.name)) }

  /** `ORDER BY s.Sale_Date DESC` and `ORDER BY created_at DESC`. */
  predicate NewestSaleFirst(a: Sale, b: Sale) { a.date >= b.date }
  predicate NewestEmployeeFirst(a: Employee, b: Employee) { a.createdAt >= b.createdAt }

  lemma NameOrdersArePreorders()
    ensures TotalPreorder(ProductNameLe)
    ensures TotalPreorder(CustomerNameLe)
    ensures TotalPreorder(CategoryNameLe)
  {
    forall a: string, b: string ensures LexLe(a, b) || LexLe(b, a) {
      LexLeTotal(a, b);
    }
    forall a: string, b: string, c: string | LexLe(a, b) && LexLe(b, c) ensures LexLe(a, c) {
      LexLeTransitive(a, b, c);
    }
  }

  lemma DateOrdersArePreorders()
    ensures TotalPreorder(NewestSaleFirst)
    ensures TotalPreorder(NewestEmployeeFirst)
  {
  }
}

=== FILE: setup.dfy ===
/** CheckSetup.php: whether the first-run setup screen is needed. The system
    counts as set up once an active Admin account exists. */
module Setup {
  import opened Common
  import opened Rows
  import opened Schema
  import Employees

  /** The `WHERE Role = 'Admin' AND Status = 'Active'` of the count. */
  predicate ActiveAdmin(e: Employee) {
    e.role == "Admin" && e.status == "Active"
  }

  function IsActiveAdmin(): Employee -> bool {
    (e: Employee) => ActiveAdmin(e)
  }

  /** `SetupChecker.isSystemSetup`. `employees` is None when the count query
      raises a PDOException, which the method turns into false. */
  function IsSystemSetup(employees: Option<seq<Employee>>): (r: bool)
    ensures employees.None? ==> !r
    ensures employees.Some? ==> (r <==> exists i | 0 <= i < |employees.value| :: ActiveAdmin(employees.value[i]))
  {
    match employees
    case None => false
    case Some(es) => Count(es, IsActiveAdmin()) > 0
  }

  /** The `needs_setup` answer: the negation of `isSystemSetup` for a GET,
      and false for every other method. */
  function NeedsSetup(isGet: bool, employees: Option<seq<Employee>>): (r: bool)
    ensures !isGet ==> !r
    ensures isGet && employees.None? ==> r
    ensures isGet && employees.Some? ==>
              (r <==> forall i | 0 <= i < |employees.value| :: !ActiveAdmin(employees.value[i]))
  {
    isGet && !IsSystemSetup(employees)
  }

  /** An Admin that is not Active does not set the system up. */
  lemma InactiveAdminsDoNotCount(es: seq<Employee>)
    requires forall i | 0 <= i < |es| :: es[i].status != "Active"
    ensures NeedsSetup(true, Some(es))
  {
  }

  /** Creating an active Admin account sets the system up. */
  lemma CreatingActiveAdminSetsUp(db: Db, input: Employees.EmployeeInput, now: int)
    requires input.role == "Admin" && input.status == "Active"
    requires Employees.Create(db, input, now).1.Success?
    ensures IsSystemSetup(Some(Employees.Create(db, input, now).0.employees))
  {
    var es := Employees.Create(db, input, now).0.employees;
    assert ActiveAdmin(es[|db.employees|]);
  }

  /** No `create` undoes setup: the accounts before it are all still there. */
  lemma CreateKeepsSetup(db: Db, input: Employees.EmployeeInput, now: int)
    requires IsSystemSetup(Some(db.employees))
    ensures IsSystemSetup(Some(Employees.Create(db, input, now).0.employees))
  {
    var es := Employees.Create(db, input, now).0.employees;
    var i :| 0 <= i < |db.employees| && ActiveAdmin(db.employees[i]);
    assert es[i] == db.employees[i];
  }
}

=== FILE: tally.dfy ===
/** The grouping idiom reports.js uses twice: a plain object filled by
    `obj[key] = (obj[key] || 0) + amount` over a list, then read back with
    `Object.entries`, `Object.keys` or `Object.values` — keys in the order of
    their first insertion. */
module Tally {

  /** A key with an amount: one input point, or one property of the object. */
  datatype Entry = Entry(key: string, amount: int)

  /** The sum of the amounts of the points with key `k`: the reference value
      of the property `k`. */
  function SumFor(ps: seq<Entry>, k: string): int {
    if |ps| == 0 then 0
    else SumFor(ps[..|ps| - 1], k) + (if ps[|ps| - 1].key == k then ps[|ps| - 1].amount else 0)
  }

  /** The sum of all amounts. */
  function Total(ps: seq<Entry>): int {
    if |ps| == 0 then 0 else Total(ps[..|ps| - 1]) + ps[|ps| - 1].amount
  }

  predicate HasKey(ps: seq<Entry>, k: string) {
    exists i | 0 <= i < |ps| :: ps[i].key == k
  }

  /** Where property `k` sits, if the object has it. */
  function Position(es: seq<Entry>, k: string): (r: Option<nat>)
    ensures r.Some? ==> r.value < |es| && es[r.value].key == k
    ensures r.None? <==> !HasKey(es, k)
  {
    if |es| == 0 then None
    else if es[0].key == k then Some(0)
    else match Position(es[1..], k)
      case None => None
      case Some(j) => Some(j + 1)
  }

  datatype Option<T> = None | Some(value: T)

  /** `obj[k] = (obj[k] || 0) + a`: an existing property is raised in place; a
      new one is added last. */
  function AddTo(es: seq<Entry>, k: string, a: int): seq<Entry> {
    match Position(es, k)
    case Some(j) => es[j := Entry(k, es[j].amount + a)]
    case None => es + [Entry(k, a)]
  }

  /** The object's properties are distinct, hold the sums of their keys'
      points, are exactly the keys of the points, and come in the order of
      their keys' first points. */
  ghost predicate Tallies(es: seq<Entry>, ps: seq<Entry>) {
    && Distinct(es)
    && (forall i | 0 <= i < |es| :: es[i].amount == SumFor(ps, es[i].key))
    && (forall k :: HasKey(es, k) <==> HasKey(ps, k))
    && FirstSeenOrder(es, ps)
  }

  predicate Distinct(es: seq<Entry>) {
    forall i, j | 0 <= i < j < |es| :: es[i].key != es[j].key
  }

  /** Every point of a later property's key is preceded by a point of each
      earlier property's key. */
  ghost predicate FirstSeenOrder(es: seq<Entry>, ps: seq<Entry>) {
    forall i, j, p | 0 <= i < j < |es| && 0 <= p < |ps| && ps[p].key == es[j].key ::
      exists q | 0 <= q < p :: ps[q].key == es[i].key
  }

  /** The forEach over the points, property by property. */
  function Accumulate(ps: seq<Entry>): (es: seq<Entry>)
    ensures Tallies(es, ps)
    ensures Total(es) == Total(ps)
  {
    if |ps| == 0 then []
    else
      var es := Accumulate(ps[..|ps| - 1]);
      AddToTallies(es, ps);
      AddTo(es, ps[|ps| - 1].key, ps[|ps| - 1].amount)
  }

  /** A tally of the points with its total. */
  ghost predicate Keeps(es: seq<Entry>, ps: seq<Entry>) {
    Tallies(es, ps) && Total(es) == Total(ps)
  }

  lemma SumForStep(ps: seq<Entry>, x: Entry, k: string)
    ensures SumFor(ps + [x], k) == SumFor(ps, k) + (if x.key == k then x.amount else 0)
    ensures Total(ps + [x]) == Total(ps) + x.amount
  {
    assert (ps + [x])[..|ps|] == ps;
  }

  lemma {:induction false} SumForAbsent(ps: seq<Entry>, k: string)
    requires !HasKey(ps, k)
    ensures SumFor(ps, k) == 0
    decreases |ps|
  {
    if |ps| > 0 {
      var init := ps[..|ps| - 1];
      assert forall i | 0 <= i < |init| :: init[i] == ps[i];
      SumForAbsent(init, k);
    }
  }

  lemma {:induction false} TotalRaise(es: seq<Entry>, j: nat, a: int, k: string)
    requires j < |es|
    ensures Total(es[j := Entry(k, es[j].amount + a)]) == Total(es) + a
    decreases |es|
  {
    var es' := es[j := Entry(k, es[j].amount + a)];
    if j < |es| - 1 {
      assert es'[..|es'| - 1] == es[..|es| - 1][j := Entry(k, es[j].amount + a)];
      TotalRaise(es[..|es| - 1], j, a, k);
    } else {
      assert es'[..|es'| - 1] == es[..|es| - 1];
    }
  }

  /** One more point keeps the tally. */
  lemma AddToTallies(es: seq<Entry>, ps: seq<Entry>)
    requires |ps| > 0 && Keeps(es, ps[..|ps| - 1])
    ensures Keeps(AddTo(es, ps[|ps| - 1].key, ps[|ps| - 1].amount), ps)
  {
    var init, x := ps[..|ps| - 1], ps[|ps| - 1];
    SplitLast(ps);
    match Position(es, x.key)
    case Some(j) =>
      AddToRaises(es, x.key, x.amount, j);
      var es' := es[j := Entry(x.key, es[j].amount + x.amount)];
      RaiseCase(es, init, x, j);
      KeepsTransport(es', init + [x], AddTo(es, x.key, x.amount), ps);
    case None =>
      AppendCase(es, init, x);
      KeepsTransport(AddTo(es, x.key, x.amount), init + [x], AddTo(es, x.key, x.amount), ps);
  }

  lemma SplitLast(ps: seq<Entry>)
    requires |ps| > 0
    ensures ps[..|ps| - 1] + [ps[|ps| - 1]] == ps
  {
  }

  lemma KeepsTransport(es: seq<Entry>, ps: seq<Entry>, es': seq<Entry>, ps': seq<Entry>)
    requires Keeps(es, ps) && es == es' && ps == ps'
    ensures Keeps(es', ps')
  {
  }

  lemma AddToRaises(es: seq<Entry>, k: string, a: int, j: nat)
    requires Position(es, k) == Some(j)
    ensures j < |es| && es[j].key == k
    ensures AddTo(es, k, a) == es[j := Entry(k, es[j].amount + a)]
  {
  }

  lemma RaiseCase(es: seq<Entry>, ps: seq<Entry>, x: Entry, j: nat)
    requires Keeps(es, ps) && j < |es| && es[j].key == x.key
    ensures Keeps(es[j := Entry(x.key, es[j].amount + x.amount)], ps + [x])
  {
    SumForStep(ps, x, x.key);
    TotalRaise(es, j, x.amount, x.key);
    RaiseSums(es, ps, x, j);
    RaiseKeys(es, ps, x, j);
    RaiseKeepsOrder(es, ps, x, j);
  }

  lemma AppendCase(es: seq<Entry>, ps: seq<Entry>, x: Entry)
    requires Keeps(es, ps) && Position(es, x.key).None?
    ensures Keeps(AddTo(es, x.key, x.amount), ps + [x])
  {
    SumForStep(ps, x, x.key);
    SumForStep(es, Entry(x.key, x.amount), x.key);
    SumForAbsent(ps, x.key);
    AppendSums(es, ps, x);
    AppendKeys(es, ps, x);
    AppendKeepsOrder(es, ps, x);
  }

  lemma RaiseSums(es: seq<Entry>, ps: seq<Entry>, x: Entry, j: nat)
    requires Tallies(es, ps) && j < |es| && es[j].key == x.key
    ensures var es' := es[j := Entry(x.key, es[j].amount + x.amount)];
            forall i | 0 <= i < |es'| :: es'[i].amount == SumFor(ps + [x], es'[i].key)
  {
    var es' := es[j := Entry(x.key, es[j].amount + x.amount)];
    forall i | 0 <= i < |es'| ensures es'[i].amount == SumFor(ps + [x], es'[i].key) {
      SumForStep(ps, x, es'[i].key);
    }
  }

  lemma RaiseKeys(es: seq<Entry>, ps: seq<Entry>, x: Entry, j: nat)
    requires Tallies(es, ps) && j < |es| && es[j].key == x.key
    ensures var es' := es[j := Entry(x.key, es[j].amount + x.amount)];
            Distinct(es') && forall k :: HasKey(es', k) <==> HasKey(ps + [x], k)
  {
    var es' := es[j := Entry(x.key, es[j].amount + x.amount)];
    var ps' := ps + [x];
    assert forall i | 0 <= i < |es| :: es'[i].key == es[i].key;
    assert forall p | 0 <= p < |ps| :: ps'[p] == ps[p];
    assert ps'[|ps|].key == x.key;
    forall k ensures HasKey(es', k) <==> HasKey(ps', k) {
      assert HasKey(es', k) <==> HasKey(es, k);
      assert HasKey(ps', k) <==> HasKey(ps, k) || k == x.key;
    }
  }

  lemma RaiseKeepsOrder(es: seq<Entry>, ps: seq<Entry>, x: Entry, j: nat)
    requires Tallies(es, ps) && j < |es| && es[j].key == x.key
    ensures FirstSeenOrder(es[j := Entry(x.key, es[j].amount + x.amount)], ps + [x])
  {
    var es' := es[j := Entry(x.key, es[j].amount + x.amount)];
    var ps' := ps + [x];
    forall i, l, p | 0 <= i < l < |es'| && 0 <= p < |ps'| && ps'[p].key == es'[l].key
      ensures exists q | 0 <= q < p :: ps'[q].key == es'[i].key
    {
      assert es'[l].key == es[l].key && es'[i].key == es[i].key;
      var p0 := p;
      if p == |ps| {
        assert HasKey(es, es[l].key);
        p0 :| 0 <= p0 < |ps| && ps[p0].key == es[l].key;
      } else {
        assert ps[p] == ps'[p];
      }
      var q :| 0 <= q < p0 && ps[q].key == es[i].key;
      assert ps'[q].key == es'[i].key;
    }
    assert FirstSeenOrder(es', ps');
  }

  lemma AppendSums(es: seq<Entry>, ps: seq<Entry>, x: Entry)
    requires Tallies(es, ps) && !HasKey(es, x.key) && SumFor(ps, x.key) == 0
    ensures var es' := es + [Entry(x.key, x.amount)];
            forall i | 0 <= i < |es'| :: es'[i].amount == SumFor(ps + [x], es'[i].key)
  {
    var es' := es + [Entry(x.key, x.amount)];
    forall i | 0 <= i < |es'| ensures es'[i].amount == SumFor(ps + [x], es'[i].key) {
      SumForStep(ps, x, es'[i].key);
    }
  }

  lemma AppendKeys(es: seq<Entry>, ps: seq<Entry>, x: Entry)
    requires Tallies(es, ps) && !HasKey(es, x.key)
    ensures var es' := es + [Entry(x.key, x.amount)];
            Distinct(es') && forall k :: HasKey(es', k) <==> HasKey(ps + [x], k)
  {
    var es' := es + [Entry(x.key, x.amount)];
    var ps' := ps + [x];
    assert forall i | 0 <= i < |es| :: es'[i] == es[i];
    assert forall p | 0 <= p < |ps| :: ps'[p] == ps[p];
    assert es'[|es|].key == x.key && ps'[|ps|].key == x.key;
    forall k ensures HasKey(es', k) <==> HasKey(ps', k) {
      assert HasKey(es', k) <==> HasKey(es, k) || k == x.key;
      assert HasKey(ps', k) <==> HasKey(ps, k) || k == x.key;
    }
  }

  lemma AppendKeepsOrder(es: seq<Entry>, ps: seq<Entry>, x: Entry)
    requires Tallies(es, ps) && !HasKey(es, x.key)
    ensures FirstSeenOrder(es + [Entry(x.key, x.amount)], ps + [x])
  {
    var es' := es + [Entry(x.key, x.amount)];
    var ps' := ps + [x];
    forall i, l, p | 0 <= i < l < |es'| && 0 <= p < |ps'| && ps'[p].key == es'[l].key
      ensures exists q | 0 <= q < p :: ps'[q].key == es'[i].key
    {
      assert es'[i] == es[i];
      if l == |es| {
        assert HasKey(es, es[i].key);
        var q :| 0 <= q < |ps| && ps[q].key == es[i].key;
        assert ps'[q].key == es'[i].key;
      } else {
        assert es'[l] == es[l];
        var q :| 0 <= q < p && ps[q].key == es[i].key;
        assert ps'[q].key == es'[i].key;
      }
    }
  }
}
